=== FILE: README.md ===
# Malfunctional Attendance Bot — a Dafny model of the callout pipeline

The attendance bot lets raid members "call out": they report that they will be LATE (with a delay in minutes) or OUT on a given day. This happens either in a direct message to a Discord bot or in a web calendar.

- **Chat path.** A language model turns the chat message into a draft. The bot holds the draft in a confirmation ledger until its author confirms, cancels or lets it expire. Confirmation posts it to the web server.
- **Table rules.** The server enforces several rules on the callout table: a shared bot secret, a login, owner-or-admin rights, no past dates, and the merge performed by an update.
- **Web front end.** The calendar builds a month grid and guards against a second callout by the same person on the same day. The admin pages filter, sort and count callouts and users.

This project models that core as pure Dafny functions over immutable values and proves what the code promises. All the modules are compiled together, and each one imports the modules it needs:

| module | file | models |
|---|---|---|
| `Js` | js.dfy | the JavaScript semantics the rest relies on. This covers values and truthiness, `trim`, ASCII case mapping, `split`/`join` and `filter`. It also covers string order, `[...new Set(x)].sort()`, comparator sorting, and number printing and `parseInt`. |
| `Dates` | dates.dfy | `YYYY-MM-DD` strings, Gregorian arithmetic (days in month, weekday) and V8's reading of date-only strings. Its central lemma: on well-formed strings, JavaScript's `<` is chronological order. |
| `Interpreter` | interpreter.dfy | the checks and normalisation after the language-model call in `openaiCallout.js`. The model's reply is a parameter. |
| `Ledger` | ledger.dfy | the bot's pending-confirmation map in `discordClient.js`. It is a `Step(ledger, event)` function returning the new ledger and the replies sent. |
| `Middleware` | middleware.dfy | the two session guards of `middleware/auth.js`. |
| `Server` | server.dfy | the callout and user routes of `server.mjs` over an abstract database value. |
| `ClientUtils` | client_utils.dfy | `formatDateForComparison`, `isValidDate`, `isPastDate`, `validateCalloutData`, `sanitizeInput`, `capitalize` and `truncate` of `utils.js`. |
| `StringUtils` | string_utils.dfy | `utils/string.js`. |
| `CalloutForm` | callout_form.dfy | the calendar's form. This covers record construction, the two form validations and the existing-callout warning. It also covers the duplicate guard, PUT/POST routing, the modal reset and the manager's statistics. |
| `CalendarGrid` | calendar_grid.dfy | the month grid: week rows, cell dates, adjacent-month numbering and navigation. It also covers the per-day LATE/OUT totals and the responsive class. |
| `AdminCallouts` | admin_callouts.dfy | the admin callout table: filters, the LATE-first comparator, cell truncation, relative-day labels and drop-down options. |
| `AdminUsers` | admin_users.dfy | the admin user panel: role precedence, the F&F id list toggle, filters, sorting and head counts. |
| `Dashboard` | dashboard.dfy | the dashboard's statistics and display helpers. |
| `AuthClient` | auth_client.dfy | the browser's authentication manager: the signed-in user, names, avatar URL and the listener registry. |

Several front-end files repeat the same logic:

- `calendar.js` and `CalendarRenderer.js` have the same `calculateWeeksNeeded` and `getResponsiveClass`.
- `calendar.js` and `CalloutManager.js` have the same duplicate guard.
- `calendar.js` and `CalloutModal.js` build the same record and show the same existing-callout warning.
- `DashboardUtils.js` has the same `getUserRole`, `toggleFFRole`, `getFriendsFamilyUsers` and `truncateText` as `adminAPI.js`, `DashboardStats.js` and `adminCallouts.js`.

The model defines each of these once. Where two copies differ, it defines both and proves how they relate: the page's and the manager's form validation, and the page's and the modal's submit.

Some inputs are parameters rather than computed:

- The oracle (the language-model reply).
- Clocks ("today" in UTC, in the server's zone and in the browser's zone; the local year; the start of the week; "now" in milliseconds).
- The result of the bot's save request.
- The browser's and the host's date conversions for strings that are not `YYYY-MM-DD`.
- The user's answer to the replace prompt.
- The F&F list that the browser keeps in local storage.

Modelling conventions:

- A date key of a stored callout (`new Date(date).toISOString()` up to the `T`) is a field of the client-side record.
- A callback is an opaque number.
- A percentage the admin pages print with `toFixed(1)` is kept as the exact ratio.

## Model

| member | source | states |
|---|---|---|
| `Dates.LexOrderIsChronological` | passthrough/openaiCallout.js:126-130 | On well-formed `YYYY-MM-DD` strings, JavaScript's string `<` holds exactly when the first date is chronologically earlier. Two such strings are equal exactly when the dates are. This is what justifies every past-date check in the system. |
| `Dates.YearIsParseIntOfFirstField` | passthrough/openaiCallout.js:117 | `parseInt(date.split('-')[0])` reads the year of a well-formed date string. |
| `Dates.DaysInMonth` | public_html/modules/calendar/CalendarRenderer.js:44 | `new Date(y, m, 0).getDate()` is between 28 and 31, and February has 29 days exactly in leap years. |
| `Dates.ParseFormat` | public_html/modules/utils.js:204-208 | Printing a date with zero-padded fields and parsing the string back gives the date. |
| `Dates.FormatParse` | public_html/modules/utils.js:204-208 | Parsing a well-formed string and printing it back gives the same string. |
| `Dates.ParseIsoDate` | public_html/modules/utils.js:472-477 | V8 accepts a date-only string exactly when it is well formed with month 1 to 12 and day 1 to 31. A day past the month's end rolls into the next month, the result is always a real date, and a real date reads as itself. |
| `Dates.RealDateRoundTrip` | passthrough/server.mjs:49-57 | A well-formed string naming a real date parses and prints back unchanged through `toISOString().split('T')[0]`. |
| `Interpreter.StatusOf` | passthrough/openaiCallout.js:132-134 | Only the upper-cased names LATE and OUT are statuses, and each names its own status. |
| `Interpreter.NormalReason` | passthrough/openaiCallout.js:136-138 | The reason is kept when it is a string and becomes `''` otherwise. |
| `Interpreter.NormalDelay` | passthrough/openaiCallout.js:141-146 | For LATE, a positive numeric delay is kept, and a truthy delay that is not a positive number becomes null. A missing or falsy delay, and every OUT delay, is left as it is. Any truthy LATE delay that survives is a positive number. |
| `Interpreter.Validate` | passthrough/openaiCallout.js:101-149 | Every failure carries a truthy error. Every success has a well-formed date that is not before today's UTC date, a year not below the current year, the date and status the oracle gave (status upper-cased to LATE or OUT), the normalised reason, and the oracle's delay as the LATE rule normalises it. |
| `Interpreter.Interpret` | passthrough/openaiCallout.js:57-154 | Input that is not a string of at least four characters fails with `Message too short or invalid.` A success needs a long-enough input and a parsed object from the oracle, and its date is well formed and not in the past. A long-enough input whose oracle reply parses to an object gets exactly the verdict of `Validate` on that object. |
| `Interpreter.ShortInputSkipsOracle` | passthrough/openaiCallout.js:58-60 | For input that fails the length guard, the oracle's reply makes no difference. |
| `Interpreter.OracleErrorPropagates` | passthrough/openaiCallout.js:101-103 | A truthy `error` field of the oracle's object is returned verbatim. |
| `Interpreter.MissingFieldsRefused` | passthrough/openaiCallout.js:105-107 | Without an `error`, an object whose status or date is falsy is refused with `Missing required fields.` |
| `Interpreter.BadDateFormatRefused` | passthrough/openaiCallout.js:109-114 | A string status with a truthy date that does not match `YYYY-MM-DD` is refused with `Date format is invalid or missing.` |
| `Interpreter.UnparsableContentQuoted` | passthrough/openaiCallout.js:86-98 | For a long-enough message, content that is not JSON gives `Unparsable` of the trimmed content, that is `Could not parse response: ` followed by it. |
| `Interpreter.NoChoicesReported` | passthrough/openaiCallout.js:82-84 | For a long-enough message, a reply without choices gives `No response from OpenAI.` |
| `Interpreter.CrashesReported` | passthrough/openaiCallout.js:150-153 | For a long-enough message, a failed call and a `null` object both give `AI callout parsing failed.` |
| `Interpreter.PastYearFirst` | passthrough/openaiCallout.js:117-123 | A year below the current one gives the past-year message whatever the month, day, today's date or status. |
| `Interpreter.DateChecksPrecedeStatus` | passthrough/openaiCallout.js:126-134 | A past date with an invalid status is reported as a past date: the date checks run before the status check. |
| `Interpreter.TodayIsAccepted` | passthrough/openaiCallout.js:126-130 | A draft dated today (UTC) with a valid status is accepted. |
| `Interpreter.PastDateIsChronological` | passthrough/openaiCallout.js:126-130 | An accepted draft's date is not chronologically before today. |
| `Interpreter.StatusIsCaseInsensitive` | passthrough/openaiCallout.js:109 | Changing the letter case of the status changes neither acceptance nor the status of the draft. |
| `Ledger.CustomIdRoundTrip` | passthrough/bot/discordClient.js:190-193 | Splitting `<action>_callout_<id>` on `_` gives back the action and the confirmation id, even when the id itself contains `_`. |
| `Ledger.ConfirmationIdsDistinct` | passthrough/bot/discordClient.js:126 | One author's confirmations created at different milliseconds get different ids. |
| `Ledger.Summarize` | passthrough/bot/discordClient.js:38-44 | The prompt shows the reason exactly when it is not blank after trimming. It shows the delay exactly for a LATE draft with a truthy delay. |
| `Ledger.Buttons` | passthrough/bot/discordClient.js:129-145 | The three buttons of a prompt parse back to confirm, edit and cancel for the prompt's own confirmation id. |
| `Ledger.MakePayload` | passthrough/bot/discordClient.js:60-66 | The posted body names the requester's username and carries the draft's status name, date and reason. The delay is the draft's own delay exactly when that is truthy, and null otherwise. |
| `Ledger.SaveError` | passthrough/bot/discordClient.js:69-82 | The save reports no error exactly when the endpoint accepted the request. |
| `Ledger.OnMessage` | passthrough/bot/discordClient.js:97-106 | Messages from bots, from channels other than a direct message, and blank messages change nothing and get no reply. No message touches any entry other than its own `authorId_now` key. |
| `Ledger.Record` | passthrough/bot/discordClient.js:114-153 | An interpretation error is quoted back and leaves the ledger unchanged. A success stores userId, username, draft and timestamp under `authorId_now` and sends one prompt whose buttons all carry that id. |
| `Ledger.OnButton` | passthrough/bot/discordClient.js:184-280 | A button press never adds an entry and never alters one; it can only remove one. |
| `Ledger.OnTimer` | passthrough/bot/discordClient.js:166-175 | The one-shot timer removes its entry and sends the expiry notice exactly when the entry is still present. |
| `Ledger.SweepLedger` | passthrough/bot/discordClient.js:297-311 | The sweep keeps exactly the entries with `now - timestamp <= 600000` and keeps them unchanged. |
| `Ledger.IgnoredMessages` | passthrough/bot/discordClient.js:98-106 | A bot author, a channel other than a direct message, or a blank message yields the same ledger and no output. |
| `Ledger.HandledTodayIsStored` | passthrough/bot/discordClient.js:97-153 | A handled direct message whose oracle reply is an error-free object dated today (UTC) with a LATE/OUT status is stored as a pending confirmation under `<author id>_<time>`, owned by the author, stamped with that time, dated today, and one prompt is sent. |
| `Ledger.HandledMessage` | passthrough/bot/discordClient.js:105-112 | A handled message is interpreted on its trimmed text. |
| `Ledger.AbsentConfirmation` | passthrough/bot/discordClient.js:197-207 | A button for an absent confirmation id gets the expired reply and leaves the ledger unchanged. |
| `Ledger.ForeignActor` | passthrough/bot/discordClient.js:212-219 | Anyone other than the requester gets a denial, and the entry stays. |
| `Ledger.ConfirmSavesOnce` | passthrough/bot/discordClient.js:221-253 | Confirming sends exactly one save request, for the stored draft, and removes the entry whether or not the save succeeded. It reports success exactly when the save was accepted. |
| `Ledger.DoubleConfirm` | passthrough/bot/discordClient.js:197-253 | Two sequential confirms make one save request; the second finds the entry gone. |
| `Ledger.CancelRemoves` | passthrough/bot/discordClient.js:255-265 | Cancel removes the entry and replies that the callout was cancelled. |
| `Ledger.EditThenConfirm` | passthrough/bot/discordClient.js:267-279 | Edit leaves the entry in place, so a later confirm on the same id still saves the original draft. |
| `Ledger.TimerExpiry` | passthrough/bot/discordClient.js:166-169 | The timer removes its entry only if present; otherwise nothing happens. |
| `Ledger.SweepKeepsBoundary` | passthrough/bot/discordClient.js:302 | An entry exactly ten minutes old survives the sweep: the comparison is strict. |
| `Ledger.SweepIdempotent` | passthrough/bot/discordClient.js:297-311 | A second sweep at the same `now` changes nothing. |
| `Ledger.OnlyMessagesAdd` | passthrough/bot/discordClient.js:184-311 | No event other than a message adds a confirmation id to the ledger. |
| `Ledger.Step` | passthrough/bot/discordClient.js:97-311 | The event dispatcher: other interactions change nothing and send nothing, a sweep sends nothing and only removes, and no event but a message adds a key. |
| `Middleware.IsAuthenticated` | passthrough/middleware/auth.js:4-8 | The guard passes exactly when the request has a session holding a user. Otherwise it answers 401 `Not logged in`. |
| `Middleware.IsAdmin` | passthrough/middleware/auth.js:12-16 | The guard passes exactly when the session user's `is_admin` is truthy. A session without a user gets 403 `Admin only`, and a request without a session makes the guard throw. |
| `Middleware.AdminImpliesAuthenticated` | passthrough/middleware/auth.js:4-16 | Whoever passes the admin guard passes the login guard. |
| `Server.BotSecretGate` | passthrough/server.mjs:195-215 | 500 exactly when no secret is configured, and 401 when the header is missing or differs. The request passes only on exact equality. |
| `Server.RequireLogin` | passthrough/server.mjs:179-184 | Only a logged-in caller passes. |
| `Server.RequireAdmin` | passthrough/server.mjs:187-192 | Only a logged-in caller whose `is_admin` is exactly 1 passes. |
| `Server.HostDate` | passthrough/server.mjs:49-52 | A `YYYY-MM-DD` value converts exactly when V8 accepts it, and converts to a well-formed date. |
| `Server.FormatForDB` | passthrough/server.mjs:49-57 | The converted ISO date, or today's UTC date when conversion throws. |
| `Server.FormatForDBKeepsRealDates` | passthrough/server.mjs:49-57 | A well-formed string naming a real date is stored unchanged. |
| `Server.FormatForDBFallsBack` | passthrough/server.mjs:53-56 | A string that passes the regular expression but has a month outside 1 to 12 or a day outside 1 to 31 is stored as today's UTC date. |
| `Server.FormatForDBCarriesOverflow` | passthrough/server.mjs:51-52 | A well-formed date whose day is past the end of its month but at most 31 is stored as that many days into the next month (never past December). |
| `Server.FormatForDBFeb30` | passthrough/server.mjs:51-52 | `2025-02-30` is stored as `2025-03-02`. |
| `Server.ProcessTimezoneData` | passthrough/server.mjs:218-245 | An accepted request has a converted date exactly when its body has a truthy date, and that date is the host conversion of the body's date. |
| `Server.Insert` | passthrough/server.mjs:321-324 | The row is stored under a fresh auto-increment id, and every other row and every user is unchanged. |
| `Server.BotCreate` | passthrough/server.mjs:281-345 | Only a request past the secret gate, with a present date whose string form is `YYYY-MM-DD`, inserts. The row it inserts has the body's user, the body's status upper-cased (LATE or OUT), `reason` and `delay` stored as null when falsy, the body's date as `formatForDB` stores it and not before today in the server's zone, and owner `bot`. Any refusal leaves the database unchanged. Conversely, the request succeeds exactly when it is past the gate, has a truthy user and date, a string status that upper-cases to LATE or OUT, a `YYYY-MM-DD` date, and a converted date not before today. |
| `Server.BotMissingFieldsRefused` | passthrough/server.mjs:288-291 | Past the secret gate, a falsy user, status or date is refused with 400 `Missing required fields: user, status, date` and the database is unchanged. |
| `Server.BotBadStatusRefused` | passthrough/server.mjs:294-297 | With user and date present, a non-empty string status whose upper-case form is neither LATE nor OUT is refused with 400 `Status must be LATE or OUT`, database unchanged. |
| `Server.BotBadDateFormatRefused` | passthrough/server.mjs:300-303 | With user present and a LATE/OUT status in any case, a present date whose string form is not `YYYY-MM-DD` is refused with 400 `Date must be in YYYY-MM-DD format`, database unchanged. |
| `Server.BotStatusIgnoresCase` | passthrough/server.mjs:294-297 | The bot endpoint treats a status in any letter case alike. |
| `Server.BotPastDateRefused` | passthrough/server.mjs:306-318 | Once the other checks pass, a date that `formatForDB` puts before today in the server's zone gives 400 `Cannot create callouts for past dates` and the database is unchanged. |
| `Server.BotAcceptsToday` | passthrough/server.mjs:306-318 | A callout for today in the server's zone passes the past-date check. |
| `Server.UserCreate` | passthrough/server.mjs:478-539 | Only a logged-in caller whose time-zone data is accepted inserts. The row has the body's user, the body's status upper-cased (LATE or OUT), `reason || null`, `delay || null`, the converted date, which is not before today in the server's zone, and the caller's id (or `anonymous`) as owner. A refusal changes nothing. Conversely, a logged-in caller with accepted time-zone data, a truthy user, a LATE/OUT status in any case, and a non-empty converted date not before today always succeeds. |
| `Server.UserPastDateRefused` | passthrough/server.mjs:503-512 | On the user path, a converted date before today in the server's zone gives 400 `Cannot create callouts for past dates` with nothing written, and a converted date equal to today is accepted. |
| `Server.StoreUserCallout` | passthrough/server.mjs:494-516 | Once the date is converted: missing fields, a bad status or a past date refuse with the database unchanged; otherwise exactly one row is inserted, with the body's user, upper-cased status, `reason || null`, `delay || null`, the converted date and the given owner. It succeeds exactly when the user is truthy, the status is a string that upper-cases to LATE or OUT, and the converted date is present, non-empty and not before today. |
| `Server.Merge` | passthrough/server.mjs:587-596 | A reason or delay present in the body overwrites the stored one (even as null), and an absent one keeps it. A converted date overwrites the date. User and owner never change. |
| `Server.Update` | passthrough/server.mjs:543-612 | Only the owner or an admin can update an existing row, and only with accepted time-zone data. On success the stored row becomes the merge of the old row with the body, under the status the update rule gives, and nothing else changes. A converted date that is used is not before today in the server's zone. Every refusal (404, 403, 400, 500) leaves the database unchanged. |
| `Server.UpdateMissingRow` | passthrough/server.mjs:561-564 | Once the time-zone data is accepted, an id with no row gives 404 `Callout not found` and the database is unchanged. |
| `Server.UpdateForeignRow` | passthrough/server.mjs:566-568 | A caller who is neither an admin nor the row's owner gets 403 `You can only edit your own callouts`, whatever the body, and the database is unchanged. |
| `Server.UpdatePermittedSucceeds` | passthrough/server.mjs:543-612 | The owner or an admin who sends a string status that upper-cases to LATE or OUT, with accepted time-zone data and a used converted date not before today, gets Ok. |
| `Server.UpdateRejectsPastDate` | passthrough/server.mjs:576-585 | Once row and status pass, a converted date before today is refused with 400 `Cannot update to past dates` and the database unchanged. |
| `Server.EmptyUpdateKeepsRow` | passthrough/server.mjs:587-596 | An update with an empty body leaves the row as it was. |
| `Server.FullUpdateOverwrites` | passthrough/server.mjs:587-596 | A supplied status, reason, delay and date all overwrite the stored ones; the status is upper-cased. |
| `Server.Delete` | passthrough/server.mjs:615-648 | A logged-in caller's delete succeeds exactly when the row exists and the caller is its owner or an admin, and then only that row goes. A missing row gives 404 `Callout not found`, and a caller who is neither gets 403 `You can only delete your own callouts`. Any refusal changes nothing. |
| `Server.BotRowsAreAdminOnly` | passthrough/server.mjs:560-568 | Rows the bot wrote can be updated or deleted by an admin only. |
| `Server.Promote` | passthrough/server.mjs:673-697 | Promotion succeeds exactly for an admin caller and an existing user who is not yet an admin, and then sets only that user's flag. |
| `Server.Demote` | passthrough/server.mjs:700-729 | Demotion succeeds exactly for an admin caller and an existing admin other than the caller, and then clears only that flag. |
| `Server.DeleteUser` | passthrough/server.mjs:732-793 | Deletion succeeds exactly for an admin caller and an existing user who is neither the protected account nor the caller. It then removes the user and exactly the callouts they own, and leaves every other row unchanged. |
| `Server.ProtectedUserSurvives` | passthrough/server.mjs:738-741 | No request deletes the protected account. |
| `ClientUtils.FormatDateForComparison` | public_html/modules/utils.js:179-212 | Falsy input gives null. A `YYYY-MM-DD` string comes back unchanged. Other strings go through the browser's date conversion. |
| `ClientUtils.IsValidDateCharacterised` | public_html/modules/utils.js:472-477 | A well-formed string is valid exactly when its month is 1 to 12 and its day 1 to 31, so every real date is valid. |
| `ClientUtils.IsValidDate` | public_html/modules/utils.js:472-477 | Valid exactly for a string of the form `YYYY-MM-DD` with month 1 to 12 and day 1 to 31. |
| `ClientUtils.IsPastDate` | public_html/modules/utils.js:328-332 | A well-formed date is past exactly when it is below today's string; falsy input is never past. |
| `ClientUtils.IsPastDateIsChronological` | public_html/modules/utils.js:328-332 | On well-formed strings, "past" means chronologically before today. |
| `ClientUtils.ValidateCalloutData` | public_html/modules/utils.js:351-399 | `isValid` holds exactly when there are no errors. The errors are exactly the problems the input shows, each once and in the order of the checks: a blank user, a status that is not LATE/OUT in any case, a missing or invalid date, a past date, a user over 100 or a reason over 500 characters, or a LATE delay outside 0 to 480. |
| `ClientUtils.DateProblemsExclusive` | public_html/modules/utils.js:364-374 | A missing or invalid date and a past date are never both reported. |
| `ClientUtils.ValidInputIsAcceptable` | public_html/modules/utils.js:351-399 | Valid input has a LATE/OUT status, a valid date not before today and a user of at most 100 characters. |
| `ClientUtils.LowerCaseLateSkipsDelayCheck` | public_html/modules/utils.js:386-392 | With status `late` in lower case the delay range is never checked. |
| `ClientUtils.RemoveStripped` | public_html/modules/utils.js:464-465 | Exactly the characters other than `< > ' "` survive. |
| `ClientUtils.SchemeMatchIsLowerCaseComparison` | public_html/modules/utils.js:466 | `/javascript:/i` matches exactly where the next 11 characters lower-case to `javascript:`. |
| `ClientUtils.HandlerMatch` | public_html/modules/utils.js:467 | A match of `/on\w+=/i` is at least four characters long and ends at `=`. |
| `ClientUtils.RemoveMatchesKeepsCharacters` | public_html/modules/utils.js:466-467 | A global replacement with `''` never introduces a character. |
| `ClientUtils.SanitizeInput` | public_html/modules/utils.js:460-469 | Non-strings give `''`. The output contains only characters of the input, none of them `<`, `>`, `'` or `"`, and neither starts nor ends with white space. |
| `ClientUtils.Capitalize` | public_html/modules/utils.js:503-506 | Empty and non-string input give `''`. Otherwise the length is kept, the first character is upper-cased and every other character is lower-cased. |
| `ClientUtils.CapitalizeIdempotent` | public_html/modules/utils.js:503-506 | Capitalising twice is capitalising once. |
| `ClientUtils.SubstringTo` | public_html/modules/utils.js:511 | `substring(0, end)` clamps the end to the string and to 0, and yields a prefix. |
| `ClientUtils.Truncate` | public_html/modules/utils.js:508-512 | Non-strings give `''`. A string within `maxLength` is unchanged. Otherwise the result is the prefix of length max(0, maxLength − |suffix|) plus the suffix, exactly `maxLength` long when the suffix fits. |
| `ClientUtils.TruncateDefaults` | public_html/modules/utils.js:508 | With the defaults a long string becomes its first 47 characters plus `...`, 50 in all. |
| `StringUtils.SliceTo` | public_html/modules/utils/string.js:4 | `slice(0, end)` counts a negative end back from the end of the string. |
| `StringUtils.Truncate` | public_html/modules/utils/string.js:2-5 | Text within the limit is unchanged; longer text is `slice(0, maxLength - 3)` plus `...`. |
| `StringUtils.TruncateFits` | public_html/modules/utils/string.js:4 | For a limit of at least 3, a longer text comes out exactly `maxLength` long: a prefix of the text followed by `...`. |
| `StringUtils.TruncateOverruns` | public_html/modules/utils/string.js:4 | With limit 1, `abcdef` becomes `abcd...`, longer than the text itself. |
| `StringUtils.TruncateClamped` | public_html/modules/utils/string.js:2-5 | The corrected truncation never exceeds `max(maxLength, 3)` and agrees with the original for limits of at least 3. |
| `StringUtils.EscapeChar` | public_html/modules/utils/string.js:8-11 | Every character other than `& < > " '` stands for itself. |
| `StringUtils.EscapeHtml` | public_html/modules/utils/string.js:7-12 | The output contains none of `< > " '`. |
| `StringUtils.EscapeHtmlAppend` | public_html/modules/utils/string.js:7-12 | Escaping works character by character: escaping a concatenation concatenates the escapes. |
| `StringUtils.EscapeHtmlPlain` | public_html/modules/utils/string.js:7-12 | Text without any of the five special characters is left unchanged. |
| `StringUtils.EscapeHtmlRoundTrip` | public_html/modules/utils/string.js:7-12 | Decoding the five entities recovers the original text, so each special character is replaced by its own entity and nothing else changes. |
| `StringUtils.SanitizeInput` | public_html/modules/utils/string.js:14-16 | The result is the input with leading and trailing white space stripped. |
| `StringUtils.SanitizeInputIdempotent` | public_html/modules/utils/string.js:14-16 | Sanitising twice is sanitising once. |
| `CalloutForm.DelayOf` | public_html/modules/calendar.js:392 | `parseInt(raw) \|\| null`: a parsed non-zero number is kept; an unparsable value and 0 both become null. |
| `CalloutForm.BuildDraft` | public_html/modules/calendar.js:388-394 | The user is trimmed. The delay is present only for LATE and is then non-zero. The reason is null exactly when it is blank after trimming, and otherwise trimmed. |
| `CalloutForm.ZeroDelayIsMissing` | public_html/modules/calendar/CalloutModal.js:262 | Any LATE delay that `parseInt` reads as 0 (`0`, `00`, ` 0`, …) is submitted as null. |
| `CalloutForm.ValidateForm` | public_html/modules/calendar/CalloutManager.js:197-238 | `isValid` holds exactly when there are no errors. Each error is a real problem of its field, every field with a problem is reported, at most once and in the order user, date, delay, reason: user required and at most 100 characters, a date that is given and not past, a LATE delay in 1 to 480, and a reason of at most 125 characters. |
| `CalloutForm.ValidFormBounds` | public_html/modules/calendar/CalloutManager.js:197-238 | A valid form has a user of 1 to 100 characters, a LATE delay of 1 to 480, a reason of at most 125 characters and a date neither missing nor past. |
| `CalloutForm.FormValidationsAgree` | public_html/modules/calendar.js:464-518 | The page's `validateEnhancedForm` accepts exactly the forms the manager's `validateCalloutData` accepts. |
| `CalloutForm.CharacterCounter` | public_html/modules/calendar/CalloutModal.js:189-207 | `warning` above 100 characters and `error` from 125, so an error always comes with a warning. |
| `CalloutForm.CounterErrorAtTheLimit` | public_html/modules/calendar/CalloutModal.js:200-205 | A reason of exactly 125 characters shows the error colour yet passes validation. |
| `CalloutForm.ExistingWarning` | public_html/modules/calendar.js:198-216 | The warning appears exactly when nothing is being edited and some callout, of any user, has the picked date. It shows the first such callout. |
| `CalloutForm.CheckForDuplicate` | public_html/modules/calendar.js:228-276 | A conflict is a callout with the same date key, the same user ignoring case, and not being edited. Without one the answer is yes with nothing changed. With one, the answer is the user's; a yes sets the replace target to the first conflict and a no changes nothing. |
| `CalloutForm.ClashIsAlsoWarned` | public_html/modules/calendar.js:198-245 | Whenever the duplicate guard finds a clash and nothing is being edited, the existing-callout warning is shown. |
| `CalloutForm.Route` | public_html/modules/calendar.js:413-435 | PUT to the replace target when nothing is edited, else PUT to the edited callout, and POST exactly when neither is set. |
| `CalloutForm.ConfirmedClashOverwrites` | public_html/modules/calendar/CalloutManager.js:110-121 | After a confirmed clash, the request is a PUT to a callout of the same user on the same day, not a second POST. |
| `CalloutForm.CloseModal` | public_html/modules/calendar/CalloutModal.js:121-129 | Closing clears both the edited callout and the replace target. |
| `CalloutForm.Submit` | public_html/modules/calendar.js:374-461 | An invalid form sends nothing. A declined duplicate keeps the state. A success closes the modal, leaving both references cleared. |
| `CalloutForm.SubmitAlwaysSaysAdded` | public_html/modules/calendar.js:443-452 | Every successful submission reports `Callout added successfully!`. |
| `CalloutForm.EditReportedAsAdded` | public_html/modules/calendar.js:421-452 | A successful edit sends a PUT to the edited callout yet reports `added`. |
| `CalloutForm.SubmitCorrected` | public_html/modules/calendar.js:443-455 | With the message chosen before the modal closes, a success reports `updated` exactly when the request was a PUT. |
| `CalloutForm.CorrectionOnlyChangesMessage` | public_html/modules/calendar.js:443-455 | The corrected submit sends the same request and leaves the same state; only the message can differ. |
| `CalloutForm.SaveCallout` | public_html/modules/calendar/CalloutManager.js:108-146 | A declined duplicate check makes no request. A sent request succeeds exactly when the server accepts it, and a success resets the replace target and keeps the edited callout. |
| `CalloutForm.CalloutsForUser` | public_html/modules/calendar/CalloutManager.js:249-253 | Exactly the callouts whose user equals the name ignoring case. |
| `CalloutForm.ModalSubmit` | public_html/modules/calendar/CalloutModal.js:246-292 | An invalid form saves nothing. The modal stays open only when the replace prompt was declined. A success clears both references and, like the page, reports `added`. |
| `CalloutForm.ModalAndPageAgree` | public_html/modules/calendar/CalloutModal.js:246-292 | The modal and the page reject, keep and send alike, and send the same request with the same message. |
| `CalloutForm.Percent` | public_html/modules/calendar/CalloutManager.js:276-277 | A rounded percentage of a part of a whole is at most 100, and 0 when the whole is 0. |
| `CalloutForm.CalloutStats` | public_html/modules/calendar/CalloutManager.js:267-279 | `late` and `out` are the sizes of the LATE and OUT filters, their sum is at most the total, and both percentages are 0 for no callouts. |
| `CalendarGrid.StartDay` | public_html/modules/calendar/CalendarRenderer.js:42-43 | The weekday of the first of the month is 0 to 6. |
| `CalendarGrid.MonthLength` | public_html/modules/calendar/CalendarRenderer.js:44 | A month has 28 to 31 days. |
| `CalendarGrid.WeeksNeeded` | public_html/modules/calendar/CalendarRenderer.js:41-47 | The grid has 5 or 6 rows and always holds the whole month. It has 6 exactly when startDay + daysInMonth > 35. |
| `CalendarGrid.SixRowsNeedALateStart` | public_html/modules/calendar.js:659-669 | Six rows happen only for a month of 30 or 31 days starting on a Friday or Saturday, and for a Friday start only with 31 days. |
| `CalendarGrid.Navigate` | public_html/modules/calendar/CalendarEventHandler.js:103-121 | The month stays in 0 to 11. `prev` and `next` move the absolute month count by exactly one. Any other direction changes nothing. |
| `CalendarGrid.YearRollsOver` | public_html/modules/calendar/CalendarEventHandler.js:107-118 | `prev` from January gives December of the year before, and `next` from December gives January of the year after. |
| `CalendarGrid.NavigateRoundTrip` | public_html/modules/calendar/CalendarEventHandler.js:107-118 | `next` after `prev`, and `prev` after `next`, return the original month and year. |
| `CalendarGrid.AdjacentMonthCell` | public_html/modules/calendar/CalendarRenderer.js:147-164 | Cells before the first count back so that the last of them is the previous month's last day. Cells after the month count 1, 2, … of the next month. |
| `CalendarGrid.CellAt` | public_html/modules/calendar/CalendarRenderer.js:86-93 | A cell is current exactly for indices from `startDay` through the month, and then shows the month's day `i - startDay + 1`. Earlier cells count back to the previous month's last day, later cells count 1, 2, … of the next month. |
| `CalendarGrid.GenerateCalendar` | public_html/modules/calendar/CalendarRenderer.js:74-96 | The loop with its running day counter builds exactly 7 × weeks cells, each the cell the closed form gives for its index. |
| `CalendarGrid.CurrentCellsNumbered` | public_html/modules/calendar/CalendarRenderer.js:84-93 | Exactly the cells from startDay to startDay + daysInMonth − 1 are current, numbered 1, 2, … in order. |
| `CalendarGrid.CellIsValidDate` | public_html/modules/calendar/CalendarRenderer.js:147-164 | Every cell shows a real date, and next-month cells never pass the 7th. |
| `CalendarGrid.AdjacentMonthsMeet` | public_html/modules/calendar/CalendarRenderer.js:151-164 | The cell before the first is the previous month's last day, and the cell after the last day is the next month's first. The year rolls back from January and forward from December. |
| `CalendarGrid.PrevThenNextMonth` | public_html/modules/calendar/CalendarRenderer.js:153-161 | The month after the previous month is the month on display. |
| `CalendarGrid.CellsAreConsecutive` | public_html/modules/calendar/CalendarRenderer.js:84-96 | Each cell shows the day after the cell before it: the grid is an unbroken run of days. |
| `CalendarGrid.CellWeekday` | public_html/modules/calendar/CalendarRenderer.js:64-96 | Cell i falls on weekday i mod 7, so every date sits under its own weekday column. |
| `CalendarGrid.OnDate` | public_html/modules/calendar.js:860-863 | Exactly the callouts whose date key is the cell's date. |
| `CalendarGrid.DayTotals` | public_html/modules/calendar.js:877-882 | The LATE and OUT totals sum to at most the day's matches, and to all of them when every match is LATE or OUT. A total is 0 exactly when no match has that status. |
| `CalendarGrid.TotalsOfADay` | public_html/modules/calendar/CalendarRenderer.js:255-260 | A day's LATE total is non-zero exactly when some callout on that date is LATE, and the totals never exceed the day's callouts. |
| `CalendarGrid.ResponsiveClassMonotone` | public_html/modules/calendar/CalendarRenderer.js:345-350 | The class never gets lighter as the count grows (`''`, then `many-callouts` from 3, `very-many-callouts` from 5, `extremely-many-callouts` from 7), and it is `''` exactly below 3. |
| `CalendarGrid.ResponsiveClass` | public_html/modules/calendar/CalendarRenderer.js:345-350 | `''` exactly below 3, `many-callouts` exactly for 3 and 4, `very-many-callouts` for 5 and 6, `extremely-many-callouts` from 7. |
| `AdminCallouts.ApplyFilters` | public_html/modules/api/adminCallouts.js:317-336 | A row stays exactly when each of the user, status and date filters is `all` or equals its field, and the rows that stay keep their order. |
| `AdminCallouts.AllFiltersShowEverything` | public_html/modules/api/adminCallouts.js:317-336 | With every filter on `all` the table shows every row, in order. |
| `AdminCallouts.CompareIsConsistent` | public_html/modules/api/adminCallouts.js:228-242 | The comparator is total and transitive, a consistent order for `sort`. |
| `AdminCallouts.Compare` | public_html/modules/api/adminCallouts.js:228-242 | A LATE row precedes a non-LATE one; two LATE rows order by larger `delay_minutes || 0` first, the others by later time first, and tie exactly on equal keys. |
| `AdminCallouts.SortRows` | public_html/modules/api/adminCallouts.js:228-242 | The sorted table is a permutation with every LATE row before every other row. Among LATE rows the delay never increases, null counting as 0. Among the rest the date never increases. |
| `AdminCallouts.TruncateText` | public_html/modules/api/adminCallouts.js:143-146 | Absent text gives `''`, and text within the limit is unchanged. Longer text keeps its first `max(0, maxLength)` characters and gains `...`, so the result is `max + 3` long. |
| `AdminCallouts.TruncateTextCanLengthen` | public_html/modules/api/adminCallouts.js:145 | A text comes out longer than it went in exactly when it is one or two characters over the limit. |
| `AdminCallouts.RelativeLabelRoundTrip` | public_html/modules/api/adminCallouts.js:95-101 | The label (`Today`, `Tomorrow`, `Yesterday`, `In N days`, `N days ago`) reads back as its day difference, so different differences never share a label. |
| `AdminCallouts.RelativeLabel` | public_html/modules/api/adminCallouts.js:95-99 | Never empty; `Today`, `Tomorrow` and `Yesterday` are given exactly for differences 0, 1 and -1. |
| `AdminCallouts.UserOptions` | public_html/modules/api/adminCallouts.js:263 | The user drop-down lists every user with a callout once, in strictly ascending order. |
| `AdminCallouts.DateOptions` | public_html/modules/api/adminCallouts.js:268-275 | The date drop-down lists exactly the dates of the given month's callouts, once each, in strictly ascending order. |
| `AdminUsers.GetUserRole` | public_html/modules/api/adminAPI.js:282-294 | OFFICER exactly for admins, even when listed as F&F. Otherwise F&F when flagged or listed, and RAIDER otherwise. |
| `AdminUsers.Without` | public_html/modules/api/adminAPI.js:314 | Filtering an id out of the list removes every occurrence of it and nothing else. |
| `AdminUsers.ToggleFFRole` | public_html/modules/api/adminAPI.js:307-323 | Turning an id on leaves it in the list (exactly once if it was absent). Turning it off removes every occurrence. Other ids keep their counts. |
| `AdminUsers.ToggleTwiceIsOnce` | public_html/modules/dashboard/DashboardUtils.js:35-51 | Applying the toggle twice with the same flag equals applying it once. |
| `AdminUsers.FindUser` | public_html/modules/api/adminAPI.js:521-522 | An unknown id finds nothing; a found user is in the list with that id. |
| `AdminUsers.ToggleFFUser` | public_html/modules/api/adminAPI.js:520-528 | An unknown id fails. Otherwise the id ends up listed exactly when the user's role was not F&F. |
| `AdminUsers.ToggleFlipsRole` | public_html/modules/api/adminAPI.js:520-528 | For a user without the flag who is not an admin, one toggle flips the role between F&F and RAIDER. |
| `AdminUsers.ApplyUserFilters` | public_html/modules/api/adminAPI.js:325-345 | A user stays exactly when the name filter is `all` or equals the display name, and the role filter is `all` or equals the lower-cased role. Order is kept. |
| `AdminUsers.OfficerOptionShowsNobody` | public_html/modules/api/adminAPI.js:336-340 | The option value `admin` shows no user at all: lower-cased roles are `officer`, `f&f` and `raider`. |
| `AdminUsers.ApplyUserFiltersCorrected` | public_html/modules/api/adminAPI.js:325-345 | The filter with each option mapped to its role keeps exactly the users of the selected role, in order. |
| `AdminUsers.EveryOptionSelectsItsRole` | public_html/modules/api/adminAPI.js:363-370 | With the correction each option of the role drop-down shows exactly the users of its role. |
| `AdminUsers.CorrectionOnlyAffectsOfficers` | public_html/modules/api/adminAPI.js:325-345 | For `all`, `raider` and `f&f` the corrected filter gives the same list as the original. |
| `AdminUsers.UserCompareIsConsistent` | public_html/modules/api/adminAPI.js:147-156 | The user comparator is total and transitive. |
| `AdminUsers.UserCompare` | public_html/modules/api/adminAPI.js:147-156 | An admin precedes a non-admin; within a group the order is that of the lower-cased display names, tying exactly on equal names. |
| `AdminUsers.SortUsers` | public_html/modules/api/adminAPI.js:147-156 | The sorted list is a permutation with admins first, ordered by lower-cased display name within each group. |
| `AdminUsers.NameOptions` | public_html/modules/api/adminAPI.js:349 | The name drop-down lists every display name once, in strictly ascending order. |
| `AdminUsers.PercentOf` | public_html/modules/api/adminAPI.js:47-49 | The share is "no users" exactly when there are no users. |
| `AdminUsers.ListedUsers` | public_html/modules/dashboard/DashboardUtils.js:54-61 | Exactly the users whose id is in the F&F list, in order. |
| `AdminUsers.ThisWeek` | public_html/modules/api/adminAPI.js:28-33 | Exactly the callouts at or after the start of the week. |
| `AdminUsers.Today` | public_html/modules/api/adminAPI.js:35-37 | Exactly the callouts whose date string equals today's. |
| `AdminUsers.CalculateStatistics` | public_html/modules/api/adminAPI.js:22-51 | raiderCount + ffCount = users.length. The week and today counts are at most the total. All three percentages are "no users" when there are no users. |
| `AdminUsers.StatsMatchRolesWithoutFlags` | public_html/modules/api/adminAPI.js:23-25 | When no user carries the flag and no admin is listed, the F&F count is the number of users whose role is F&F. |
| `AdminUsers.ListedOfficerCountedAsFriend` | public_html/modules/api/adminAPI.js:23-25 | An admin on the F&F list is shown as OFFICER but counted both as an admin and as F&F. |
| `Dashboard.CallerNames` | public_html/modules/dashboard/DashboardStats.js:41 | One name per callout, and exactly the names of the callers. |
| `Dashboard.CalculateStatistics` | public_html/modules/dashboard/DashboardStats.js:11-63 | raiderCount + ffCount = totalUsers. The LATE plus OUT counts of the week and of today are at most those windows, and the windows at most the total. activeUsers is the number of distinct caller names, at most the total and 0 exactly when there are no callouts. Percentages are "no users" without users. |
| `Dashboard.DistinctCallers` | public_html/modules/dashboard/DashboardStats.js:41 | `new Set(names).size`: the sorted distinct names are as many as the different callers. |
| `Dashboard.DashboardAgreesWithUserPanel` | public_html/modules/dashboard/DashboardStats.js:15-32 | The dashboard and the user panel report the same head counts, window sizes and F&F share. |
| `Dashboard.OneCallerOneActiveUser` | public_html/modules/dashboard/DashboardStats.js:41 | Any number of callouts by one name make one active user: names are counted once. |
| `Dashboard.FormatUserDisplayName` | public_html/modules/dashboard/DashboardUtils.js:180-182 | The global name, else the username, else `Unknown User`; never empty. |
| `Dashboard.GenerateAvatarLetter` | public_html/modules/dashboard/DashboardUtils.js:184-187 | One character: the display name's first, upper-cased. |
| `Dashboard.AvatarIsInitial` | public_html/modules/dashboard/DashboardUtils.js:184-187 | The avatar letter is the name's initial in either case, and a lower-case ASCII initial is shifted to upper case. |
| `Dashboard.IsProtectedUser` | public_html/modules/dashboard/DashboardUtils.js:189-191 | True for the single hard-coded id and no other. |
| `Dashboard.ProtectedMatchesServer` | public_html/modules/dashboard/DashboardUtils.js:189-191 | The account the dashboard marks as protected is the one the server refuses to delete. |
| `Dashboard.RoleStylingIsTotal` | public_html/modules/dashboard/DashboardUtils.js:193-209 | Every role gets its own class and label: admins exactly get `role-admin`, and raiders exactly get `RAIDER`. Any unknown string gets the raider's class and label. |
| `Dashboard.GetRoleClass` | public_html/modules/dashboard/DashboardUtils.js:193-200 | `role-admin` exactly for `OFFICER`, `role-ff` exactly for `F&F`, and `role-raider` for everything else. |
| `Dashboard.GetRoleDisplayText` | public_html/modules/dashboard/DashboardUtils.js:202-209 | `FRIENDS & FAMILY` exactly for `F&F`, `RAIDER` for everything but the two named roles, and `OFFICER ` plus the crown for `OFFICER`. |
| `AuthClient.AddEventListener` | public_html/modules/auth.js:239-241 | Appends exactly one (type, callback) entry and keeps the rest. |
| `AuthClient.RemoveEventListener` | public_html/modules/auth.js:243-247 | Removes exactly the entries matching both type and callback; the rest keep their order. |
| `AuthClient.NotifyListeners` | public_html/modules/auth.js:249-253 | Calls exactly the callbacks registered for the type, once per registration, in registration order. |
| `AuthClient.AddThenNotify` | public_html/modules/auth.js:239-253 | A newly added listener is called last for its type and not at all for any other type. |
| `AuthClient.RemoveUndoesAdd` | public_html/modules/auth.js:239-247 | Removing a pair just added restores the registry when the pair was not registered before, and removing twice is removing once. |
| `AuthClient.RemovedIsNotCalled` | public_html/modules/auth.js:243-253 | After removal a callback is no longer called for that type. |
| `AuthClient.GetCurrentUser` | public_html/modules/auth.js:153-168 | Null exactly when not authenticated (`user === null`), and otherwise the stored user. |
| `AuthClient.GetDisplayName` | public_html/modules/auth.js:179-182 | Null without a user, otherwise the global name, falling back to the username. |
| `AuthClient.GetUserAvatarUrl` | public_html/modules/auth.js:171-176 | The default embed URL without a user or without an avatar, otherwise the avatars URL built from id, avatar and size. |
| `AuthClient.AvatarUrlsDiffer` | public_html/modules/auth.js:171-176 | A user's own avatar URL is never the default one. |

## Left out

- The language-model HTTP call, its prompt and its model settings. The reply is a parameter (`OracleReply`) covering no choices, a thrown request, or content with the outcome of `JSON.parse` on its cleaned form. The cleaning regular expressions are not modelled.
- Discord transport: replies, deferred replies, message edits and button builders. Replies are abstract outputs. The locale-formatted date in prompts is left out.
- Real time and timers (`Date.now()`, `new Date()`, `setTimeout`, `setInterval`). Every clock reading is a parameter and the timer and sweep are explicit events. The interpreter's year is the host's local year and its "today" is UTC. The server's "today" is in its own zone and passed separately.
- Time-zone conversion and locale formatting: `toServerTimezone`, the browser's conversions and `toLocaleDateString`. The date key of a stored callout, the browser's past-date comparison and the host's reading of non-`YYYY-MM-DD` date values are parameters or record fields.
- MySQL, passport and sessions. The tables are a value (`Server.Db`), and a failing query (500) is modelled only where a value's type makes JavaScript throw.
- Local storage. The F&F list is a value; a corrupt stored list (the `catch` returning `false` or `[]`) is not modelled.
- The DOM, modals, banners, rendering and the fetch wrappers. The `T12:00:00` time of day the month filter appends is treated as not moving the date.
- Percentages printed with `toFixed(1)` are kept as an exact ratio (`AdminUsers.Share`), and `Math.round` is modelled exactly on rationals. JSON numbers are integers: fractional delays are not modelled.
- Letter case is ASCII only, and `localeCompare` is modelled as character order.
- String lengths count Unicode scalar values (a Dafny `char`), not UTF-16 code units. They agree with JavaScript's `.length` on text inside the Basic Multilingual Plane. A character outside it (an emoji, say) counts 1 here and 2 in JavaScript. So every length rule differs on such text: the four-character guard of `Interpreter.LongEnough`, the 100 and 125 limits of `CalloutForm.ValidateForm`, `ClientUtils.ValidateCalloutData` and `CalloutForm.CharacterCounter`, and the truncations. For example, two emoji have `.length` 4 in JavaScript and reach the oracle, but here they are refused as too short.
- Concurrency. Every handler is one atomic step, so a double click that passes the presence check twice before the delete is out of scope.
- A null `global_name` is modelled as the empty string, which JavaScript's `||` treats alike.
- `getCurrentStats` returns a copy of the statistics object. Values have no aliasing, so the copy is the value itself and needs no member.
- `AdminCallouts.SortRows`, `AdminUsers.SortUsers`: the order among rows the comparator ties is not stated. The model's insertion sort is stable, as V8's `sort` is.
- `AuthClient.GetCurrentUser`: the time-zone fields added to the returned copy are not modelled. The `size` parameter's default of 64 is left to the caller of `AuthClient.GetUserAvatarUrl`.
- `CalendarGrid.StartDay`: years 0 to 99, which `new Date(year, month, day)` reads as 1900 to 1999, are not special-cased.
- `ClientUtils.SanitizeInput`: the contract states what survives, not the exact output of the four replacements on inputs where a removal joins two pieces into a new match.
- `Interpreter.Interpret`: an exception anywhere after the oracle call becomes `AI callout parsing failed.` Only the throws that follow from a value's type (a non-string status, a null object) are modelled.

## Findings

| source | as written | input that shows it | evidently intended | confidence | as-written member | corrected member |
|---|---|---|---|---|---|---|
| public_html/modules/calendar.js:443-452 | The modal is closed, which clears the edited callout and the replace target, before the message picks `added` or `updated`. `CalloutModal.js:279-285` does the same. | Edit an existing callout and save it: a PUT goes out and the page says "Callout added successfully!" | Choose the message before closing, so an overwrite or edit says "updated". | high; not executed | `CalloutForm.EditReportedAsAdded` | `CalloutForm.SubmitCorrected` |
| public_html/modules/api/adminAPI.js:337-338 | The role filter compares the option value with `getUserRole(user).toLowerCase()`, which is `officer`, `f&f` or `raider`. The Officer option's value is `admin` (line 366). | Choose "Officer" in the role drop-down: the list is empty, admins included. | Each option shows the users of its role. | high; not executed | `AdminUsers.OfficerOptionShowsNobody` | `AdminUsers.ApplyUserFiltersCorrected` |
| public_html/modules/utils/string.js:4 | The kept prefix is `slice(0, maxLength - 3)`, and a negative end counts back from the end of the text. | `truncate("abcdef", 1)` gives `"abcd..."`, longer than the text. | Clamp the prefix at 0, giving at most `max(maxLength, 3)` characters. | medium; not executed | `StringUtils.TruncateOverruns` | `StringUtils.TruncateClamped` |

=== FILE: admin_callouts.dfy ===
/** The admin panel's callout table: the three filter drop-downs, the
    LATE-first ordering of the rows, text truncation in the cells, and the
    relative-day label shown next to each date. */
module AdminCallouts {
  import opened Js
  import opened Dates

  /** A row of the admin table. `time` is `new Date(date).getTime()`, the
      value the comparator subtracts; `delay` is `delay_minutes`, absent when
      null. */
  datatype Row = Row(id: int, user: string, status: string, date: string, delay: Option<int>, time: int)

  /** The date a row carries. */
  function RowDate(x: Row): string { x.date }

  /** The user a row names. */
  function RowUser(x: Row): string { x.user }

  // ---------------------------------------------------------------------------
  // Filters

  /** A drop-down's choice: `all`, or the exact value a field must have. */
  predicate Passes(choice: string, value: string) {
    choice == "all" || value == choice
  }

  predicate Kept(r: Row, user: string, status: string, date: string) {
    Passes(user, r.user) && Passes(status, r.status) && Passes(date, r.date)
  }

  /** `applyFilters`: a row stays exactly when each filter is `all` or equals
      its field, and the rows that stay keep their order. */
  function ApplyFilters(rows: seq<Row>, user: string, status: string, date: string): (r: seq<Row>)
    ensures forall x :: x in r <==> x in rows && Kept(x, user, status, date)
    ensures IsSublist(r, rows)
  {
    FilterIsSublist(rows, (x: Row) => Kept(x, user, status, date));
    Filter(rows, (x: Row) => Kept(x, user, status, date))
  }

  /** With every filter on `all` the table shows every row, in order. */
  lemma AllFiltersShowEverything(rows: seq<Row>)
    ensures ApplyFilters(rows, "all", "all", "all") == rows
  {
    FilterKeepsAll(rows, (x: Row) => Kept(x, "all", "all", "all"));
  }

  // ---------------------------------------------------------------------------
  // Ordering

  predicate IsLate(r: Row) { r.status == "LATE" }

  /** `delay_minutes || 0`. */
  function DelayKey(r: Row): int {
    match r.delay
    case None => 0
    case Some(n) => n
  }

  /** The comparator handed to `sort`: negative puts `a` first. LATE rows come
      first, larger delays first among them; the rest newest first. */
  function Compare(a: Row, b: Row): (r: int)
    ensures IsLate(a) != IsLate(b) ==> (r < 0 <==> IsLate(a))
    ensures IsLate(a) && IsLate(b) ==> (r < 0 <==> DelayKey(a) > DelayKey(b)) && (r == 0 <==> DelayKey(a) == DelayKey(b))
    ensures !IsLate(a) && !IsLate(b) ==> (r < 0 <==> a.time > b.time) && (r == 0 <==> a.time == b.time)
  {
    if IsLate(a) && !IsLate(b) then -1
    else if !IsLate(a) && IsLate(b) then 1
    else if IsLate(a) && IsLate(b) then DelayKey(b) - DelayKey(a)
    else b.time - a.time
  }

  /** The comparator is one `sort` can rely on: total and transitive. */
  lemma CompareIsConsistent()
    ensures ConsistentOrder(Compare)
  {
    forall a: Row, b: Row, c: Row | Compare(a, b) <= 0 && Compare(b, c) <= 0
      ensures Compare(a, c) <= 0
    {
    }
  }

  /** `allCallouts.sort(…)`: the same rows, LATE rows above all others, the
      longest delay first among them (a missing delay counting as 0), and the
      other rows newest first. */
  function SortRows(s: seq<Row>): (r: seq<Row>)
    ensures multiset(r) == multiset(s)
    ensures forall i, j | 0 <= i < j < |r| :: IsLate(r[j]) ==> IsLate(r[i])
    ensures forall i, j | 0 <= i < j < |r| && IsLate(r[i]) && IsLate(r[j]) :: DelayKey(r[i]) >= DelayKey(r[j])
    ensures forall i, j | 0 <= i < j < |r| && !IsLate(r[i]) && !IsLate(r[j]) :: r[i].time >= r[j].time
  {
    CompareIsConsistent();
    var r := SortBy(s, Compare);
    assert forall i, j | 0 <= i < j < |r| :: Compare(r[i], r[j]) <= 0;
    r
  }

  // ---------------------------------------------------------------------------
  // Cell text

  /** `truncateText`: an absent or empty text becomes empty; a text longer
      than `maxLength` keeps its first `maxLength` characters (`substring`
      clamps a negative length to 0) and gains `...`. */
  function TruncateText(text: Option<string>, maxLength: int): (r: string)
    ensures text.None? ==> r == ""
    ensures text.Some? && |text.value| <= maxLength ==> r == text.value
    ensures text.Some? && |text.value| > maxLength && text.value != "" ==>
      |r| == (if maxLength < 0 then 0 else maxLength) + 3
      && r[..|r| - 3] <= text.value && r[|r| - 3..] == "..."
  {
    match text
    case None => ""
    case Some(t) =>
      if t == "" then ""
      else if |t| <= maxLength then t
      else t[..if maxLength < 0 then 0 else maxLength] + "..."
  }

  /** The ellipsis is appended, not counted in the limit: a text comes out
      longer than it went in exactly when it is one or two characters over
      the limit. */
  lemma TruncateTextCanLengthen(t: string, maxLength: nat)
    ensures |TruncateText(Some(t), maxLength)| > |t| <==> maxLength < |t| < maxLength + 3
  {
  }

  /** The relative-day label of `getRelativeDate` for a day difference. */
  function RelativeLabel(diffDays: int): (r: string)
    ensures r != ""
    ensures r == "Today" <==> diffDays == 0
    ensures r == "Tomorrow" <==> diffDays == 1
    ensures r == "Yesterday" <==> diffDays == -1
  {
    if diffDays == 0 then "Today"
    else if diffDays == 1 then "Tomorrow"
    else if diffDays == -1 then "Yesterday"
    else if diffDays > 1 then
      var text := "In " + NatToString(diffDays) + " days";
      assert text[0] == 'I' && "Today"[0] == 'T' && "Tomorrow"[0] == 'T' && "Yesterday"[0] == 'Y';
      text
    else NatToString(-diffDays) + " days ago"
  }

  /** The day count of an `In N days` label. */
  function InDaysCount(text: string): Option<int> {
    if |text| >= 8 && text[..3] == "In " && text[|text| - 5..] == " days" && AllDigits(text[3..|text| - 5])
    then Some(DigitsValue(text[3..|text| - 5]) as int)
    else None
  }

  /** The day count of an `N days ago` label. */
  function AgoCount(text: string): Option<nat> {
    if |text| >= 9 && text[|text| - 9..] == " days ago" && AllDigits(text[..|text| - 9])
    then Some(DigitsValue(text[..|text| - 9]))
    else None
  }

  /** Reading a label back to the day difference it stands for. */
  function LabelDays(text: string): Option<int> {
    if text == "Today" then Some(0 as int)
    else if text == "Tomorrow" then Some(1)
    else if text == "Yesterday" then Some(-1 as int)
    else if InDaysCount(text).Some? then InDaysCount(text)
    else if AgoCount(text).Some? then Some(-(AgoCount(text).value as int))
    else None
  }

  /** A label that starts with a digit is none of the worded ones. */
  lemma DigitFirstIsNoWord(text: string)
    requires |text| > 0 && IsDigit(text[0])
    ensures text != "Today" && text != "Tomorrow" && text != "Yesterday" && InDaysCount(text).None?
  {
    assert "Today"[0] == 'T' && "Tomorrow"[0] == 'T' && "Yesterday"[0] == 'Y';
    if |text| >= 3 {
      assert text[..3][0] == text[0] && "In "[0] == 'I';
    }
  }

  /** `In D days`, for a non-empty digit string D, reads back as D's value. */
  lemma InDigitsReadsBack(ds: string)
    requires |ds| >= 1 && AllDigits(ds)
    ensures LabelDays("In " + ds + " days") == Some(DigitsValue(ds) as int)
  {
    var text := "In " + ds + " days";
    assert text[0] == 'I' && |text| >= 9;
    assert text[..3] == "In ";
    assert text[|text| - 5..] == " days";
    assert text[3..|text| - 5] == ds;
    assert InDaysCount(text) == Some(DigitsValue(ds) as int);
  }

  /** `D days ago`, for a non-empty digit string D, carries D's value. */
  lemma AgoCountOf(ds: string)
    requires |ds| >= 1 && AllDigits(ds)
    ensures AgoCount(ds + " days ago") == Some(DigitsValue(ds))
  {
    var text := ds + " days ago";
    assert text[|text| - 9..] == " days ago";
    assert text[..|text| - 9] == ds;
  }

  /** A label that starts with a digit and has an `ago` count reads back
      as that count, negated. */
  lemma AgoLabelReadsBack(text: string)
    requires |text| > 0 && IsDigit(text[0]) && AgoCount(text).Some?
    ensures LabelDays(text) == Some(-(AgoCount(text).value as int))
  {
    DigitFirstIsNoWord(text);
  }

  /** `In N days` reads back as N. */
  lemma InDaysReadsBack(n: int)
    requires n > 1
    ensures LabelDays(RelativeLabel(n)) == Some(n)
  {
    NatToStringValue(n);
    InDigitsReadsBack(NatToString(n));
  }

  /** `N days ago` reads back as -N. */
  lemma DaysAgoReadsBack(n: int)
    requires n < -1
    ensures LabelDays(RelativeLabel(n)) == Some(n)
  {
    var ds := NatToString(-n);
    var text := RelativeLabel(n);
    assert text == ds + " days ago";
    assert IsDigit(text[0]) by { assert text[0] == ds[0]; }
    AgoCountOf(ds);
    NatToStringValue(-n);
    AgoLabelReadsBack(text);
  }

  /** The three worded labels read back as 0, 1 and -1. */
  lemma WordLabelsReadBack(n: int)
    requires -1 <= n <= 1
    ensures LabelDays(RelativeLabel(n)) == Some(n)
  {
    assert LabelDays("Today") == Some(0 as int);
    assert LabelDays("Tomorrow") == Some(1 as int);
    assert LabelDays("Yesterday") == Some(-1 as int);
  }

  /** Different day differences never share a label: the label gives the
      difference back. */
  lemma RelativeLabelRoundTrip(diffDays: int)
    ensures LabelDays(RelativeLabel(diffDays)) == Some(diffDays)
  {
    if diffDays > 1 {
      InDaysReadsBack(diffDays);
    } else if diffDays < -1 {
      DaysAgoReadsBack(diffDays);
    } else {
      WordLabelsReadBack(diffDays);
    }
  }

  // ---------------------------------------------------------------------------
  // Drop-down options

  /** The user drop-down: every user with a callout, once each, in ascending
      order. */
  function UserOptions(rows: seq<Row>): (r: seq<string>)
    ensures StrictlySorted(r)
    ensures forall u :: u in r <==> exists x | x in rows :: x.user == u
  {
    MapMembers(rows, RowUser);
    SortedDistinct(MapSeq(rows, RowUser))
  }

  /** The date string falls in the given month (1-based) of the given year,
      read at local noon so that no zone moves it across midnight. */
  predicate InMonth(date: string, year: int, month: int) {
    var d := ParseIsoDate(date);
    d.Some? && d.value.year == year && d.value.month == month
  }

  /** The date drop-down: the distinct dates of the current month's callouts,
      in ascending order. */
  function DateOptions(rows: seq<Row>, year: int, month: int): (r: seq<string>)
    ensures StrictlySorted(r)
    ensures forall d :: d in r <==> exists x | x in rows :: x.date == d && InMonth(d, year, month)
  {
    var inMonth := (x: Row) => InMonth(x.date, year, month);
    MapFilterMembers(rows, inMonth, RowDate);
    SortedDistinct(MapSeq(Filter(rows, inMonth), RowDate))
  }
}

=== FILE: admin_users.dfy ===
/** The admin panel's user list: the role shown for each user, the
    friends-and-family (F&F) id list kept in the browser, the name and role
    filters, the ordering of the list, and the head-count statistics. */
module AdminUsers {
  import opened Js
  import AdminCallouts

  /** A user as the admin endpoint returns it. A null `global_name` is the
      empty string here: both are falsy. `ffRole` is the `ff_role` flag. */
  datatype User = User(id: string, username: string, globalName: string, isAdmin: bool, ffRole: bool)

  /** `global_name || username`. */
  function DisplayName(u: User): string {
    if u.globalName != "" then u.globalName else u.username
  }

  datatype Role = Officer | FriendsFamily | Raider

  function RoleName(r: Role): string {
    match r
    case Officer => "OFFICER"
    case FriendsFamily => "F&F"
    case Raider => "RAIDER"
  }

  /** `getUserRole`: an officer is an officer even when listed as F&F; F&F
      comes from the flag or the stored list; everyone else is a raider. */
  function GetUserRole(u: User, ffList: seq<string>): (r: Role)
    ensures r == Officer <==> u.isAdmin
    ensures r == FriendsFamily <==> !u.isAdmin && (u.ffRole || u.id in ffList)
  {
    if u.isAdmin then Officer
    else if u.ffRole || u.id in ffList then FriendsFamily
    else Raider
  }

  // ---------------------------------------------------------------------------
  // The F&F id list

  /** `ffUsers.filter(id => id !== userId)`. */
  function Without(ff: seq<string>, id: string): (r: seq<string>)
    ensures multiset(r) == multiset(ff)[id := 0]
  {
    WithoutCounts(ff, id);
    Filter(ff, (x: string) => x != id)
  }

  lemma {:induction false} WithoutCounts(ff: seq<string>, id: string)
    ensures multiset(Filter(ff, (x: string) => x != id)) == multiset(ff)[id := 0]
  {
    if |ff| > 0 {
      var keep := (x: string) => x != id;
      var rest := Filter(ff[1..], keep);
      WithoutCounts(ff[1..], id);
      assert ff == [ff[0]] + ff[1..];
      FilterCons(ff[0], ff[1..], keep);
      assert multiset(ff) == multiset{ff[0]} + multiset(ff[1..]);
      if ff[0] != id {
        assert Filter(ff, keep) == [ff[0]] + rest;
        assert multiset([ff[0]] + rest) == multiset{ff[0]} + multiset(rest);
      } else {
        assert Filter(ff, keep) == rest;
      }
    }
  }

  /** `toggleFFRole`: adding puts the id in once when it is missing, removing
      takes out every copy, and no other id's count changes. The storage round
      trip and its failure path are not modelled. */
  function ToggleFFRole(ff: seq<string>, id: string, isFF: bool): (r: seq<string>)
    ensures isFF ==> multiset(r)[id] == (if id in ff then multiset(ff)[id] else 1)
    ensures !isFF ==> id !in r
    ensures forall x | x != id :: multiset(r)[x] == multiset(ff)[x]
  {
    if isFF && id !in ff then ff + [id]
    else if !isFF && id in ff then Without(ff, id)
    else ff
  }

  /** Toggling to the same state twice is the same as toggling once. */
  lemma ToggleTwiceIsOnce(ff: seq<string>, id: string, isFF: bool)
    ensures ToggleFFRole(ToggleFFRole(ff, id, isFF), id, isFF) == ToggleFFRole(ff, id, isFF)
  {
    var once := ToggleFFRole(ff, id, isFF);
    if isFF {
      assert id in multiset(once);
    } else {
      assert id !in once;
    }
  }

  /** `allUsers.find(u => u.id === id)`: the first user with the id. */
  function FindUser(users: seq<User>, id: string): (r: Option<User>)
    ensures r.None? <==> forall u | u in users :: u.id != id
    ensures r.Some? ==> r.value in users && r.value.id == id
  {
    if |users| == 0 then None
    else if users[0].id == id then Some(users[0])
    else FindUser(users[1..], id)
  }

  /** `toggleFFUser`: nothing for an unknown id (the source returns false),
      else the list with the user added when the current role is not F&F and
      removed when it is. */
  function ToggleFFUser(users: seq<User>, ff: seq<string>, id: string): (r: Option<seq<string>>)
    ensures r.None? <==> forall u | u in users :: u.id != id
    ensures r.Some? ==> (id in r.value <==> GetUserRole(FindUser(users, id).value, ff) != FriendsFamily)
  {
    match FindUser(users, id)
    case None => None
    case Some(u) =>
      var r := ToggleFFRole(ff, id, GetUserRole(u, ff) != FriendsFamily);
      assert GetUserRole(u, ff) != FriendsFamily ==> id in multiset(r);
      Some(r)
  }

  /** For a raider or a listed F&F user without the `ff_role` flag the toggle
      swaps the two roles; the flag itself is never changed, so a flagged user
      stays F&F whatever the list says. */
  lemma ToggleFlipsRole(users: seq<User>, ff: seq<string>, id: string)
    requires FindUser(users, id).Some?
    ensures var u := FindUser(users, id).value;
      var ff' := ToggleFFUser(users, ff, id).value;
      && (!u.isAdmin && !u.ffRole ==>
            (GetUserRole(u, ff') == FriendsFamily <==> GetUserRole(u, ff) == Raider))
      && (u.ffRole ==> GetUserRole(u, ff') != Raider)
  {
  }

  // ---------------------------------------------------------------------------
  // Filters

  /** The values of the role drop-down's options, one per role. */
  function OptionValue(r: Role): string {
    match r
    case Officer => "admin"
    case FriendsFamily => "f&f"
    case Raider => "raider"
  }

  predicate NamePasses(u: User, name: string) {
    name == "all" || DisplayName(u) == name
  }

  /** The role test as written: the lower-cased role name against the
      selected option's value. */
  predicate RolePasses(u: User, role: string, ff: seq<string>) {
    role == "all" || ToLower(RoleName(GetUserRole(u, ff))) == role
  }

  /** `applyUserFilters` as written: both filters must pass; order is kept. */
  function ApplyUserFilters(users: seq<User>, name: string, role: string, ff: seq<string>): (r: seq<User>)
    ensures forall u :: u in r <==> u in users && NamePasses(u, name) && RolePasses(u, role, ff)
    ensures IsSublist(r, users)
  {
    FilterIsSublist(users, (u: User) => NamePasses(u, name) && RolePasses(u, role, ff));
    Filter(users, (u: User) => NamePasses(u, name) && RolePasses(u, role, ff))
  }

  /** The "Officer" option has the value `admin`, but officers lower-case to
      `officer`: choosing it empties the list, whoever the officers are. */
  lemma OfficerOptionShowsNobody(users: seq<User>, name: string, ff: seq<string>)
    ensures ApplyUserFilters(users, name, OptionValue(Officer), ff) == []
  {
    forall u | u in users ensures !RolePasses(u, "admin", ff) {
      assert |ToLower(RoleName(GetUserRole(u, ff)))| != |"admin"|;
    }
    FilterEmpty(users, (u: User) => NamePasses(u, name) && RolePasses(u, "admin", ff));
  }

  /** The role test as intended: the user's role has the selected option. */
  predicate RoleSelected(u: User, role: string, ff: seq<string>) {
    role == "all" || OptionValue(GetUserRole(u, ff)) == role
  }

  /** `applyUserFilters` with the role compared through the option values. */
  function ApplyUserFiltersCorrected(users: seq<User>, name: string, role: string, ff: seq<string>): (r: seq<User>)
    ensures forall u :: u in r <==> u in users && NamePasses(u, name) && RoleSelected(u, role, ff)
    ensures IsSublist(r, users)
  {
    FilterIsSublist(users, (u: User) => NamePasses(u, name) && RoleSelected(u, role, ff));
    Filter(users, (u: User) => NamePasses(u, name) && RoleSelected(u, role, ff))
  }

  /** Every option of the corrected drop-down shows exactly the users with
      its role, officers included. */
  lemma EveryOptionSelectsItsRole(users: seq<User>, role: Role, ff: seq<string>)
    ensures forall u :: u in ApplyUserFiltersCorrected(users, "all", OptionValue(role), ff) <==>
      u in users && GetUserRole(u, ff) == role
  {
  }

  lemma LowerRoleNames()
    ensures ToLower(RoleName(Raider)) == "raider"
    ensures ToLower(RoleName(FriendsFamily)) == "f&f"
  {
    var r := ToLower("RAIDER");
    assert r[0] == 'r' && r[1] == 'a' && r[2] == 'i' && r[3] == 'd' && r[4] == 'e' && r[5] == 'r';
    var f := ToLower("F&F");
    assert f[0] == 'f' && f[1] == '&' && f[2] == 'f';
  }

  /** The correction changes nothing for the other options. */
  lemma CorrectionOnlyAffectsOfficers(users: seq<User>, name: string, role: string, ff: seq<string>)
    requires role == "all" || role == OptionValue(Raider) || role == OptionValue(FriendsFamily)
    ensures ApplyUserFiltersCorrected(users, name, role, ff) == ApplyUserFilters(users, name, role, ff)
  {
    LowerRoleNames();
    forall u | u in users ensures RoleSelected(u, role, ff) == RolePasses(u, role, ff) {
      assert |ToLower(RoleName(Officer))| == 7;
    }
    FilterSamePredicate(users,
      (u: User) => NamePasses(u, name) && RoleSelected(u, role, ff),
      (u: User) => NamePasses(u, name) && RolePasses(u, role, ff));
  }

  // ---------------------------------------------------------------------------
  // Ordering

  /** `localeCompare`, on character codes. */
  function LocaleCompare(a: string, b: string): int {
    if LexLess(a, b) then -1 else if a == b then 0 else 1
  }

  function SortName(u: User): string {
    ToLower(DisplayName(u))
  }

  /** The comparator of the user list: officers first, then by lower-cased
      display name. */
  function UserCompare(a: User, b: User): (r: int)
    ensures a.isAdmin != b.isAdmin ==> (r < 0 <==> a.isAdmin)
    ensures a.isAdmin == b.isAdmin ==>
      (r < 0 <==> LexLess(SortName(a), SortName(b))) && (r == 0 <==> SortName(a) == SortName(b))
  {
    LexLessIrreflexive(SortName(a));
    if a.isAdmin && !b.isAdmin then -1
    else if !a.isAdmin && b.isAdmin then 1
    else LocaleCompare(SortName(a), SortName(b))
  }

  lemma UserCompareIsConsistent()
    ensures ConsistentOrder(UserCompare)
  {
    forall a: User, b: User ensures UserCompare(a, b) <= 0 || UserCompare(b, a) <= 0 {
      LexLessTotal(SortName(a), SortName(b));
    }
    forall a: User, b: User, c: User | UserCompare(a, b) <= 0 && UserCompare(b, c) <= 0
      ensures UserCompare(a, c) <= 0
    {
      if a.isAdmin == b.isAdmin == c.isAdmin && LexLess(SortName(a), SortName(b)) && LexLess(SortName(b), SortName(c)) {
        LexLessTransitive(SortName(a), SortName(b), SortName(c));
      }
    }
  }

  /** `allUsers.sort(…)`: the same users, officers above everyone else and
      each group in ascending order of lower-cased display name. */
  function SortUsers(users: seq<User>): (r: seq<User>)
    ensures multiset(r) == multiset(users)
    ensures forall i, j | 0 <= i < j < |r| :: r[j].isAdmin ==> r[i].isAdmin
    ensures forall i, j | 0 <= i < j < |r| && r[i].isAdmin == r[j].isAdmin :: LexLeq(SortName(r[i]), SortName(r[j]))
  {
    UserCompareIsConsistent();
    var r := SortBy(users, UserCompare);
    assert forall i, j | 0 <= i < j < |r| :: UserCompare(r[i], r[j]) <= 0;
    r
  }

  /** The name drop-down: each display name once, in ascending order. */
  function NameOptions(users: seq<User>): (r: seq<string>)
    ensures StrictlySorted(r)
    ensures forall n :: n in r <==> exists u | u in users :: DisplayName(u) == n
  {
    MapMembers(users, DisplayName);
    SortedDistinct(MapSeq(users, DisplayName))
  }

  // ---------------------------------------------------------------------------
  // Statistics

  /** A percentage before `toFixed(1)`: the exact share, or the literal 0 the
      source shows when there are no users. */
  datatype Share = NoUsers | Ratio(part: nat, whole: nat)

  function PercentOf(part: nat, whole: nat): (r: Share)
    ensures whole == 0 <==> r == NoUsers
  {
    if whole > 0 then Ratio(part, whole) else NoUsers
  }

  datatype UserStats = UserStats(
    adminCount: nat, raiderCount: int, ffCount: nat, totalUsers: nat,
    totalCallouts: nat, thisWeekCallouts: nat, todayCallouts: nat,
    adminPercentage: Share, raiderPercentage: Share, ffPercentage: Share)

  function Admins(users: seq<User>): seq<User> {
    Filter(users, (u: User) => u.isAdmin)
  }

  /** `getFriendsFamilyUsers`: the users whose id is on the list, in order.
      The `ff_role` flag plays no part. */
  function ListedUsers(users: seq<User>, ff: seq<string>): (r: seq<User>)
    ensures forall u :: u in r <==> u in users && u.id in ff
    ensures IsSublist(r, users)
  {
    FilterIsSublist(users, (u: User) => u.id in ff);
    Filter(users, (u: User) => u.id in ff)
  }

  /** Callouts dated on or after the start of the week (as time values). */
  function ThisWeek(callouts: seq<AdminCallouts.Row>, weekStart: int): (r: seq<AdminCallouts.Row>)
    ensures forall c :: c in r <==> c in callouts && c.time >= weekStart
  {
    Filter(callouts, (c: AdminCallouts.Row) => c.time >= weekStart)
  }

  /** Callouts whose date string is today's UTC date exactly. */
  function Today(callouts: seq<AdminCallouts.Row>, today: string): (r: seq<AdminCallouts.Row>)
    ensures forall c :: c in r <==> c in callouts && c.date == today
  {
    Filter(callouts, (c: AdminCallouts.Row) => c.date == today)
  }

  /** `calculateStatistics` of the user panel; the clock readings are
      parameters. Every user is F&F or a raider (officers count as raiders),
      and all percentages are 0 without users. */
  function CalculateStatistics(users: seq<User>, callouts: seq<AdminCallouts.Row>, ff: seq<string>,
                               weekStart: int, today: string): (r: UserStats)
    ensures r.raiderCount + r.ffCount == r.totalUsers == |users|
    ensures r.raiderCount >= 0 && r.adminCount <= r.totalUsers
    ensures r.thisWeekCallouts <= r.totalCallouts && r.todayCallouts <= r.totalCallouts
    ensures r.totalCallouts == |callouts|
    ensures |users| == 0 ==> r.adminPercentage == r.raiderPercentage == r.ffPercentage == NoUsers
  {
    var adminCount := |Admins(users)|;
    var ffCount := |ListedUsers(users, ff)|;
    var raiderCount := |users| - ffCount;
    UserStats(adminCount, raiderCount, ffCount, |users|,
              |callouts|, |ThisWeek(callouts, weekStart)|, |Today(callouts, today)|,
              PercentOf(adminCount, |users|), PercentOf(raiderCount, |users|), PercentOf(ffCount, |users|))
  }

  function WithRole(users: seq<User>, ff: seq<string>, role: Role): seq<User> {
    Filter(users, (u: User) => GetUserRole(u, ff) == role)
  }

  /** The F&F count agrees with the roles shown only while no user carries the
      `ff_role` flag and no officer is on the list. */
  lemma StatsMatchRolesWithoutFlags(users: seq<User>, callouts: seq<AdminCallouts.Row>, ff: seq<string>,
                                    weekStart: int, today: string)
    requires forall u | u in users :: !u.ffRole && !(u.isAdmin && u.id in ff)
    ensures CalculateStatistics(users, callouts, ff, weekStart, today).ffCount == |WithRole(users, ff, FriendsFamily)|
  {
    FilterSamePredicate(users, (u: User) => u.id in ff, (u: User) => GetUserRole(u, ff) == FriendsFamily);
  }

  /** An officer on the list is counted as F&F although shown as an officer. */
  lemma ListedOfficerCountedAsFriend(u: User, ff: seq<string>, weekStart: int, today: string)
    requires u.isAdmin && u.id in ff
    ensures GetUserRole(u, ff) == Officer
    ensures CalculateStatistics([u], [], ff, weekStart, today).ffCount == 1
    ensures CalculateStatistics([u], [], ff, weekStart, today).adminCount == 1
  {
    assert Filter([u], (x: User) => x.id in ff) == [u] by {
      assert [u][1..] == [];
    }
    assert Filter([u], (x: User) => x.isAdmin) == [u] by {
      assert [u][1..] == [];
    }
  }
}

=== FILE: auth_client.dfy ===
/** The browser-side authentication manager: who is signed in, the names and
    avatar shown for them, and the registry of listeners notified of
    authentication events. A callback stands for a function object and is
    identified by an opaque number, since the script compares callbacks with
    `===`, by identity. */
module AuthClient {
  import opened Js

  datatype AuthUser = AuthUser(id: string, username: string, globalName: string, avatar: string)

  /** One registration: an event type and the callback to call for it. */
  datatype Listener = Listener(eventType: string, callback: nat)

  /** The manager's state: the signed-in user (null when nobody is) and the
      registered listeners in registration order. */
  datatype AuthState = AuthState(user: Option<AuthUser>, listeners: seq<Listener>)

  // ---------------------------------------------------------------------------
  // Listener registry

  /** `addEventListener`: one more entry, at the end. */
  function AddEventListener(s: AuthState, eventType: string, callback: nat): (r: AuthState)
    ensures r.user == s.user
    ensures |r.listeners| == |s.listeners| + 1
    ensures r.listeners[..|s.listeners|] == s.listeners
    ensures r.listeners[|s.listeners|] == Listener(eventType, callback)
  {
    s.(listeners := s.listeners + [Listener(eventType, callback)])
  }

  predicate Matches(l: Listener, eventType: string, callback: nat) {
    l.eventType == eventType && l.callback == callback
  }

  /** `removeEventListener`: every entry with both the type and the callback
      goes; the others stay, in their order. */
  function RemoveEventListener(s: AuthState, eventType: string, callback: nat): (r: AuthState)
    ensures r.user == s.user
    ensures forall l :: l in r.listeners <==> l in s.listeners && !Matches(l, eventType, callback)
    ensures IsSublist(r.listeners, s.listeners)
  {
    var keep := (l: Listener) => !Matches(l, eventType, callback);
    FilterIsSublist(s.listeners, keep);
    s.(listeners := Filter(s.listeners, keep))
  }

  /** The callbacks of some listeners, in order. */
  function CallbacksOf(ls: seq<Listener>): (r: seq<nat>)
    ensures |r| == |ls|
    ensures forall i | 0 <= i < |ls| :: r[i] == ls[i].callback
  {
    MapSeq(ls, (l: Listener) => l.callback)
  }

  function OfType(ls: seq<Listener>, eventType: string): seq<Listener> {
    Filter(ls, (l: Listener) => l.eventType == eventType)
  }

  /** `notifyListeners`: the callbacks called, in order. Exactly the entries
      registered for the event type are called, each once per entry, in
      registration order. */
  function NotifyListeners(s: AuthState, eventType: string): (calls: seq<nat>)
    ensures IsSublist(OfType(s.listeners, eventType), s.listeners)
    ensures calls == CallbacksOf(OfType(s.listeners, eventType))
    ensures forall c :: c in calls <==> Listener(eventType, c) in s.listeners
  {
    var of := OfType(s.listeners, eventType);
    FilterIsSublist(s.listeners, (l: Listener) => l.eventType == eventType);
    forall c ensures c in CallbacksOf(of) <==> Listener(eventType, c) in s.listeners {
      if c in CallbacksOf(of) {
        var i :| 0 <= i < |of| && CallbacksOf(of)[i] == c;
        assert of[i] == Listener(eventType, c);
      }
      if Listener(eventType, c) in s.listeners {
        assert Listener(eventType, c) in of;
        var i :| 0 <= i < |of| && of[i] == Listener(eventType, c);
        assert CallbacksOf(of)[i] == c;
      }
    }
    CallbacksOf(of)
  }

  /** Appending a listener adds it to the listeners of its own type only. */
  lemma OfTypeAppend(ls: seq<Listener>, l: Listener, eventType: string)
    ensures OfType(ls + [l], eventType) == OfType(ls, eventType) + (if l.eventType == eventType then [l] else [])
  {
    var p := (x: Listener) => x.eventType == eventType;
    FilterAppend(ls, [l], p);
    var none: seq<Listener> := [];
    FilterCons(l, none, p);
    assert [l] + none == [l];
    assert Filter(none, p) == [];
  }

  /** A new listener is called last for its own event type and never for
      another. */
  lemma AddThenNotify(s: AuthState, eventType: string, callback: nat, other: string)
    requires other != eventType
    ensures NotifyListeners(AddEventListener(s, eventType, callback), eventType)
            == NotifyListeners(s, eventType) + [callback]
    ensures NotifyListeners(AddEventListener(s, eventType, callback), other) == NotifyListeners(s, other)
  {
    var l := Listener(eventType, callback);
    assert AddEventListener(s, eventType, callback).listeners == s.listeners + [l];
    OfTypeAppend(s.listeners, l, eventType);
    OfTypeAppend(s.listeners, l, other);
    MapAppend(OfType(s.listeners, eventType), [l], (l: Listener) => l.callback);
    assert OfType(s.listeners, other) + [] == OfType(s.listeners, other);
  }

  /** Removing what was just added restores the registry, if the pair was
      not registered before; removing twice is removing once. */
  lemma RemoveUndoesAdd(s: AuthState, eventType: string, callback: nat)
    requires Listener(eventType, callback) !in s.listeners
    ensures RemoveEventListener(AddEventListener(s, eventType, callback), eventType, callback) == s
    ensures RemoveEventListener(RemoveEventListener(s, eventType, callback), eventType, callback)
            == RemoveEventListener(s, eventType, callback)
  {
    var keep := (l: Listener) => !Matches(l, eventType, callback);
    var one := [Listener(eventType, callback)];
    FilterAppend(s.listeners, one, keep);
    assert Filter(one, keep) == [] by { assert one[1..] == []; }
    FilterKeepsAll(s.listeners, keep);
    assert s.listeners + [] == s.listeners;
    var once := Filter(s.listeners, keep);
    FilterKeepsAll(once, keep);
  }

  /** After removal the callback is no longer called for that event type. */
  lemma RemovedIsNotCalled(s: AuthState, eventType: string, callback: nat)
    ensures callback !in NotifyListeners(RemoveEventListener(s, eventType, callback), eventType)
  {
  }

  // ---------------------------------------------------------------------------
  // The signed-in user

  /** `isAuthenticated`: `user !== null`. */
  predicate IsAuthenticated(s: AuthState) {
    s.user.Some?
  }

  /** `getCurrentUser`: null without a user, else the user (the time-zone
      fields added to the copy are not modelled). */
  function GetCurrentUser(s: AuthState): (r: Option<AuthUser>)
    ensures r.Some? <==> IsAuthenticated(s)
    ensures r.Some? ==> r.value == s.user.value
  {
    if s.user.None? then None else Some(s.user.value)
  }

  /** `getDisplayName`: null without a user, else the global name, falling
      back to the user name. */
  function GetDisplayName(s: AuthState): (r: Option<string>)
    ensures r.None? <==> !IsAuthenticated(s)
    ensures r.Some? && s.user.value.globalName != "" ==> r.value == s.user.value.globalName
    ensures r.Some? && s.user.value.globalName == "" ==> r.value == s.user.value.username
  {
    match s.user
    case None => None
    case Some(u) => Some(if u.globalName != "" then u.globalName else u.username)
  }

  const DefaultAvatar := "https://cdn.discordapp.com/embed/avatars/0.png"

  const AvatarBase := "https://cdn.discordapp.com/avatars/"

  /** `getUserAvatarUrl(size)`: the default picture without a user or an
      avatar, else the user's picture at the requested size. */
  function GetUserAvatarUrl(s: AuthState, size: int): (r: string)
    ensures !IsAuthenticated(s) || s.user.value.avatar == "" ==> r == DefaultAvatar
    ensures IsAuthenticated(s) && s.user.value.avatar != "" ==>
      r == AvatarBase + s.user.value.id + "/" + s.user.value.avatar + ".png?size=" + IntToString(size)
  {
    if s.user.None? || s.user.value.avatar == "" then DefaultAvatar
    else
      var u := s.user.value;
      AvatarBase + u.id + "/" + u.avatar + ".png?size=" + IntToString(size)
  }

  /** The user's own picture is never mistaken for the default one: the two
      URLs part ways right after the host name. */
  lemma AvatarUrlsDiffer(s: AuthState, size: int)
    requires IsAuthenticated(s) && s.user.value.avatar != ""
    ensures GetUserAvatarUrl(s, size) != DefaultAvatar
  {
    var r := GetUserAvatarUrl(s, size);
    assert r[27] == AvatarBase[27] == 'a';
    assert DefaultAvatar[27] == 'e';
  }
}

=== FILE: calendar_grid.dfy ===
/** The month grid of the calendar page: how many week rows a month needs,
    which date each cell shows, month navigation, and the per-day LATE/OUT
    totals. Months are 0-based here, as in JavaScript's `Date`; the Gregorian
    arithmetic of module Dates is 1-based. */
module CalendarGrid {
  import opened Js
  import opened Dates
  import CalloutForm

  /** The month on display. */
  datatype MonthView = MonthView(year: int, month0: int)

  predicate InRange(v: MonthView) {
    0 <= v.month0 < 12
  }

  /** `new Date(year, month, 1).getDay()`. */
  function StartDay(v: MonthView): (w: int)
    requires InRange(v)
    ensures 0 <= w < 7
  {
    DayOfWeek(v.year, v.month0 + 1, 1)
  }

  /** `new Date(year, month + 1, 0).getDate()`. */
  function MonthLength(v: MonthView): (n: int)
    requires InRange(v)
    ensures 28 <= n <= 31
  {
    DaysInMonth(v.year, v.month0 + 1)
  }

  /** `calculateWeeksNeeded`: five rows unless the month spills past the 35th
      cell. The grid always holds the whole month, and a sixth row is added
      only when five would not. */
  function WeeksNeeded(v: MonthView): (weeks: int)
    requires InRange(v)
    ensures weeks == 5 || weeks == 6
    ensures 7 * weeks >= StartDay(v) + MonthLength(v)
    ensures weeks == 6 ==> 7 * 5 < StartDay(v) + MonthLength(v)
  {
    if StartDay(v) + MonthLength(v) > 35 then 6 else 5
  }

  /** Only a month of at least 30 days that starts on a Friday or Saturday, or
      a 31-day month starting on a Friday, needs six rows. */
  lemma SixRowsNeedALateStart(v: MonthView)
    requires InRange(v) && WeeksNeeded(v) == 6
    ensures MonthLength(v) >= 30 && StartDay(v) >= 5
    ensures StartDay(v) == 5 ==> MonthLength(v) == 31
  {
  }

  // ---------------------------------------------------------------------------
  // Navigation

  datatype Direction = Prev | Next | Other(name: string)

  /** `handleNavigationClick`: one month back or forward, wrapping the year;
      any other direction keeps the view. Counted in months since year 0 the
      view moves by exactly one. */
  function Navigate(dir: Direction, v: MonthView): (r: MonthView)
    ensures InRange(v) ==> InRange(r)
    ensures dir.Other? ==> r == v
    ensures InRange(v) && dir.Prev? ==> 12 * r.year + r.month0 == 12 * v.year + v.month0 - 1
    ensures InRange(v) && dir.Next? ==> 12 * r.year + r.month0 == 12 * v.year + v.month0 + 1
  {
    match dir
    case Prev => if v.month0 - 1 < 0 then MonthView(v.year - 1, 11) else MonthView(v.year, v.month0 - 1)
    case Next => if v.month0 + 1 > 11 then MonthView(v.year + 1, 0) else MonthView(v.year, v.month0 + 1)
    case Other(_) => v
  }

  /** Back from January is December of the year before; forward from
      December is January of the year after. */
  lemma YearRollsOver(year: int)
    ensures Navigate(Prev, MonthView(year, 0)) == MonthView(year - 1, 11)
    ensures Navigate(Next, MonthView(year, 11)) == MonthView(year + 1, 0)
  {
  }

  /** Forward undoes back and back undoes forward. */
  lemma NavigateRoundTrip(v: MonthView)
    requires InRange(v)
    ensures Navigate(Next, Navigate(Prev, v)) == v
    ensures Navigate(Prev, Navigate(Next, v)) == v
  {
  }

  // ---------------------------------------------------------------------------
  // Grid cells

  /** A cell of the grid: the date it shows (1-based month) and whether that
      date belongs to the month on display. */
  datatype Cell = Cell(date: Ymd, current: bool)

  /** `createAdjacentMonthCell`: cells before the first of the month count back
      from the end of the previous month, cells after its last day count up
      from the first of the next month. */
  function AdjacentMonthCell(v: MonthView, i: int, startDay: int, daysInMonth: int): (c: Cell)
    requires InRange(v)
    ensures !c.current && 1 <= c.date.month <= 12
    ensures i < startDay ==> c.date.day + (startDay - i) == DaysInMonth(c.date.year, c.date.month) + 1
    ensures i >= startDay ==> c.date.day == i - (startDay + daysInMonth) + 1
  {
    if i < startDay then
      var p := Navigate(Prev, v);
      var daysInPrevMonth := DaysInMonth(p.year, p.month0 + 1);
      Cell(Ymd(p.year, p.month0 + 1, daysInPrevMonth - (startDay - i - 1)), false)
    else
      var n := Navigate(Next, v);
      Cell(Ymd(n.year, n.month0 + 1, i - startDay - daysInMonth + 1), false)
  }

  /** The cell at index `i` of the grid, in closed form. */
  function CellAt(v: MonthView, i: int): (c: Cell)
    requires InRange(v)
    ensures c.current <==> StartDay(v) <= i < StartDay(v) + MonthLength(v)
    ensures c.current ==> c.date == Ymd(v.year, v.month0 + 1, i - StartDay(v) + 1)
    ensures 1 <= c.date.month <= 12
    ensures i < StartDay(v) ==> c.date.day + (StartDay(v) - i) == DaysInMonth(c.date.year, c.date.month) + 1
    ensures i >= StartDay(v) + MonthLength(v) ==> c.date.day == i - (StartDay(v) + MonthLength(v)) + 1
  {
    var start := StartDay(v);
    if start <= i < start + MonthLength(v) then Cell(Ymd(v.year, v.month0 + 1, i - start + 1), true)
    else AdjacentMonthCell(v, i, start, MonthLength(v))
  }

  /** The cell loop of `generateCalendar`, with its running day counter. It
      builds `7 * weeks` cells and agrees with `CellAt` everywhere. */
  method GenerateCalendar(v: MonthView) returns (cells: seq<Cell>)
    requires InRange(v)
    ensures |cells| == 7 * WeeksNeeded(v)
    ensures forall i | 0 <= i < |cells| :: cells[i] == CellAt(v, i)
  {
    var startDay := StartDay(v);
    var daysInMonth := MonthLength(v);
    var weeksNeeded := WeeksNeeded(v);
    var dateCounter := 1;
    var totalCells := weeksNeeded * 7;
    cells := [];
    var i := 0;
    while i < totalCells
      invariant 0 <= i <= totalCells && |cells| == i
      invariant dateCounter == if i <= startDay then 1
                               else if i - startDay <= daysInMonth then i - startDay + 1
                               else daysInMonth + 1
      invariant forall k | 0 <= k < i :: cells[k] == CellAt(v, k)
    {
      var cell;
      if i >= startDay && dateCounter <= daysInMonth {
        cell := Cell(Ymd(v.year, v.month0 + 1, dateCounter), true);
        dateCounter := dateCounter + 1;
      } else {
        cell := AdjacentMonthCell(v, i, startDay, daysInMonth);
      }
      cells := cells + [cell];
      i := i + 1;
    }
  }

  /** The cells from `startDay` on are days 1, 2, … of the month on display,
      and exactly those cells are marked current. */
  lemma CurrentCellsNumbered(v: MonthView, i: int)
    requires InRange(v) && 0 <= i < 7 * WeeksNeeded(v)
    ensures CellAt(v, i).current <==> StartDay(v) <= i < StartDay(v) + MonthLength(v)
    ensures CellAt(v, i).current ==>
      CellAt(v, i).date == Ymd(v.year, v.month0 + 1, i - StartDay(v) + 1)
  {
  }

  /** Every cell shows a real calendar date; the next-month cells never get
      past the 7th. */
  lemma CellIsValidDate(v: MonthView, i: int)
    requires InRange(v) && 0 <= i < 7 * WeeksNeeded(v)
    ensures Valid(CellAt(v, i).date)
    ensures i >= StartDay(v) + MonthLength(v) ==> CellAt(v, i).date.day <= 7
  {
  }

  /** The previous month's cells end on its last day and the next month's
      start on its first, with the year rolled at either end of the year. */
  lemma AdjacentMonthsMeet(v: MonthView)
    requires InRange(v)
    ensures StartDay(v) > 0 ==>
      var c := CellAt(v, StartDay(v) - 1);
      var p := Navigate(Prev, v);
      c.date == Ymd(p.year, p.month0 + 1, DaysInMonth(p.year, p.month0 + 1))
    ensures
      var c := CellAt(v, StartDay(v) + MonthLength(v));
      var n := Navigate(Next, v);
      c.date == Ymd(n.year, n.month0 + 1, 1)
  {
  }

  /** The date after a valid date. */
  function Tomorrow(d: Ymd): (r: Ymd)
    requires Valid(d)
    ensures Valid(r)
  {
    if d.day < DaysInMonth(d.year, d.month) then Ymd(d.year, d.month, d.day + 1)
    else
      var n := NextMonth(d.year, d.month);
      Ymd(n.0, n.1, 1)
  }

  /** The month before `v` is followed by `v` itself. */
  lemma PrevThenNextMonth(v: MonthView)
    requires InRange(v)
    ensures var p := Navigate(Prev, v);
      NextMonth(p.year, p.month0 + 1) == (v.year, v.month0 + 1)
  {
  }

  /** The grid is an unbroken run of days: each cell shows the day after the
      one before it. */
  lemma CellsAreConsecutive(v: MonthView, i: int)
    requires InRange(v) && 0 <= i && i + 1 < 7 * WeeksNeeded(v)
    ensures Valid(CellAt(v, i).date)
    ensures CellAt(v, i + 1).date == Tomorrow(CellAt(v, i).date)
  {
    CellIsValidDate(v, i);
    PrevThenNextMonth(v);
  }

  /** `x` and `y` leave the same remainder when they differ by whole weeks. */
  lemma SameWeekday(x: int, y: int, k: int)
    requires x == y + 7 * k
    ensures x % 7 == y % 7
  {
    var q := y / 7;
    assert y == 7 * q + y % 7;
    assert x == 7 * (q + k) + y % 7;
  }

  /** A cell of the month on display falls on the weekday of its index. */
  lemma CellWeekdayInMonth(v: MonthView, i: int)
    requires InRange(v) && StartDay(v) <= i < StartDay(v) + MonthLength(v)
    ensures var d := CellAt(v, i).date;
      1 <= d.month <= 12 && DayOfWeek(d.year, d.month, d.day) == i % 7
  {
    var d := CellAt(v, i).date;
    assert d == Ymd(v.year, v.month0 + 1, i - StartDay(v) + 1);
    DayOfWeekShift(d.year, d.month, d.day);
  }

  /** Counting back from a month that starts on weekday `start`: day `day`
      of a previous month that started on weekday `first` and has `len` days
      sits in column `i`. */
  lemma BackFromStart(first: int, len: int, start: int, i: int, day: int)
    requires start == (first + len) % 7 && day + (start - i) == len + 1
    ensures (first + day - 1) % 7 == i % 7
  {
    var q := (first + len) / 7;
    assert first + len == 7 * q + start;
    SameWeekday(first + day - 1, i, q);
  }

  /** Counting on past a month that starts on weekday `start` and has `days`
      days: day `day` of the next month, which starts on weekday `first`,
      sits in column `i`. */
  lemma OnFromEnd(start: int, days: int, first: int, i: int, day: int)
    requires first == (start + days) % 7 && day == i - (start + days) + 1
    ensures (first + day - 1) % 7 == i % 7
  {
    var q := (start + days) / 7;
    assert start + days == 7 * q + first;
    SameWeekday(i, first + day - 1, q);
  }

  /** The month on display starts on the weekday after the previous month's
      last day. */
  lemma PrevMonthLeadsIn(v: MonthView)
    requires InRange(v)
    ensures var p := Navigate(Prev, v);
      StartDay(v) == (DayOfWeek(p.year, p.month0 + 1, 1) + DaysInMonth(p.year, p.month0 + 1)) % 7
  {
    var p := Navigate(Prev, v);
    PrevThenNextMonth(v);
    FirstOfNextMonth(p.year, p.month0 + 1);
  }

  /** A cell of the previous month falls on the weekday of its index: that
      month's last day sits just before the first of this one. */
  lemma CellWeekdayBefore(v: MonthView, i: int)
    requires InRange(v) && 0 <= i < StartDay(v)
    ensures var d := CellAt(v, i).date;
      1 <= d.month <= 12 && DayOfWeek(d.year, d.month, d.day) == i % 7
  {
    var d := CellAt(v, i).date;
    var p := Navigate(Prev, v);
    assert d.year == p.year && d.month == p.month0 + 1;
    assert d.day + (StartDay(v) - i) == DaysInMonth(d.year, d.month) + 1;
    DayOfWeekShift(d.year, d.month, d.day);
    PrevMonthLeadsIn(v);
    BackFromStart(DayOfWeek(d.year, d.month, 1), DaysInMonth(d.year, d.month), StartDay(v), i, d.day);
  }

  /** A cell of the next month falls on the weekday of its index: that
      month's first day sits just after the last of this one. */
  lemma CellWeekdayAfter(v: MonthView, i: int)
    requires InRange(v) && StartDay(v) + MonthLength(v) <= i
    ensures var d := CellAt(v, i).date;
      1 <= d.month <= 12 && DayOfWeek(d.year, d.month, d.day) == i % 7
  {
    var d := CellAt(v, i).date;
    var n := Navigate(Next, v);
    assert d.year == n.year && d.month == n.month0 + 1;
    assert d.day == i - (StartDay(v) + MonthLength(v)) + 1;
    DayOfWeekShift(d.year, d.month, d.day);
    NextMonthFollows(v);
    OnFromEnd(StartDay(v), MonthLength(v), DayOfWeek(d.year, d.month, 1), i, d.day);
  }

  /** The next month starts on the weekday after the last day of the month
      on display. */
  lemma NextMonthFollows(v: MonthView)
    requires InRange(v)
    ensures var n := Navigate(Next, v);
      DayOfWeek(n.year, n.month0 + 1, 1) == (StartDay(v) + MonthLength(v)) % 7
  {
    var n := Navigate(Next, v);
    assert NextMonth(v.year, v.month0 + 1) == (n.year, n.month0 + 1);
    FirstOfNextMonth(v.year, v.month0 + 1);
  }

  /** Each cell sits in the column of its weekday: cell `i` falls on weekday
      `i % 7`, Sunday first. */
  lemma CellWeekday(v: MonthView, i: int)
    requires InRange(v) && 0 <= i < 7 * WeeksNeeded(v)
    ensures var d := CellAt(v, i).date;
      1 <= d.month <= 12 && DayOfWeek(d.year, d.month, d.day) == i % 7
  {
    if i < StartDay(v) {
      CellWeekdayBefore(v, i);
    } else if i < StartDay(v) + MonthLength(v) {
      CellWeekdayInMonth(v, i);
    } else {
      CellWeekdayAfter(v, i);
    }
  }

  // ---------------------------------------------------------------------------
  // Per-day totals

  /** The callouts a day cell shows: those whose date key is the cell's date. */
  function OnDate(cs: seq<CalloutForm.Callout>, date: string): (r: seq<CalloutForm.Callout>)
    ensures forall i | 0 <= i < |r| :: r[i].dateKey == date && r[i] in cs
    ensures forall c | c in cs && c.dateKey == date :: c in r
  {
    Filter(cs, (c: CalloutForm.Callout) => c.dateKey == date)
  }

  function LateOf(cs: seq<CalloutForm.Callout>): seq<CalloutForm.Callout> {
    Filter(cs, CalloutForm.IsLate)
  }

  function OutOf(cs: seq<CalloutForm.Callout>): seq<CalloutForm.Callout> {
    Filter(cs, CalloutForm.IsOut)
  }

  datatype Totals = Totals(late: nat, out: nat)

  /** The LATE and OUT totals of a day (`updateDayCell`, and the same split in
      the calendar page's refresh). The two groups never overlap, and when
      every callout is LATE or OUT they account for all of them. */
  function DayTotals(matching: seq<CalloutForm.Callout>): (r: Totals)
    ensures r.late + r.out <= |matching|
    ensures (forall c | c in matching :: CalloutForm.IsLate(c) || CalloutForm.IsOut(c)) ==>
      r.late + r.out == |matching|
    ensures r.late == 0 <==> forall c | c in matching :: !CalloutForm.IsLate(c)
    ensures r.out == 0 <==> forall c | c in matching :: !CalloutForm.IsOut(c)
  {
    FilterDisjoint(matching, CalloutForm.IsLate, CalloutForm.IsOut);
    SplitCoversAll(matching);
    FilterEmpty(matching, CalloutForm.IsLate);
    FilterEmpty(matching, CalloutForm.IsOut);
    Totals(|LateOf(matching)|, |OutOf(matching)|)
  }

  lemma SplitCoversAll(matching: seq<CalloutForm.Callout>)
    ensures (forall c | c in matching :: CalloutForm.IsLate(c) || CalloutForm.IsOut(c)) ==>
      |LateOf(matching)| + |OutOf(matching)| == |matching|
  {
    if forall c | c in matching :: CalloutForm.IsLate(c) || CalloutForm.IsOut(c) {
      FilterComplement(matching, CalloutForm.IsLate, CalloutForm.IsOut);
    }
  }

  /** A callout's status counts it towards the totals of its own day only. */
  lemma TotalsOfADay(cs: seq<CalloutForm.Callout>, date: string)
    ensures DayTotals(OnDate(cs, date)).late + DayTotals(OnDate(cs, date)).out <= |OnDate(cs, date)|
    ensures (exists c | c in cs :: c.dateKey == date && CalloutForm.IsLate(c)) <==>
      DayTotals(OnDate(cs, date)).late > 0
  {
  }

  /** `getResponsiveClass`: the density class of a column with `count` callouts. */
  function ResponsiveClass(count: int): (r: string)
    ensures r == "" <==> count < 3
    ensures r == "many-callouts" <==> 3 <= count < 5
    ensures r == "very-many-callouts" <==> 5 <= count < 7
    ensures r == "extremely-many-callouts" <==> count >= 7
  {
    if count >= 7 then "extremely-many-callouts"
    else if count >= 5 then "very-many-callouts"
    else if count >= 3 then "many-callouts"
    else ""
  }

  /** The rank of a density class, lightest first. */
  function Density(cls: string): nat {
    if cls == "extremely-many-callouts" then 3
    else if cls == "very-many-callouts" then 2
    else if cls == "many-callouts" then 1
    else 0
  }

  /** More callouts never give a lighter class; no class below three callouts. */
  lemma ResponsiveClassMonotone(a: int, b: int)
    requires a <= b
    ensures Density(ResponsiveClass(a)) <= Density(ResponsiveClass(b))
    ensures ResponsiveClass(a) == "" <==> a < 3
  {
  }
}

=== FILE: callout_form.dfy ===
/** The calendar's callout form: building the record from the form, the form
    validation, the existing-callout warning, the one-callout-per-user-per-day
    duplicate guard, the routing of the save request and the state reset when
    the modal closes. The same logic appears in the calendar page itself, in
    its modal component and in its callout manager; the differences are noted
    member by member. */
module CalloutForm {
  import opened Js

  /** A callout as the calendar holds it. `dateKey` is the UTC date part of the
      stored date (`new Date(date).toISOString()` up to the `T`), which depends
      on the browser's clock zone and is therefore a field of its own. */
  datatype Callout = Callout(id: int, user: string, status: string, dateKey: string,
                             delayMinutes: JValue, reason: JValue)

  /** The calendar's two references: the callout being edited and the callout
      a confirmed duplicate will replace. */
  datatype Editor = Editor(editing: Option<Callout>, replacing: Option<Callout>)

  /** The record a submitted form becomes. `date` is the comparison form of the
      date the user picked (null when it cannot be converted). */
  datatype Draft = Draft(user: string, status: string, date: Option<string>,
                         delay: Option<int>, reason: Option<string>)

  // ---------------------------------------------------------------------------
  // Building the record

  /** `parseInt(raw) || null`: a value that does not parse and a zero both
      become null. */
  function DelayOf(raw: string): (r: Option<int>)
    ensures r.Some? ==> r.value != 0 && ParseIntString(raw) == r
    ensures r.None? ==> ParseIntString(raw).None? || ParseIntString(raw) == Some(0)
  {
    match ParseIntString(raw)
    case None => None
    case Some(n) => if n == 0 then None else Some(n)
  }

  /** The submitted record: trimmed user, the delay only for `LATE`, and a
      reason that is blank after trimming becomes null. */
  function BuildDraft(userRaw: string, status: string, serverDate: Option<string>,
                      delayRaw: string, reasonRaw: string): (r: Draft)
    ensures r.user == Trim(userRaw) && r.status == status && r.date == serverDate
    ensures r.delay.Some? ==> status == "LATE" && r.delay.value != 0
    ensures status == "LATE" ==> r.delay == DelayOf(delayRaw)
    ensures r.reason.None? <==> Trim(reasonRaw) == ""
    ensures r.reason.Some? ==> r.reason.value == Trim(reasonRaw)
  {
    var reason := Trim(reasonRaw);
    Draft(Trim(userRaw), status, serverDate,
          if status == "LATE" then DelayOf(delayRaw) else None,
          if reason == "" then None else Some(reason))
  }

  /** A delay that reads as zero (`0`, `00`, ` 0`, `0 min`, ...) cannot be
      told apart from a missing one. */
  lemma ZeroDelayIsMissing(userRaw: string, serverDate: Option<string>, delayRaw: string, reasonRaw: string)
    requires ParseIntString(delayRaw) == Some(0)
    ensures BuildDraft(userRaw, "LATE", serverDate, delayRaw, reasonRaw).delay.None?
    ensures BuildDraft(userRaw, "LATE", serverDate, "0", reasonRaw).delay.None?
  {
    ZeroReadsAsZero();
  }

  /** The literal `0` parses to zero. */
  lemma ZeroReadsAsZero()
    ensures ParseIntString("0") == Some(0)
  {
    assert TrimStart("0") == "0";
    assert DigitRun("0") == 1;
    assert "0"[..1] == "0";
    assert DigitsValue("0") == 0;
  }

  // ---------------------------------------------------------------------------
  // Form validation

  datatype FormField = UserField | DateField | DelayField | ReasonField

  datatype FieldError = FieldError(field: FormField, message: string)

  datatype FormValidation = FormValidation(isValid: bool, errors: seq<FieldError>)

  /** The error for one field, if any; `past` is the browser's comparison of
      the picked date with today in the user's zone. */
  function FieldProblem(d: Draft, userDate: string, past: bool, f: FormField): Option<string> {
    match f
    case UserField =>
      if d.user == "" then Some("User name is required")
      else if |d.user| > 100 then Some("User name must be 100 characters or less")
      else None
    case DateField =>
      if userDate == "" then Some("Date is required")
      else if past then Some("Cannot create callouts for past dates")
      else None
    case DelayField =>
      if d.status != "LATE" then None
      else if d.delay.None? || d.delay.value <= 0 then Some("Delay is required for LATE status")
      else if d.delay.value > 480 then Some("Delay cannot exceed 480 minutes (8 hours)")
      else None
    case ReasonField =>
      if d.reason.Some? && |d.reason.value| > 125 then Some("Reason must be 125 characters or less")
      else None
  }

  /** The place of a field in the order the checks run. */
  function FieldRank(f: FormField): nat {
    match f
    case UserField => 0
    case DateField => 1
    case DelayField => 2
    case ReasonField => 3
  }

  /** Fields listed in check order, none twice. */
  predicate InCheckOrder(fields: seq<FormField>) {
    forall i, j | 0 <= i < j < |fields| :: FieldRank(fields[i]) < FieldRank(fields[j])
  }

  /** Errors listed in check order, at most one per field. */
  predicate ErrorsInCheckOrder(errors: seq<FieldError>) {
    forall i, j | 0 <= i < j < |errors| :: FieldRank(errors[i].field) < FieldRank(errors[j].field)
  }

  function ErrorsFor(fields: seq<FormField>, d: Draft, userDate: string, past: bool): (r: seq<FieldError>)
    ensures forall e | e in r :: e.field in fields && FieldProblem(d, userDate, past, e.field) == Some(e.message)
    ensures forall f | f in fields && FieldProblem(d, userDate, past, f).Some? ::
      FieldError(f, FieldProblem(d, userDate, past, f).value) in r
    ensures InCheckOrder(fields) ==> ErrorsInCheckOrder(r)
  {
    if |fields| == 0 then []
    else
      var rest := ErrorsFor(fields[1..], d, userDate, past);
      var head := match FieldProblem(d, userDate, past, fields[0])
                  case None => []
                  case Some(m) => [FieldError(fields[0], m)];
      PrependInCheckOrder(fields, head, rest);
      head + rest
  }

  /** An error for the first field, put before the errors of the others, keeps
      the check order. */
  lemma PrependInCheckOrder(fields: seq<FormField>, head: seq<FieldError>, rest: seq<FieldError>)
    requires |fields| > 0 && forall e | e in rest :: e.field in fields[1..]
    requires forall e | e in head :: e.field == fields[0]
    requires |head| <= 1 && (InCheckOrder(fields[1..]) ==> ErrorsInCheckOrder(rest))
    ensures InCheckOrder(fields) ==> ErrorsInCheckOrder(head + rest)
  {
    if InCheckOrder(fields) {
      assert InCheckOrder(fields[1..]) by {
        forall i, j | 0 <= i < j < |fields[1..]| ensures FieldRank(fields[1..][i]) < FieldRank(fields[1..][j]) {
          assert fields[1..][i] == fields[i + 1] && fields[1..][j] == fields[j + 1];
        }
      }
      forall e | e in rest ensures FieldRank(fields[0]) < FieldRank(e.field) {
        var k :| 0 <= k < |fields[1..]| && fields[1..][k] == e.field;
        assert fields[k + 1] == e.field;
      }
      if |head| == 1 {
        var all := head + rest;
        forall i, j | 0 <= i < j < |all| ensures FieldRank(all[i].field) < FieldRank(all[j].field) {
          assert all[j] == rest[j - 1];
          if i > 0 {
            assert all[i] == rest[i - 1];
          } else {
            assert all[i] == head[0] && all[j] in rest;
          }
        }
      } else {
        assert head + rest == rest;
      }
    }
  }

  lemma EveryFieldListed(f: FormField)
    ensures f in [UserField, DateField, DelayField, ReasonField]
  {
    var fields := [UserField, DateField, DelayField, ReasonField];
    if f == UserField { assert fields[0] == f; }
    else if f == DateField { assert fields[1] == f; }
    else if f == DelayField { assert fields[2] == f; }
    else { assert fields[3] == f; }
  }

  /** The callout manager's `validateCalloutData`: at most one error per
      field, reported in the order user, date, delay, reason. */
  function ValidateForm(d: Draft, userDate: string, past: bool): (r: FormValidation)
    ensures r.isValid <==> r.errors == []
    ensures forall e | e in r.errors :: FieldProblem(d, userDate, past, e.field) == Some(e.message)
    ensures forall f: FormField | FieldProblem(d, userDate, past, f).Some? ::
      FieldError(f, FieldProblem(d, userDate, past, f).value) in r.errors
    ensures ErrorsInCheckOrder(r.errors)
  {
    var fields := [UserField, DateField, DelayField, ReasonField];
    assert forall i | 0 <= i < |fields| :: FieldRank(fields[i]) == i;
    assert forall f: FormField :: f in fields by {
      forall f: FormField
        ensures f in fields
      {
        EveryFieldListed(f);
      }
    }
    var errors := ErrorsFor(fields, d, userDate, past);
    FormValidation(errors == [], errors)
  }

  /** What passes validation has a user of 1 to 100 characters, a delay of 1
      to 480 minutes when late, a reason of at most 125 characters and a date
      that is neither missing nor past. */
  lemma ValidFormBounds(d: Draft, userDate: string, past: bool)
    requires ValidateForm(d, userDate, past).isValid
    ensures 1 <= |d.user| <= 100
    ensures d.status == "LATE" ==> d.delay.Some? && 1 <= d.delay.value <= 480
    ensures d.reason.Some? ==> |d.reason.value| <= 125
    ensures userDate != "" && !past
  {
    var r := ValidateForm(d, userDate, past);
    assert FieldProblem(d, userDate, past, UserField).None?;
    assert FieldProblem(d, userDate, past, DateField).None?;
    assert FieldProblem(d, userDate, past, DelayField).None?;
    assert FieldProblem(d, userDate, past, ReasonField).None?;
  }

  /** The calendar page's own `validateEnhancedForm`, which shows each message
      in place and answers only whether all fields passed. */
  predicate EnhancedFormValid(d: Draft, userDate: string, past: bool) {
    && !(d.user == "" || |d.user| > 100)
    && !(userDate == "" || past)
    && !(d.status == "LATE" && (d.delay.None? || d.delay.value <= 0 || d.delay.value > 480))
    && !(d.reason.Some? && |d.reason.value| > 125)
  }

  /** The page and the manager accept exactly the same forms. */
  lemma FormValidationsAgree(d: Draft, userDate: string, past: bool)
    ensures EnhancedFormValid(d, userDate, past) <==> ValidateForm(d, userDate, past).isValid
  {
    var r := ValidateForm(d, userDate, past);
    if !r.isValid {
      var e := r.errors[0];
      assert FieldProblem(d, userDate, past, e.field).Some?;
    } else {
      ValidFormBounds(d, userDate, past);
    }
  }

  /** The reason counter: `warning` above 100 characters, `error` from 125. */
  datatype Counter = Counter(warning: bool, error: bool)

  function CharacterCounter(count: nat): (r: Counter)
    ensures r.error ==> r.warning
    ensures r.warning <==> count > 100
    ensures r.error <==> count >= 125
  {
    Counter(count > 100, count >= 125)
  }

  /** A reason of exactly 125 characters passes validation although the
      counter already shows its error colour. */
  lemma CounterErrorAtTheLimit(d: Draft, userDate: string, past: bool)
    requires d.reason.Some? && |d.reason.value| == 125
    ensures CharacterCounter(|d.reason.value|).error
    ensures FieldProblem(d, userDate, past, ReasonField).None?
  {
  }

  // ---------------------------------------------------------------------------
  // Existing-callout warning and duplicate guard

  predicate IsBeingEdited(e: Editor, c: Callout) {
    e.editing.Some? && c.id == e.editing.value.id
  }

  /** `checkExistingCallout`: the first callout on the picked date, for any
      user, unless a callout is being edited. */
  function ExistingWarning(cs: seq<Callout>, serverDate: Option<string>, e: Editor): (r: Option<Callout>)
    ensures r.Some? <==> e.editing.None? && exists c | c in cs :: Some(c.dateKey) == serverDate
    ensures r.Some? ==> r.value in cs && Some(r.value.dateKey) == serverDate
  {
    var onDate := Filter(cs, (c: Callout) => Some(c.dateKey) == serverDate);
    if |onDate| > 0 && e.editing.None? then Some(onDate[0]) else None
  }

  /** A callout that clashes with the new one: same date key, same user in
      any letter case, and not the callout being edited. */
  predicate Conflicts(c: Callout, user: string, checkDate: Option<string>, e: Editor) {
    checkDate == Some(c.dateKey) && ToLower(c.user) == ToLower(user) && !IsBeingEdited(e, c)
  }

  function Conflicting(cs: seq<Callout>, user: string, checkDate: Option<string>, e: Editor): seq<Callout> {
    Filter(cs, (c: Callout) => Conflicts(c, user, checkDate, e))
  }

  datatype Decision = Decision(proceed: bool, editor: Editor)

  /** `checkForDuplicateCallout`; `confirmed` is the user's answer to the
      replace prompt, which is asked only when there is a clash. */
  function CheckForDuplicate(cs: seq<Callout>, d: Draft, checkDate: Option<string>, e: Editor,
                             confirmed: bool): (r: Decision)
    ensures (forall c | c in cs :: !Conflicts(c, d.user, checkDate, e)) ==> r == Decision(true, e)
    ensures r.proceed <==> confirmed || forall c | c in cs :: !Conflicts(c, d.user, checkDate, e)
    ensures !r.proceed ==> r.editor == e
    ensures r.editor.editing == e.editing
    ensures r.editor != e ==>
      && r.editor.replacing.Some?
      && exists i | 0 <= i < |cs| ::
           && cs[i] == r.editor.replacing.value
           && Conflicts(cs[i], d.user, checkDate, e)
           && forall j | 0 <= j < i :: !Conflicts(cs[j], d.user, checkDate, e)
  {
    var clashes := Conflicting(cs, d.user, checkDate, e);
    if |clashes| == 0 then Decision(true, e)
    else
      FilterFirst(cs, (c: Callout) => Conflicts(c, d.user, checkDate, e));
      if confirmed then Decision(true, e.(replacing := Some(clashes[0])))
      else Decision(false, e)
  }

  /** Whenever the duplicate guard finds a clash the page also shows its
      existing-callout warning, unless a callout is being edited. */
  lemma ClashIsAlsoWarned(cs: seq<Callout>, d: Draft, checkDate: Option<string>, e: Editor, c: Callout)
    requires c in cs && Conflicts(c, d.user, checkDate, e) && e.editing.None?
    ensures ExistingWarning(cs, checkDate, e).Some?
  {
  }

  // ---------------------------------------------------------------------------
  // Routing and submission

  datatype Request = Put(id: int) | Post

  /** Replace target first (unless editing), then the edited callout, else a
      new callout. */
  function Route(e: Editor): (r: Request)
    ensures r.Post? <==> e.editing.None? && e.replacing.None?
    ensures e.editing.Some? ==> r == Put(e.editing.value.id)
    ensures e.editing.None? && e.replacing.Some? ==> r == Put(e.replacing.value.id)
  {
    if e.replacing.Some? && e.editing.None? then Put(e.replacing.value.id)
    else if e.editing.Some? then Put(e.editing.value.id)
    else Post
  }

  /** After a confirmed clash with nothing being edited, the request
      overwrites a callout of the same user on the same day instead of adding
      a second one. */
  lemma ConfirmedClashOverwrites(cs: seq<Callout>, d: Draft, checkDate: Option<string>, e: Editor)
    requires e == Editor(None, None)
    requires exists c | c in cs :: Conflicts(c, d.user, checkDate, e)
    ensures var r := CheckForDuplicate(cs, d, checkDate, e, true);
      r.proceed && Route(r.editor).Put? &&
      exists c | c in cs :: c.id == Route(r.editor).id && Conflicts(c, d.user, checkDate, e)
  {
    var r := CheckForDuplicate(cs, d, checkDate, e, true);
    var c :| c in cs && Conflicts(c, d.user, checkDate, e);
    assert r.editor != e;
  }

  /** `closeModal`: both references are cleared. */
  function CloseModal(e: Editor): (r: Editor)
    ensures r.editing.None? && r.replacing.None?
  {
    Editor(None, None)
  }

  /** What a submission leads to. `Kept` leaves the modal open without a
      request; `Failed` is a request the server refused. */
  datatype Outcome =
    | Invalid(errors: seq<FieldError>)
    | Kept(editor: Editor)
    | Failed(request: Request, editor: Editor)
    | Done(request: Request, message: string, editor: Editor)

  /** The success message's template, filled with "updated" while a callout
      is being edited or replaced and "added" otherwise. */
  function SuccessMessage(e: Editor): string {
    if e.editing.Some? || e.replacing.Some? then "Callout updated successfully!"
    else "Callout added successfully!"
  }

  /** The page's `handleEnhancedCalloutSubmit` as written: validate, guard
      against duplicates, send, and on success close the modal before the
      message picks "added" or "updated". `ok` is the server's answer. */
  function Submit(cs: seq<Callout>, d: Draft, userDate: string, past: bool, e: Editor,
                  confirmed: bool, ok: bool): (r: Outcome)
    ensures !ValidateForm(d, userDate, past).isValid ==> r.Invalid?
    ensures r.Kept? ==> r.editor == e
    ensures r.Done? || r.Failed? ==> ValidateForm(d, userDate, past).isValid
    ensures r.Done? ==> r.editor == Editor(None, None) && ok
  {
    if !EnhancedFormValid(d, userDate, past) then
      FormValidationsAgree(d, userDate, past);
      Invalid(ValidateForm(d, userDate, past).errors)
    else
      FormValidationsAgree(d, userDate, past);
      var decision := CheckForDuplicate(cs, d, d.date, e, confirmed);
      if !decision.proceed then Kept(e)
      else
        var request := Route(decision.editor);
        if !ok then Failed(request, decision.editor)
        else
          var closed := CloseModal(decision.editor);
          Done(request, SuccessMessage(closed), Editor(closed.editing, None))
  }

  /** However the save was routed, the page reports it as added, even when
      it overwrote or edited a callout. */
  lemma SubmitAlwaysSaysAdded(cs: seq<Callout>, d: Draft, userDate: string, past: bool, e: Editor,
                              confirmed: bool, ok: bool)
    requires Submit(cs, d, userDate, past, e, confirmed, ok).Done?
    ensures Submit(cs, d, userDate, past, e, confirmed, ok).message == "Callout added successfully!"
  {
  }

  /** An edit that saves: the request is a PUT, yet the message says added. */
  lemma EditReportedAsAdded(c: Callout, d: Draft, userDate: string)
    requires ValidateForm(d, userDate, false).isValid
    ensures var r := Submit([], d, userDate, false, Editor(Some(c), None), false, true);
      r.Done? && r.request == Put(c.id) && r.message == "Callout added successfully!"
  {
    FormValidationsAgree(d, userDate, false);
  }

  /** The evident intent: the message is chosen before the modal closes, so
      it says "updated" exactly when the request overwrote a callout. */
  function SubmitCorrected(cs: seq<Callout>, d: Draft, userDate: string, past: bool, e: Editor,
                           confirmed: bool, ok: bool): (r: Outcome)
    ensures !ValidateForm(d, userDate, past).isValid ==> r.Invalid?
    ensures r.Kept? ==> r.editor == e
    ensures r.Done? ==> r.editor == Editor(None, None) && ok
    ensures r.Done? ==>
      r.message == (if r.request.Put? then "Callout updated successfully!" else "Callout added successfully!")
  {
    if !EnhancedFormValid(d, userDate, past) then
      FormValidationsAgree(d, userDate, past);
      Invalid(ValidateForm(d, userDate, past).errors)
    else
      FormValidationsAgree(d, userDate, past);
      var decision := CheckForDuplicate(cs, d, d.date, e, confirmed);
      if !decision.proceed then Kept(e)
      else
        var request := Route(decision.editor);
        if !ok then Failed(request, decision.editor)
        else Done(request, SuccessMessage(decision.editor), CloseModal(decision.editor))
  }

  /** Both versions send the same request and leave the same state; only the
      message differs. */
  lemma CorrectionOnlyChangesMessage(cs: seq<Callout>, d: Draft, userDate: string, past: bool, e: Editor,
                                     confirmed: bool, ok: bool)
    ensures var a := Submit(cs, d, userDate, past, e, confirmed, ok);
      var b := SubmitCorrected(cs, d, userDate, past, e, confirmed, ok);
      (a.Done? <==> b.Done?) && (a.Done? ==> a.request == b.request && a.editor == b.editor)
      && (!a.Done? ==> a == b)
  {
  }

  // ---------------------------------------------------------------------------
  // The manager's save and the modal's submit

  datatype SaveResult = Declined | Sent(request: Request, succeeded: bool, editor: Editor)

  /** The callout manager's `saveCallout`: the duplicate guard, the routed
      request, and on success the replace target reset. A refused request
      propagates as an exception, leaving the references as the guard set
      them. */
  function SaveCallout(cs: seq<Callout>, d: Draft, checkDate: Option<string>, e: Editor,
                       confirmed: bool, ok: bool): (r: SaveResult)
    ensures r.Declined? <==> !CheckForDuplicate(cs, d, checkDate, e, confirmed).proceed
    ensures r.Declined? ==> !confirmed
    ensures r.Sent? && r.succeeded ==> r.editor.replacing.None? && r.editor.editing == e.editing
    ensures r.Sent? ==> r.succeeded == ok
  {
    var decision := CheckForDuplicate(cs, d, checkDate, e, confirmed);
    if !decision.proceed then Declined
    else
      var request := Route(decision.editor);
      if ok then Sent(request, true, decision.editor.(replacing := None))
      else Sent(request, false, decision.editor)
  }

  /** The manager's `getCalloutsForUser`: the user's callouts in any letter
      case, in their original order. */
  function CalloutsForUser(cs: seq<Callout>, name: string): (r: seq<Callout>)
    ensures forall c | c in r :: c in cs && SameIgnoringCase(c.user, name)
    ensures forall c | c in cs && SameIgnoringCase(c.user, name) :: c in r
  {
    Filter(cs, (c: Callout) => SameIgnoringCase(c.user, name))
  }

  /** The modal's `handleFormSubmit`: the manager validates and saves; any
      result but a declined duplicate closes the modal. */
  function ModalSubmit(cs: seq<Callout>, d: Draft, userDate: string, past: bool, e: Editor,
                       confirmed: bool, ok: bool): (r: Outcome)
    ensures !ValidateForm(d, userDate, past).isValid ==> r.Invalid?
    ensures r.Kept? ==> r.editor == e && !confirmed
    ensures r.Done? ==> r.editor == Editor(None, None) && r.message == "Callout added successfully!"
  {
    var v := ValidateForm(d, userDate, past);
    if !v.isValid then Invalid(v.errors)
    else
      match SaveCallout(cs, d, d.date, e, confirmed, ok)
      case Declined => Kept(e)
      case Sent(request, succeeded, editor) =>
        if !succeeded then Failed(request, editor)
        else
          var closed := CloseModal(editor);
          Done(request, SuccessMessage(closed), closed)
  }

  /** The modal and the page send the same request for the same form. */
  lemma ModalAndPageAgree(cs: seq<Callout>, d: Draft, userDate: string, past: bool, e: Editor,
                          confirmed: bool, ok: bool)
    ensures var a := Submit(cs, d, userDate, past, e, confirmed, ok);
      var b := ModalSubmit(cs, d, userDate, past, e, confirmed, ok);
      (a.Done? <==> b.Done?) && (a.Done? ==> a.request == b.request && a.message == b.message)
      && (a.Kept? <==> b.Kept?) && (a.Invalid? <==> b.Invalid?)
  {
    FormValidationsAgree(d, userDate, past);
  }

  // ---------------------------------------------------------------------------
  // Statistics

  datatype Stats = Stats(total: nat, late: nat, out: nat, latePercentage: nat, outPercentage: nat)

  /** `Math.round(part / total * 100)` in exact arithmetic. */
  function Percent(part: nat, total: nat): (r: nat)
    requires part <= total
    ensures total == 0 ==> r == 0
    ensures r <= 100
  {
    if total == 0 then 0
    else
      var q := (200 * part + total) / (2 * total);
      RoundedQuotientBound(200 * part + total, 2 * total, 100);
      q
  }

  /** A quotient stays at most `k` when the dividend is below `(k + 1)` divisors. */
  lemma RoundedQuotientBound(a: nat, b: nat, k: nat)
    requires b > 0 && a < (k + 1) * b
    ensures a / b <= k
  {
    assert (a / b) * b <= a;
  }

  predicate IsLate(c: Callout) { c.status == "LATE" }
  predicate IsOut(c: Callout) { c.status == "OUT" }

  /** The manager's `getCalloutStats`. */
  function CalloutStats(cs: seq<Callout>): (r: Stats)
    ensures r.total == |cs| && r.late + r.out <= r.total
    ensures r.late == |Filter(cs, IsLate)| && r.out == |Filter(cs, IsOut)|
    ensures r.total == 0 ==> r.latePercentage == 0 && r.outPercentage == 0
  {
    FilterDisjoint(cs, IsLate, IsOut);
    var late := |Filter(cs, IsLate)|;
    var out := |Filter(cs, IsOut)|;
    Stats(|cs|, late, out, Percent(late, |cs|), Percent(out, |cs|))
  }
}

=== FILE: client_utils.dfy ===
/** The front end's general utilities: date comparison strings, date
    validation, callout validation, input sanitising and two display helpers.
    "Today" in the server's zone and the browser's own date conversions are
    parameters. */
module ClientUtils {
  import opened Js
  import opened Dates

  /** `formatDateForComparison(date)`: falsy input gives null, a
      `YYYY-MM-DD` string is returned as it is, numbers and booleans give null,
      and any other string or object goes through the browser's `Date`
      conversion (`convert`), which answers null for an invalid date. */
  function FormatDateForComparison(date: JValue, convert: JValue -> Option<string>): (r: Option<string>)
    ensures !Truthy(date) || date.JNum? || date.JBool? ==> r.None?
    ensures date.JStr? && WellFormed(date.s) ==> r == Some(date.s)
    ensures date.JStr? && date.s != "" && !WellFormed(date.s) ==> r == convert(date)
  {
    if !Truthy(date) then None
    else if date.JStr? && WellFormed(date.s) then Some(date.s)
    else if date.JStr? || date.JCompound? then convert(date)
    else None
  }

  /** `isValidDate`: a `YYYY-MM-DD` string that the engine accepts as a date
      once `T00:00:00` is appended (month 1 to 12, day 1 to 31). */
  predicate IsValidDate(v: JValue)
    ensures IsValidDate(v) <==> v.JStr? && WellFormed(v.s) && 1 <= Month(v.s) <= 12 && 1 <= Day(v.s) <= 31
  {
    Truthy(v) && v.JStr? && WellFormed(v.s) && ParseIsoDate(v.s).Some?
  }

  /** Every real calendar date is valid, and so is a day 29 to 31 past the
      end of its month, which the engine carries into the next month. */
  lemma IsValidDateCharacterised(s: string)
    requires WellFormed(s)
    ensures IsValidDate(JStr(s)) <==> 1 <= Month(s) <= 12 && 1 <= Day(s) <= 31
    ensures Valid(Parse(s)) ==> IsValidDate(JStr(s))
  {
  }

  /** `isPastDate`: the comparison string is below today's. A null comparison
      string compares as a number against a date string that is not one, so
      it is never "past". */
  function IsPastDate(date: JValue, today: string, convert: JValue -> Option<string>): (r: bool)
    ensures date.JStr? && WellFormed(date.s) ==> (r <==> LexLess(date.s, today))
    ensures !Truthy(date) ==> !r
  {
    match FormatDateForComparison(date, convert)
    case None => false
    case Some(s) => LexLess(s, today)
  }

  /** On well-formed dates "past" is chronological. */
  lemma IsPastDateIsChronological(s: string, today: string, convert: JValue -> Option<string>)
    requires WellFormed(s) && WellFormed(today)
    ensures IsPastDate(JStr(s), today, convert) <==> Before(Parse(s), Parse(today))
  {
    LexOrderIsChronological(s, today);
  }

  /** A callout as the form hands it over; `None` stands for a missing value. */
  datatype Input = Input(user: Option<string>, status: Option<string>, date: Option<string>,
                         reason: Option<string>, delay: JValue)

  /** The problems `validateCalloutData` reports, in the order it checks them. */
  datatype Problem = UserRequired | StatusRequired | DateRequired | DateInPast
                   | UserTooLong | ReasonTooLong | DelayOutOfRange

  /** The message shown for each problem. */
  function Message(p: Problem): string {
    match p
    case UserRequired => "User name is required"
    case StatusRequired => "Valid status (LATE or OUT) is required"
    case DateRequired => "Valid date is required"
    case DateInPast => "Cannot create callouts for past dates"
    case UserTooLong => "User name must be 100 characters or less"
    case ReasonTooLong => "Reason must be 500 characters or less"
    case DelayOutOfRange => "Delay must be a number between 0 and 480 minutes"
  }

  datatype Validation = Validation(isValid: bool, errors: seq<Problem>, convertedDate: Option<string>)

  /** A field the form filled in with a non-empty string. */
  predicate Present(v: Option<string>) {
    v.Some? && v.value != ""
  }

  predicate UserMissing(input: Input) {
    !Present(input.user) || Trim(input.user.value) == ""
  }

  predicate StatusInvalid(input: Input) {
    !Present(input.status) || !(ToUpper(input.status.value) in {"LATE", "OUT"})
  }

  predicate DateInvalid(input: Input) {
    !Present(input.date) || !IsValidDate(JStr(input.date.value))
  }

  /** The date test compares the string as given, not its converted form. */
  predicate DateGone(input: Input, today: string) {
    !DateInvalid(input) && LexLess(input.date.value, today)
  }

  /** The delay test runs only for the exact status `LATE` and a truthy delay. */
  predicate DelayRejected(input: Input) {
    && input.status == Some("LATE") && Truthy(input.delay)
    && var d := ParseInt(input.delay);
       d.None? || d.value < 0 || d.value > 480
  }

  /** Whether the input shows problem `p`. */
  predicate Shows(input: Input, today: string, p: Problem) {
    match p
    case UserRequired => UserMissing(input)
    case StatusRequired => StatusInvalid(input)
    case DateRequired => DateInvalid(input)
    case DateInPast => DateGone(input, today)
    case UserTooLong => Present(input.user) && |input.user.value| > 100
    case ReasonTooLong => Present(input.reason) && |input.reason.value| > 500
    case DelayOutOfRange => DelayRejected(input)
  }

  /** Every problem, in the order the checks run. */
  const CheckOrder: seq<Problem> :=
    [UserRequired, StatusRequired, DateRequired, DateInPast, UserTooLong, ReasonTooLong, DelayOutOfRange]

  /** The place of a problem in `CheckOrder`. */
  function Rank(p: Problem): nat {
    match p
    case UserRequired => 0
    case StatusRequired => 1
    case DateRequired => 2
    case DateInPast => 3
    case UserTooLong => 4
    case ReasonTooLong => 5
    case DelayOutOfRange => 6
  }

  /** Problems listed in check order, none twice. */
  predicate InCheckOrder(ps: seq<Problem>) {
    forall i, j | 0 <= i < j < |ps| :: Rank(ps[i]) < Rank(ps[j])
  }

  /** The problems of `ps` the input shows, in the order of `ps`. */
  function Reported(ps: seq<Problem>, input: Input, today: string): (r: seq<Problem>)
    ensures forall p :: p in r <==> p in ps && Shows(input, today, p)
    ensures |r| <= |ps|
    ensures InCheckOrder(ps) ==> InCheckOrder(r)
  {
    if |ps| == 0 then []
    else
      var head := if Shows(input, today, ps[0]) then [ps[0]] else [];
      var rest := Reported(ps[1..], input, today);
      PrependInCheckOrder(ps, head, rest);
      head + rest
  }

  /** The first problem, put before those reported from the others, keeps the
      check order. */
  lemma PrependInCheckOrder(ps: seq<Problem>, head: seq<Problem>, rest: seq<Problem>)
    requires |ps| > 0 && (forall p | p in rest :: p in ps[1..]) && (head == [] || head == [ps[0]])
    requires InCheckOrder(ps[1..]) ==> InCheckOrder(rest)
    ensures InCheckOrder(ps) ==> InCheckOrder(head + rest)
  {
    if InCheckOrder(ps) {
      assert InCheckOrder(ps[1..]) by {
        forall i, j | 0 <= i < j < |ps[1..]| ensures Rank(ps[1..][i]) < Rank(ps[1..][j]) {
          assert ps[1..][i] == ps[i + 1] && ps[1..][j] == ps[j + 1];
        }
      }
      forall p | p in rest ensures Rank(ps[0]) < Rank(p) {
        var k :| 0 <= k < |ps[1..]| && ps[1..][k] == p;
        assert ps[k + 1] == p;
      }
      if head == [ps[0]] {
        var all := head + rest;
        forall i, j | 0 <= i < j < |all| ensures Rank(all[i]) < Rank(all[j]) {
          assert all[j] == rest[j - 1];
          if i > 0 {
            assert all[i] == rest[i - 1];
          } else {
            assert all[i] == ps[0] && all[j] in rest;
          }
        }
      } else {
        assert head + rest == rest;
      }
    }
  }

  lemma EveryProblemChecked(p: Problem)
    ensures p in CheckOrder
  {
    match p
    case UserRequired => assert CheckOrder[0] == p;
    case StatusRequired => assert CheckOrder[1] == p;
    case DateRequired => assert CheckOrder[2] == p;
    case DateInPast => assert CheckOrder[3] == p;
    case UserTooLong => assert CheckOrder[4] == p;
    case ReasonTooLong => assert CheckOrder[5] == p;
    case DelayOutOfRange => assert CheckOrder[6] == p;
  }

  /** `validateCalloutData`: it reports exactly the problems the input shows,
      each once, in the order of the checks. */
  function ValidateCalloutData(input: Input, today: string, convert: JValue -> Option<string>): (r: Validation)
    ensures r.isValid <==> r.errors == []
    ensures forall p :: p in r.errors <==> Shows(input, today, p)
    ensures InCheckOrder(r.errors) && |r.errors| <= 7
  {
    assert forall i | 0 <= i < |CheckOrder| :: Rank(CheckOrder[i]) == i;
    var errors := Reported(CheckOrder, input, today);
    assert forall p :: p in CheckOrder by {
      forall p: Problem
        ensures p in CheckOrder
      {
        EveryProblemChecked(p);
      }
    }
    var converted := if Present(input.date) then FormatDateForComparison(JStr(input.date.value), convert) else None;
    Validation(errors == [], errors, converted)
  }

  /** The past-date problem excludes the missing-date one. */
  lemma DateProblemsExclusive(input: Input, today: string, convert: JValue -> Option<string>)
    ensures !(DateRequired in ValidateCalloutData(input, today, convert).errors
              && DateInPast in ValidateCalloutData(input, today, convert).errors)
  {
    var r := ValidateCalloutData(input, today, convert);
    if DateInPast in r.errors {
      assert Shows(input, today, DateInPast);
      assert !Shows(input, today, DateRequired);
    }
  }

  /** Whatever passes validation names a real status, a date the engine
      accepts and that is not before today, and a user of at most 100
      characters. */
  lemma ValidInputIsAcceptable(input: Input, today: string, convert: JValue -> Option<string>)
    requires ValidateCalloutData(input, today, convert).isValid
    ensures Present(input.status) && ToUpper(input.status.value) in {"LATE", "OUT"}
    ensures Present(input.date) && IsValidDate(JStr(input.date.value)) && !LexLess(input.date.value, today)
    ensures Present(input.user) && |input.user.value| <= 100
  {
    var r := ValidateCalloutData(input, today, convert);
    assert !Shows(input, today, UserRequired) && !Shows(input, today, StatusRequired);
    assert !Shows(input, today, DateRequired) && !Shows(input, today, DateInPast);
    assert !Shows(input, today, UserTooLong);
  }

  /** A lower-case `late` skips the delay range check altogether. */
  lemma LowerCaseLateSkipsDelayCheck(input: Input, today: string, convert: JValue -> Option<string>)
    requires input.status == Some("late")
    ensures DelayOutOfRange !in ValidateCalloutData(input, today, convert).errors
  {
    assert "late" != "LATE" by { assert "late"[0] == 'l' && "LATE"[0] == 'L'; }
    assert !Shows(input, today, DelayOutOfRange);
  }

  // ---------------------------------------------------------------------------
  // sanitizeInput

  /** The characters the first two replacements delete. */
  predicate Stripped(c: char) {
    c == '<' || c == '>' || c == '\'' || c == '"'
  }

  /** `.replace(/[<>]/g, '').replace(/['"]/g, '')`. */
  function RemoveStripped(s: string): (r: string)
    ensures forall c | c in r :: c in s && !Stripped(c)
    ensures forall c | c in s && !Stripped(c) :: c in r
  {
    if |s| == 0 then ""
    else if Stripped(s[0]) then RemoveStripped(s[1..])
    else [s[0]] + RemoveStripped(s[1..])
  }

  predicate IsWordChar(c: char) {
    ('a' <= c <= 'z') || ('A' <= c <= 'Z') || IsDigit(c) || c == '_'
  }

  function WordRun(s: string): (k: nat)
    ensures k <= |s|
    ensures forall i | 0 <= i < k :: IsWordChar(s[i])
    ensures k < |s| ==> !IsWordChar(s[k])
  {
    if |s| > 0 && IsWordChar(s[0]) then 1 + WordRun(s[1..]) else 0
  }

  /** `s` starts with `javascript:` in any letter case. */
  predicate SchemeAhead(s: string) {
    |s| >= 11 && forall i | 0 <= i < 11 :: LowerChar(s[i]) == "javascript:"[i]
  }

  /** Length of the match of `/javascript:/i` at the start of `s`, or 0. */
  function SchemeMatch(s: string): (k: nat)
    ensures k == 0 || k == 11
    ensures k == 11 ==> |s| >= 11
  {
    if SchemeAhead(s) then 11 else 0
  }

  /** The case-insensitive match is the comparison of the lower-cased text. */
  lemma SchemeMatchIsLowerCaseComparison(s: string)
    ensures SchemeMatch(s) == 11 <==> |s| >= 11 && ToLower(s[..11]) == "javascript:"
  {
    if |s| >= 11 {
      if SchemeAhead(s) {
        forall i | 0 <= i < 11
          ensures ToLower(s[..11])[i] == "javascript:"[i]
        {
          assert s[..11][i] == s[i];
        }
      } else {
        var i :| 0 <= i < 11 && LowerChar(s[i]) != "javascript:"[i];
        assert ToLower(s[..11])[i] == LowerChar(s[i]);
      }
    }
  }

  /** Length of the match of `/on\w+=/i` at the start of `s`, or 0: `on` in
      either case, a maximal run of word characters, then `=`. Word characters
      never include `=`, so the greedy run is the only candidate. */
  function HandlerMatch(s: string): (k: nat)
    ensures k <= |s|
    ensures k > 0 ==> k >= 4 && s[k - 1] == '='
  {
    if |s| >= 2 && ToLower(s[..2]) == "on" then
      var w := WordRun(s[2..]);
      if w >= 1 && 2 + w < |s| && s[2 + w] == '=' then 3 + w else 0
    else 0
  }

  /** A global replacement with `''`: scanning left to right, every match of
      the pattern is dropped and the scan resumes after it, so pieces on either
      side of a removed match can form a new one that stays. */
  function RemoveMatches(s: string, handler: bool): (r: string)
    ensures |r| <= |s|
    decreases |s|
  {
    if |s| == 0 then ""
    else
      var k := if handler then HandlerMatch(s) else SchemeMatch(s);
      if k > 0 then RemoveMatches(s[k..], handler)
      else [s[0]] + RemoveMatches(s[1..], handler)
  }

  /** Removing matches never introduces a character. */
  lemma {:induction false} RemoveMatchesKeepsCharacters(s: string, handler: bool)
    ensures forall c | c in RemoveMatches(s, handler) :: c in s
    decreases |s|
  {
    if |s| > 0 {
      var k := if handler then HandlerMatch(s) else SchemeMatch(s);
      if k > 0 {
        RemoveMatchesKeepsCharacters(s[k..], handler);
        forall c | c in s[k..]
          ensures c in s
        {
          var i :| 0 <= i < |s[k..]| && s[k..][i] == c;
          assert s[k + i] == c;
        }
      } else {
        RemoveMatchesKeepsCharacters(s[1..], handler);
        forall c | c in s[1..]
          ensures c in s
        {
          var i :| 0 <= i < |s[1..]| && s[1..][i] == c;
          assert s[1 + i] == c;
        }
      }
    }
  }

  lemma TrimKeepsCharacters(s: string)
    ensures forall c | c in Trim(s) :: c in s
  {
    var r := Trim(s);
    var k :| StripsTo(s, k, r);
    forall c | c in r
      ensures c in s
    {
      var i :| 0 <= i < |r| && r[i] == c;
      assert s[k + i] == c;
    }
  }

  /** `sanitizeInput` of the general utilities: nothing but characters of the
      input survive, none of them an angle bracket or a quote, and the result
      starts and ends with something other than white space. */
  function SanitizeInput(input: JValue): (r: string)
    ensures !input.JStr? ==> r == ""
    ensures forall c | c in r :: !Stripped(c)
    ensures input.JStr? ==> forall c | c in r :: c in input.s
    ensures |r| > 0 ==> !IsJsSpace(r[0]) && !IsJsSpace(r[|r| - 1])
  {
    if !input.JStr? then ""
    else
      var a := RemoveStripped(input.s);
      var b := RemoveMatches(a, false);
      var c := RemoveMatches(b, true);
      RemoveMatchesKeepsCharacters(a, false);
      RemoveMatchesKeepsCharacters(b, true);
      TrimKeepsCharacters(c);
      Trim(c)
  }

  // ---------------------------------------------------------------------------
  // Display helpers

  /** `capitalize`: the first character upper-cased, the rest lower-cased. */
  function Capitalize(v: JValue): (r: string)
    ensures !v.JStr? || v.s == "" ==> r == ""
    ensures v.JStr? ==> |r| == |v.s|
    ensures v.JStr? && v.s != "" ==>
      r[0] == UpperChar(v.s[0]) && forall i | 0 < i < |r| :: r[i] == LowerChar(v.s[i])
  {
    if !v.JStr? || v.s == "" then "" else [UpperChar(v.s[0])] + ToLower(v.s[1..])
  }

  /** Capitalising twice is capitalising once. */
  lemma CapitalizeIdempotent(s: string)
    ensures Capitalize(JStr(Capitalize(JStr(s)))) == Capitalize(JStr(s))
  {
    if s != "" {
      var r := Capitalize(JStr(s));
      assert r[0] == UpperChar(s[0]);
      assert UpperChar(UpperChar(s[0])) == UpperChar(s[0]);
      assert r[1..] == ToLower(s[1..]);
      assert ToLower(ToLower(s[1..])) == ToLower(s[1..]);
    }
  }

  /** `str.substring(0, end)`: a negative end counts as 0. */
  function SubstringTo(s: string, end: int): (r: string)
    ensures |r| == if end < 0 then 0 else if end > |s| then |s| else end
    ensures r <= s
  {
    if end < 0 then "" else if end > |s| then s else s[..end]
  }

  /** `truncate(str, maxLength = 50, suffix = '...')` of the general utilities. */
  function Truncate(v: JValue, maxLength: int, suffix: string): (r: string)
    ensures !v.JStr? ==> r == ""
    ensures v.JStr? && |v.s| <= maxLength ==> r == v.s
    ensures v.JStr? && |v.s| > maxLength ==>
      var keep := if maxLength - |suffix| < 0 then 0 else maxLength - |suffix|;
      r == v.s[..keep] + suffix
    ensures v.JStr? && |v.s| > maxLength && maxLength >= |suffix| ==> |r| == maxLength
  {
    if !v.JStr? then ""
    else if |v.s| <= maxLength then v.s
    else SubstringTo(v.s, maxLength - |suffix|) + suffix
  }

  /** The defaults: at most 50 characters, ending in `...` when cut. */
  lemma TruncateDefaults(s: string)
    requires |s| > 50
    ensures Truncate(JStr(s), 50, "...") == s[..47] + "..."
    ensures |Truncate(JStr(s), 50, "...")| == 50
  {
  }
}

=== FILE: dashboard.dfy ===
/** The admin dashboard's statistics panel and its display helpers. The role,
    F&F list and truncation helpers it shares with the user and callout panels
    are those of modules AdminUsers and AdminCallouts. */
module Dashboard {
  import opened Js
  import AdminCallouts
  import AdminUsers
  import Server

  datatype DashboardStats = DashboardStats(
    adminCount: nat, raiderCount: int, ffCount: nat, totalUsers: nat, activeUsers: nat,
    totalCallouts: nat, thisWeekCallouts: nat, todayCallouts: nat,
    weekLateCallouts: nat, weekOutCallouts: nat, todayLateCallouts: nat, todayOutCallouts: nat,
    adminPercentage: AdminUsers.Share, raiderPercentage: AdminUsers.Share, ffPercentage: AdminUsers.Share)

  predicate IsOut(c: AdminCallouts.Row) { c.status == "OUT" }

  function LateOf(cs: seq<AdminCallouts.Row>): seq<AdminCallouts.Row> {
    Filter(cs, AdminCallouts.IsLate)
  }

  function OutOf(cs: seq<AdminCallouts.Row>): seq<AdminCallouts.Row> {
    Filter(cs, IsOut)
  }

  /** The callers' names: `callouts.map(c => c.user)`. */
  function CallerNames(callouts: seq<AdminCallouts.Row>): (r: seq<string>)
    ensures |r| == |callouts|
    ensures forall n :: n in r <==> exists c | c in callouts :: c.user == n
  {
    MapMembers(callouts, AdminCallouts.RowUser);
    MapSeq(callouts, AdminCallouts.RowUser)
  }

  /** `calculateStatistics` of the dashboard; the clock readings are
      parameters. The LATE and OUT counts of a window never exceed the
      window's size, and the active users are the distinct caller names. */
  function CalculateStatistics(users: seq<AdminUsers.User>, callouts: seq<AdminCallouts.Row>, ff: seq<string>,
                               weekStart: int, today: string): (r: DashboardStats)
    ensures r.raiderCount + r.ffCount == r.totalUsers == |users|
    ensures r.weekLateCallouts + r.weekOutCallouts <= r.thisWeekCallouts <= r.totalCallouts
    ensures r.todayLateCallouts + r.todayOutCallouts <= r.todayCallouts <= r.totalCallouts
    ensures r.activeUsers <= r.totalCallouts == |callouts|
    ensures r.activeUsers == 0 <==> |callouts| == 0
    ensures r.activeUsers == |set c | c in callouts :: c.user|
    ensures |users| == 0 ==> r.adminPercentage == r.raiderPercentage == r.ffPercentage == AdminUsers.NoUsers
  {
    var adminCount := |AdminUsers.Admins(users)|;
    var ffCount := |AdminUsers.ListedUsers(users, ff)|;
    var raiderCount := |users| - ffCount;
    var week := AdminUsers.ThisWeek(callouts, weekStart);
    var day := AdminUsers.Today(callouts, today);
    FilterDisjoint(week, AdminCallouts.IsLate, IsOut);
    FilterDisjoint(day, AdminCallouts.IsLate, IsOut);
    var distinct := SortedDistinct(CallerNames(callouts));
    assert |callouts| > 0 ==> callouts[0].user in distinct;
    DistinctCallers(callouts);
    DashboardStats(adminCount, raiderCount, ffCount, |users|, |distinct|,
                   |callouts|, |week|, |day|,
                   |LateOf(week)|, |OutOf(week)|, |LateOf(day)|, |OutOf(day)|,
                   AdminUsers.PercentOf(adminCount, |users|), AdminUsers.PercentOf(raiderCount, |users|),
                   AdminUsers.PercentOf(ffCount, |users|))
  }

  /** `new Set(names).size`: the sorted distinct names are as many as the
      different callers. */
  lemma DistinctCallers(callouts: seq<AdminCallouts.Row>)
    ensures |SortedDistinct(CallerNames(callouts))| == |set c | c in callouts :: c.user|
  {
    var distinct := SortedDistinct(CallerNames(callouts));
    StrictlySortedDistinct(distinct);
    SetOfDistinct(distinct);
    assert (set y | y in distinct) == (set c | c in callouts :: c.user);
  }

  /** The dashboard and the user panel report the same head counts. */
  lemma DashboardAgreesWithUserPanel(users: seq<AdminUsers.User>, callouts: seq<AdminCallouts.Row>,
                                     ff: seq<string>, weekStart: int, today: string)
    ensures var d := CalculateStatistics(users, callouts, ff, weekStart, today);
      var p := AdminUsers.CalculateStatistics(users, callouts, ff, weekStart, today);
      && d.adminCount == p.adminCount && d.raiderCount == p.raiderCount && d.ffCount == p.ffCount
      && d.thisWeekCallouts == p.thisWeekCallouts && d.todayCallouts == p.todayCallouts
      && d.ffPercentage == p.ffPercentage
  {
  }

  /** Many callouts by one person make one active user. */
  lemma OneCallerOneActiveUser(callouts: seq<AdminCallouts.Row>, users: seq<AdminUsers.User>, ff: seq<string>,
                               weekStart: int, today: string, name: string)
    requires |callouts| > 0 && forall c | c in callouts :: c.user == name
    ensures CalculateStatistics(users, callouts, ff, weekStart, today).activeUsers == 1
  {
    var distinct := SortedDistinct(CallerNames(callouts));
    assert callouts[0] in callouts;
    assert name in distinct;
    if |distinct| > 1 {
      assert distinct[0] in distinct && distinct[1] in distinct;
      assert distinct[0] == name == distinct[1];
      LexLessIrreflexive(name);
    }
  }

  // ---------------------------------------------------------------------------
  // Display helpers

  /** `formatUserDisplayName`: global name, else user name, else a fixed
      placeholder; never empty. */
  function FormatUserDisplayName(u: AdminUsers.User): (r: string)
    ensures r != ""
    ensures u.globalName != "" ==> r == u.globalName
    ensures u.globalName == "" && u.username != "" ==> r == u.username
  {
    if u.globalName != "" then u.globalName
    else if u.username != "" then u.username
    else "Unknown User"
  }

  /** `generateAvatarLetter`: the first character of the display name, upper-cased. */
  function GenerateAvatarLetter(u: AdminUsers.User): (r: string)
    ensures |r| == 1
    ensures r == ToUpper([FormatUserDisplayName(u)[0]])
  {
    ToUpper(FormatUserDisplayName(u)[..1])
  }

  /** The avatar letter of a user with a name is that name's initial, in
      either case of it. */
  lemma AvatarIsInitial(u: AdminUsers.User)
    ensures UpperChar(GenerateAvatarLetter(u)[0]) == UpperChar(FormatUserDisplayName(u)[0])
    ensures 'a' <= FormatUserDisplayName(u)[0] <= 'z' ==>
      GenerateAvatarLetter(u)[0] as int == FormatUserDisplayName(u)[0] as int - 32
  {
  }

  const ProtectedId := "232260865452146688"

  /** `isProtectedUser`: only the owner's account is protected. */
  function IsProtectedUser(userId: string): (r: bool)
    ensures r ==> userId == ProtectedId
    ensures userId == ProtectedId ==> r
  {
    userId == ProtectedId
  }

  /** The account the dashboard marks as protected is the one the server
      refuses to delete, whoever asks. */
  lemma ProtectedMatchesServer(db: Server.Db, caller: Option<Server.Caller>, userId: string)
    ensures IsProtectedUser(userId) <==> userId == Server.ProtectedId
    ensures IsProtectedUser(userId) ==> !Server.DeleteUser(db, caller, userId).response.Ok?
  {
  }

  /** `getRoleClass`: the CSS class of a role name; anything unknown is a raider. */
  function GetRoleClass(userRole: string): (r: string)
    ensures r == "role-admin" <==> userRole == "OFFICER"
    ensures r == "role-ff" <==> userRole == "F&F"
    ensures r == "role-raider" <==> userRole != "OFFICER" && userRole != "F&F"
  {
    if userRole == "OFFICER" then "role-admin"
    else if userRole == "F&F" then "role-ff"
    else "role-raider"
  }

  /** `getRoleDisplayText`: the label of a role name; anything unknown is a
      raider. The officer's crown is stored in the script as the four
      characters its UTF-8 bytes make when read as Windows-1252, and those
      are the characters shown. */
  function GetRoleDisplayText(userRole: string): (r: string)
    ensures r == "FRIENDS & FAMILY" <==> userRole == "F&F"
    ensures r == "RAIDER" <==> userRole != "OFFICER" && userRole != "F&F"
    ensures userRole == "OFFICER" ==> |r| > 8 && r[..8] == "OFFICER "
  {
    if userRole == "OFFICER" then "OFFICER ðŸ‘‘"
    else if userRole == "F&F" then "FRIENDS & FAMILY"
    else "RAIDER"
  }

  /** Class and label are total and consistent: every role the helpers can be
      given gets the class and label of its own role, and a string that names
      no role gets the raider's. */
  lemma RoleStylingIsTotal(u: AdminUsers.User, ff: seq<string>, other: string)
    requires other != "OFFICER" && other != "F&F"
    ensures var name := AdminUsers.RoleName(AdminUsers.GetUserRole(u, ff));
      (GetRoleClass(name) == "role-admin" <==> u.isAdmin)
      && (GetRoleDisplayText(name) == "RAIDER" <==> AdminUsers.GetUserRole(u, ff) == AdminUsers.Raider)
    ensures GetRoleClass(other) == GetRoleClass("RAIDER")
    ensures GetRoleDisplayText(other) == GetRoleDisplayText("RAIDER")
  {
  }
}

=== FILE: dates.dfy ===
/** Calendar dates as the system writes them, `YYYY-MM-DD` strings, together with
    the Gregorian arithmetic the calendar grid needs and the way the V8 engine
    parses a date-only string. The central fact: on well-formed strings the
    JavaScript `<` used throughout the system agrees with chronological order. */
module Dates {
  import opened Js

  /** A calendar date; `month` is 1-based here, as in the strings. */
  datatype Ymd = Ymd(year: int, month: int, day: int)

  /** The regular expression `^\d{4}-\d{2}-\d{2}$`. */
  predicate WellFormed(s: string) {
    && |s| == 10
    && s[4] == '-' && s[7] == '-'
    && (forall i | 0 <= i < 4 :: IsDigit(s[i]))
    && IsDigit(s[5]) && IsDigit(s[6]) && IsDigit(s[8]) && IsDigit(s[9])
  }

  predicate AllDigits(s: string) {
    forall i | 0 <= i < |s| :: IsDigit(s[i])
  }

  /** `parseInt(s.split('-')[0])` on a well-formed string. */
  function Year(s: string): nat
    requires WellFormed(s)
  {
    assert AllDigits(s[..4]);
    DigitsValue(s[..4])
  }

  function Month(s: string): nat
    requires WellFormed(s)
  {
    assert AllDigits(s[5..7]);
    DigitsValue(s[5..7])
  }

  function Day(s: string): nat
    requires WellFormed(s)
  {
    assert AllDigits(s[8..10]);
    DigitsValue(s[8..10])
  }

  function Parse(s: string): Ymd
    requires WellFormed(s)
  {
    Ymd(Year(s), Month(s), Day(s))
  }

  /** `parseInt(s.split('-')[0])` reads the year of a well-formed string. */
  lemma YearIsParseIntOfFirstField(s: string)
    requires WellFormed(s)
    ensures ParseIntString(Split(s, '-')[0]) == Some(Year(s))
  {
    var a := s[..4];
    assert '-' !in a;
    assert s == a + ['-'] + s[5..];
    SplitAtFirstSep(a, '-', s[5..]);
    var t := TrimStart(a);
    assert t == a;
    assert DigitRun(t) == 4;
    assert t[..4] == a;
    assert Split(s, '-')[0] == a;
    assert !(t[0] == '0' && (t[1] == 'x' || t[1] == 'X'));
  }

  /** Chronological (lexicographic on year, month, day) strict order. */
  predicate Before(a: Ymd, b: Ymd) {
    || a.year < b.year
    || (a.year == b.year && a.month < b.month)
    || (a.year == b.year && a.month == b.month && a.day < b.day)
  }

  /** Appending a digit orders numbers by their leading part first. */
  lemma DigitStep(x: int, y: int, da: int, db: int)
    requires 0 <= da < 10 && 0 <= db < 10
    ensures x * 10 + da < y * 10 + db <==> x < y || (x == y && da < db)
    ensures x * 10 + da == y * 10 + db <==> x == y && da == db
  {
  }

  /** On equal-length digit strings, string order is numeric order and string
      equality is numeric equality. */
  lemma {:induction false} DigitsOrder(a: string, b: string)
    requires AllDigits(a) && AllDigits(b) && |a| == |b|
    ensures LexLess(a, b) <==> DigitsValue(a) < DigitsValue(b)
    ensures a == b <==> DigitsValue(a) == DigitsValue(b)
  {
    if |a| == 0 {
    } else {
      var n := |a|;
      var a', b' := a[..n - 1], b[..n - 1];
      assert AllDigits(a') && AllDigits(b');
      DigitsOrder(a', b');
      assert a == a' + [a[n - 1]] && b == b' + [b[n - 1]];
      LexLessConcat(a', [a[n - 1]], b', [b[n - 1]]);
      LexLessSingle(a[n - 1], b[n - 1]);
      var x, y := DigitsValue(a'), DigitsValue(b');
      var da, db := DigitValue(a[n - 1]), DigitValue(b[n - 1]);
      assert DigitsValue(a) == x * 10 + da;
      assert DigitsValue(b) == y * 10 + db;
      DigitStep(x, y, da, db);
    }
  }

  /** One-character strings compare as their characters. */
  lemma LexLessSingle(x: char, y: char)
    ensures LexLess([x], [y]) <==> x < y
  {
    assert [x][1..] == [] && [y][1..] == [];
  }

  /** Single-character steps of the string order. */
  lemma LexLessSameChar(c: char, y: string, y': string)
    ensures LexLess([c] + y, [c] + y') <==> LexLess(y, y')
  {
    assert ([c] + y)[1..] == y && ([c] + y')[1..] == y';
  }

  /** On well-formed strings `<` compares the year field, then the month
      field, then the day field. */
  lemma LexLessFields(a: string, b: string)
    requires WellFormed(a) && WellFormed(b)
    ensures LexLess(a, b) <==>
      || LexLess(a[..4], b[..4])
      || (a[..4] == b[..4] && LexLess(a[5..7], b[5..7]))
      || (a[..4] == b[..4] && a[5..7] == b[5..7] && LexLess(a[8..10], b[8..10]))
  {
    var ra := [a[4]] + (a[5..7] + ([a[7]] + a[8..10]));
    var rb := [b[4]] + (b[5..7] + ([b[7]] + b[8..10]));
    assert a == a[..4] + ra;
    assert b == b[..4] + rb;
    LexLessConcat(a[..4], ra, b[..4], rb);
    LexLessSameChar('-', a[5..7] + ([a[7]] + a[8..10]), b[5..7] + ([b[7]] + b[8..10]));
    LexLessConcat(a[5..7], [a[7]] + a[8..10], b[5..7], [b[7]] + b[8..10]);
    LexLessSameChar('-', a[8..10], b[8..10]);
  }

  /** On well-formed date strings, `a < b` as JavaScript strings holds exactly
      when `a` is chronologically before `b`, and string equality is date equality. */
  lemma LexOrderIsChronological(a: string, b: string)
    requires WellFormed(a) && WellFormed(b)
    ensures LexLess(a, b) <==> Before(Parse(a), Parse(b))
    ensures a == b <==> Parse(a) == Parse(b)
  {
    assert AllDigits(a[..4]) && AllDigits(b[..4]);
    assert AllDigits(a[5..7]) && AllDigits(b[5..7]);
    assert AllDigits(a[8..10]) && AllDigits(b[8..10]);
    DigitsOrder(a[..4], b[..4]);
    DigitsOrder(a[5..7], b[5..7]);
    DigitsOrder(a[8..10], b[8..10]);
    LexLessFields(a, b);
    Fields(a);
    Fields(b);
  }

  /** `a >= b` on well-formed strings is "not chronologically before". */
  lemma NotLessIsNotBefore(a: string, b: string)
    requires WellFormed(a) && WellFormed(b)
    ensures !LexLess(a, b) <==> !Before(Parse(a), Parse(b))
  {
    LexOrderIsChronological(a, b);
  }

  // ---------------------------------------------------------------------------
  // Printing dates

  function Pow10(w: nat): nat {
    if w == 0 then 1 else 10 * Pow10(w - 1)
  }

  /** The last `w` decimal digits of `n`, zero-padded (`padStart(w, '0')`). */
  function Pad(n: nat, w: nat): (r: string)
    ensures |r| == w && AllDigits(r)
  {
    if w == 0 then "" else Pad(n / 10, w - 1) + [DigitChar(n % 10)]
  }

  lemma {:induction false} PadValue(n: nat, w: nat)
    requires n < Pow10(w)
    ensures DigitsValue(Pad(n, w)) == n
  {
    if w > 0 {
      var p := Pad(n, w);
      assert p[..w - 1] == Pad(n / 10, w - 1);
      assert n / 10 < Pow10(w - 1);
      PadValue(n / 10, w - 1);
    }
  }

  lemma {:induction false} PadDigits(s: string)
    requires AllDigits(s)
    ensures Pad(DigitsValue(s), |s|) == s
  {
    if |s| > 0 {
      var n := |s|;
      assert AllDigits(s[..n - 1]);
      var v := DigitsValue(s[..n - 1]);
      assert DigitsValue(s) == v * 10 + DigitValue(s[n - 1]);
      assert DigitsValue(s) / 10 == v && DigitsValue(s) % 10 == DigitValue(s[n - 1]);
      PadDigits(s[..n - 1]);
      assert s == s[..n - 1] + [s[n - 1]];
    }
  }

  /** `YYYY-MM-DD` for a date whose year has at most four digits. */
  function Format(d: Ymd): (r: string)
    requires 0 <= d.year <= 9999 && 0 <= d.month <= 99 && 0 <= d.day <= 99
    ensures WellFormed(r)
  {
    Pad(d.year, 4) + "-" + Pad(d.month, 2) + "-" + Pad(d.day, 2)
  }

  /** Printing then parsing gives the date back. */
  lemma ParseFormat(d: Ymd)
    requires 0 <= d.year <= 9999 && 0 <= d.month <= 99 && 0 <= d.day <= 99
    ensures Parse(Format(d)) == d
  {
    var s := Format(d);
    assert s[..4] == Pad(d.year, 4);
    assert s[5..7] == Pad(d.month, 2);
    assert s[8..10] == Pad(d.day, 2);
    PadValue(d.year, 4);
    PadValue(d.month, 2);
    PadValue(d.day, 2);
  }

  /** A field of digits is below the next power of ten and pads back to itself. */
  lemma FieldRoundTrip(f: string)
    requires AllDigits(f)
    ensures DigitsValue(f) < Pow10(|f|)
    ensures Pad(DigitsValue(f), |f|) == f
  {
    PadDigits(f);
    DigitsBound(f);
  }

  /** A well-formed string is its three fields joined by dashes. */
  lemma Fields(s: string)
    requires WellFormed(s)
    ensures s == s[..4] + "-" + s[5..7] + "-" + s[8..10]
  {
  }

  lemma PowersUsed()
    ensures Pow10(2) == 100 && Pow10(4) == 10000
  {
  }

  /** Parsing then printing gives the string back. */
  lemma FormatParse(s: string)
    requires WellFormed(s)
    ensures Year(s) <= 9999 && Month(s) <= 99 && Day(s) <= 99
    ensures Format(Parse(s)) == s
  {
    var ys, ms, ds := s[..4], s[5..7], s[8..10];
    assert AllDigits(ys) && AllDigits(ms) && AllDigits(ds);
    FieldRoundTrip(ys);
    FieldRoundTrip(ms);
    FieldRoundTrip(ds);
    PowersUsed();
    assert Pad(Year(s), 4) == ys && Pad(Month(s), 2) == ms && Pad(Day(s), 2) == ds;
    Fields(s);
  }

  lemma {:induction false} DigitsBound(s: string)
    requires AllDigits(s)
    ensures DigitsValue(s) < Pow10(|s|)
  {
    if |s| > 0 {
      assert AllDigits(s[..|s| - 1]);
      DigitsBound(s[..|s| - 1]);
    }
  }

  // ---------------------------------------------------------------------------
  // Gregorian calendar

  predicate IsLeap(y: int) {
    y % 4 == 0 && (y % 100 != 0 || y % 400 == 0)
  }

  /** Days in month `m` (1-based) of year `y`: `new Date(y, m, 0).getDate()`. */
  function DaysInMonth(y: int, m: int): (n: int)
    requires 1 <= m <= 12
    ensures 28 <= n <= 31
    ensures m == 2 ==> (n == 29 <==> IsLeap(y))
  {
    if m == 2 then (if IsLeap(y) then 29 else 28)
    else if m == 4 || m == 6 || m == 9 || m == 11 then 30
    else 31
  }

  /** A real calendar date. */
  predicate Valid(d: Ymd) {
    1 <= d.month <= 12 && 1 <= d.day <= DaysInMonth(d.year, d.month)
  }

  /** Zeller's year term: the year plus its leap days so far. */
  function YearTerm(y: int): int {
    y + y / 4 - y / 100 + y / 400
  }

  /** Zeller's month term for a month numbered 3 to 14. */
  function MonthTerm(mm: int): int {
    (13 * (mm + 1)) / 5
  }

  /** Zeller's sum for day `d` of month `m` of year `y`, before reduction mod 7
      (January and February count as months 13 and 14 of the previous year). */
  function ZellerSum(y: int, m: int, d: int): int
    requires 1 <= m <= 12
  {
    var mm := if m <= 2 then m + 12 else m;
    var yy := if m <= 2 then y - 1 else y;
    d + MonthTerm(mm) + YearTerm(yy)
  }

  /** Day of the week, 0 = Sunday .. 6 = Saturday, by Zeller's congruence on the
      proleptic Gregorian calendar (Zeller counts from Saturday). */
  function DayOfWeek(y: int, m: int, d: int): (w: int)
    requires 1 <= m <= 12
    ensures 0 <= w < 7
  {
    (ZellerSum(y, m, d) % 7 + 6) % 7
  }

  /** Moving Zeller's sum by `c` (less whole weeks) moves the weekday by `c`. */
  lemma WeekdayShift(x: int, c: int, k: int)
    ensures ((x % 7 + 6) % 7 + c) % 7 == ((x + c - 7 * k) % 7 + 6) % 7
  {
    var q := x / 7;
    assert x == 7 * q + x % 7;
    assert (x + c - 7 * k) % 7 == (x % 7 + c) % 7 by {
      assert x + c - 7 * k == 7 * (q - k) + (x % 7 + c);
    }
  }

  /** Later days of a month fall on correspondingly later weekdays. */
  lemma DayOfWeekShift(y: int, m: int, d: int)
    requires 1 <= m <= 12
    ensures DayOfWeek(y, m, d) == (DayOfWeek(y, m, 1) + d - 1) % 7
  {
    assert ZellerSum(y, m, d) == ZellerSum(y, m, 1) + (d - 1);
    WeekdayShift(ZellerSum(y, m, 1), d - 1, 0);
  }

  /** Stepping back one from a multiple of 4 lowers the quotient by one;
      from anything else it keeps it. The same holds for 100 and 400. */
  lemma PredQuotient4(y: int)
    ensures (y - 1) / 4 == if y % 4 == 0 then y / 4 - 1 else y / 4
  {
    assert y == 4 * (y / 4) + y % 4;
  }

  lemma PredQuotient100(y: int)
    ensures (y - 1) / 100 == if y % 100 == 0 then y / 100 - 1 else y / 100
  {
    assert y == 100 * (y / 100) + y % 100;
  }

  lemma PredQuotient400(y: int)
    ensures (y - 1) / 400 == if y % 400 == 0 then y / 400 - 1 else y / 400
  {
    assert y == 400 * (y / 400) + y % 400;
  }

  /** A multiple of 400 is a multiple of 100. */
  lemma CenturyOfQuadCentury(y: int)
    requires y % 400 == 0
    ensures y % 100 == 0
  {
    var k := y / 400;
    assert y == 100 * (4 * k);
  }

  /** A multiple of 100 is a multiple of 4. */
  lemma QuadOfCentury(y: int)
    requires y % 100 == 0
    ensures y % 4 == 0
  {
    var k := y / 100;
    assert y == 4 * (25 * k);
  }

  /** A multiple of 400 is a multiple of 100, and a multiple of 100 one of 4. */
  lemma CenturyDivisibility(y: int)
    ensures y % 400 == 0 ==> y % 100 == 0
    ensures y % 100 == 0 ==> y % 4 == 0
  {
    if y % 400 == 0 {
      CenturyOfQuadCentury(y);
    }
    if y % 100 == 0 {
      QuadOfCentury(y);
    }
  }

  /** The Zeller year term grows by one, plus one more when `y` is a leap year. */
  lemma YearTermStep(y: int)
    ensures YearTerm(y) - YearTerm(y - 1) == 1 + (if IsLeap(y) then 1 else 0)
  {
    PredQuotient4(y);
    PredQuotient100(y);
    PredQuotient400(y);
    var d4 := if y % 4 == 0 then 1 else 0;
    var d100 := if y % 100 == 0 then 1 else 0;
    var d400 := if y % 400 == 0 then 1 else 0;
    assert YearTerm(y) - YearTerm(y - 1) == 1 + d4 - d100 + d400;
    CenturyDivisibility(y);
  }

  /** Month `m` of year `y` is followed by the returned (year, month). */
  function NextMonth(y: int, m: int): (r: (int, int))
    requires 1 <= m <= 12
    ensures 1 <= r.1 <= 12
  {
    if m == 12 then (y + 1, 1) else (y, m + 1)
  }

  /** Month terms step by the month's length less four weeks from March to
      November. */
  lemma MidMonthTerms(y: int, m: int)
    requires 3 <= m <= 11
    ensures MonthTerm(m + 1) - MonthTerm(m) == DaysInMonth(y, m) - 28
  {
    if m == 3 || m == 5 || m == 7 || m == 8 || m == 10 {
      assert DaysInMonth(y, m) == 31;
    } else {
      assert DaysInMonth(y, m) == 30;
    }
  }

  /** Zeller's sum for the first of the next month, against this month's:
      the month's length later, less whole weeks. */
  lemma ZellerStep(y: int, m: int)
    requires 1 <= m <= 12
    ensures var n := NextMonth(y, m);
      ZellerSum(n.0, n.1, 1) == ZellerSum(y, m, 1) + DaysInMonth(y, m) - 7 * (if m == 2 then 8 else 4)
  {
    if m == 2 {
      YearTermStep(y);
      assert MonthTerm(3) - MonthTerm(14) == -29;
    } else if m == 1 {
      assert MonthTerm(14) - MonthTerm(13) == 3;
    } else if m == 12 {
      assert MonthTerm(13) - MonthTerm(12) == 3;
    } else {
      MidMonthTerms(y, m);
    }
  }

  /** The first day of the next month falls `DaysInMonth` weekdays after the
      first day of this one. */
  lemma {:induction false} FirstOfNextMonth(y: int, m: int)
    requires 1 <= m <= 12
    ensures var n := NextMonth(y, m);
      DayOfWeek(n.0, n.1, 1) == (DayOfWeek(y, m, 1) + DaysInMonth(y, m)) % 7
  {
    ZellerStep(y, m);
    WeekdayShift(ZellerSum(y, m, 1), DaysInMonth(y, m), if m == 2 then 8 else 4);
  }

  /** 1 January 1970 was a Thursday. */
  lemma EpochWasThursday()
    ensures DayOfWeek(1970, 1, 1) == 4
  {
  }

  // ---------------------------------------------------------------------------
  // V8's parse of a date-only string

  /** `new Date("YYYY-MM-DD")` is a valid date in V8 when the month is 1..12 and
      the day 1..31; a day past the end of its month carries into the next
      month (2019-02-31 is 2019-03-03). */
  function ParseIsoDate(s: string): (r: Option<Ymd>)
    ensures r.Some? <==> WellFormed(s) && 1 <= Month(s) <= 12 && 1 <= Day(s) <= 31
    ensures r.Some? ==> Valid(r.value) && 0 <= r.value.year <= 9999
    ensures r.Some? && Valid(Parse(s)) ==> r.value == Parse(s)
  {
    if !WellFormed(s) then None
    else
      var y, m, d := Year(s), Month(s), Day(s);
      FormatParse(s);
      if !(1 <= m <= 12 && 1 <= d <= 31) then None
      else if d <= DaysInMonth(y, m) then Some(Ymd(y, m, d))
      else Some(Ymd(y, m + 1, d - DaysInMonth(y, m)))
  }

  /** `toISOString().split('T')[0]` of a parsed date. */
  function IsoString(d: Ymd): (r: string)
    requires Valid(d) && 0 <= d.year <= 9999
    ensures WellFormed(r)
  {
    Format(d)
  }

  lemma PrintsOf2025()
    ensures Pad(2025, 4) == "2025" && Pad(2, 2) == "02" && Pad(3, 2) == "03" && Pad(30, 2) == "30"
  {
    assert Pad(2, 1) == "2" && Pad(20, 2) == "20" && Pad(202, 3) == "202";
  }

  /** The fields of `2025-02-30`, read without any calendar check. */
  lemma Feb30Fields()
    ensures WellFormed("2025-02-30") && Parse("2025-02-30") == Ymd(2025, 2, 30)
  {
    PrintsOf2025();
    assert Format(Ymd(2025, 2, 30)) == "2025-02-30";
    ParseFormat(Ymd(2025, 2, 30));
  }

  /** V8 reads 30 February 2025 as 2 March 2025. */
  lemma Feb30IsMarch2()
    ensures ParseIsoDate("2025-02-30") == Some(Ymd(2025, 3, 2))
    ensures IsoString(Ymd(2025, 3, 2)) == "2025-03-02"
  {
    Feb30Fields();
    assert !IsLeap(2025) && DaysInMonth(2025, 2) == 28;
    PrintsOf2025();
    assert Format(Ymd(2025, 3, 2)) == Pad(2025, 4) + "-" + Pad(3, 2) + "-" + Pad(2, 2);
  }

  /** A well-formed string naming a real date parses and prints back unchanged. */
  lemma RealDateRoundTrip(s: string)
    requires WellFormed(s) && Valid(Parse(s))
    ensures ParseIsoDate(s) == Some(Parse(s))
    ensures IsoString(ParseIsoDate(s).value) == s
  {
    FormatParse(s);
  }
}

=== FILE: interpreter.dfy ===
/** The deterministic part of the callout interpreter: everything that happens
    to a chat message before and after the language-model oracle answers. The
    oracle is a parameter (`OracleReply`), and so are the clock readings. */
module Interpreter {
  import opened Js
  import opened Dates

  datatype Status = Late | Out

  function StatusName(s: Status): string {
    match s
    case Late => "LATE"
    case Out => "OUT"
  }

  /** The status named by an already upper-cased string, if any. */
  function StatusOf(upper: string): (r: Option<Status>)
    ensures r.Some? ==> StatusName(r.value) == upper
    ensures r.None? ==> upper != "LATE" && upper != "OUT"
  {
    if upper == "LATE" then Some(Late)
    else if upper == "OUT" then Some(Out)
    else None
  }

  /** What `JSON.parse` made of the oracle's cleaned-up answer. JSON arrays and
      primitives other than `null` have no own fields, so they appear as an
      object with an empty field map; `null` makes the first field access throw. */
  datatype ParseOutcome = NotJson | JsonNull | JsonObject(fields: map<string, JValue>)

  /** The oracle's reply: no choices at all, a failure (network, a body that is
      not JSON, or a message content that is not a string), or a content string
      together with the parse of its cleaned form. */
  datatype OracleReply = NoChoices | Threw | Content(raw: string, parsed: ParseOutcome)

  /** The calendar year on the host's local clock and today's UTC date. */
  datatype Clock = Clock(localYear: int, utcToday: string)

  /** A validated callout; `delay` is `None` when the oracle gave no delay field. */
  datatype Draft = Draft(status: Status, date: string, reason: string, delay: Option<JValue>)

  datatype Interpretation = Failure(error: JValue) | Success(draft: Draft)

  const TooShort := "Message too short or invalid."
  const NoResponse := "No response from OpenAI."
  const MissingFields := "Missing required fields."
  const BadDateFormat := "Date format is invalid or missing."
  const BadStatus := "Status must be LATE or OUT."
  const Crashed := "AI callout parsing failed."

  function Unparsable(content: string): string {
    "Could not parse response: " + content
  }

  function PastYear(year: nat): string {
    "Date cannot be from past year (" + NatToString(year) + "). Please specify current year dates."
  }

  function PastDate(today: string): string {
    "Date cannot be in the past. Today is " + today + "."
  }

  /** The guard in front of the oracle call: a string of at least four characters. */
  predicate LongEnough(text: JValue) {
    text.JStr? && |text.s| >= 4
  }

  /** The oracle's reason, kept only when it is a non-empty string. */
  function NormalReason(fields: map<string, JValue>): (r: string)
    ensures Field(fields, "reason").JStr? ==> r == Field(fields, "reason").s
    ensures !Field(fields, "reason").JStr? ==> r == ""
  {
    var v := Field(fields, "reason");
    if !Truthy(v) || !v.JStr? then "" else v.s
  }

  /** The delay of a LATE callout is cleared when it is truthy but not a
      positive number; every other delay passes through. */
  function NormalDelay(status: Status, delay: Option<JValue>): (r: Option<JValue>)
    ensures status == Late && r.Some? && Truthy(r.value) ==> r.value.JNum? && r.value.n > 0
    ensures r != delay ==> status == Late && r == Some(JNull)
    ensures status == Late && delay.Some? && delay.value.JNum? && delay.value.n > 0 ==> r == delay
    ensures status == Out || delay.None? || !Truthy(delay.value) ==> r == delay
  {
    if status == Late && delay.Some? && Truthy(delay.value) then
      if !delay.value.JNum? || delay.value.n <= 0 then Some(JNull) else delay
    else delay
  }

  /** The oracle's delay, if the key is present at all. */
  function DelayField(fields: map<string, JValue>): Option<JValue> {
    if "delay" in fields then Some(fields["delay"]) else None
  }

  /** The checks on a parsed object, in the source's order. */
  function Validate(fields: map<string, JValue>, clock: Clock): (r: Interpretation)
    ensures r.Failure? ==> Truthy(r.error)
    ensures r.Success? ==>
      && WellFormed(r.draft.date)
      && Year(r.draft.date) >= clock.localYear
      && !LexLess(r.draft.date, clock.utcToday)
      && Field(fields, "date") == JStr(r.draft.date)
      && Field(fields, "status").JStr?
      && ToUpper(Field(fields, "status").s) == StatusName(r.draft.status)
      && r.draft.reason == NormalReason(fields)
      && r.draft.delay == NormalDelay(r.draft.status, DelayField(fields))
  {
    var err := Field(fields, "error");
    var status := Field(fields, "status");
    var date := Field(fields, "date");
    if Truthy(err) then Failure(err)
    else if !Truthy(status) || !Truthy(date) then Failure(JStr(MissingFields))
    // only strings have toUpperCase
    else if !status.JStr? then Failure(JStr(Crashed))
    // the regular expression tests the string the value coerces to
    else if !WellFormed(ToJsString(date)) then Failure(JStr(BadDateFormat))
    // only strings have split
    else if !date.JStr? then Failure(JStr(Crashed))
    else if Year(date.s) < clock.localYear then Failure(JStr(PastYear(Year(date.s))))
    else if LexLess(date.s, clock.utcToday) then Failure(JStr(PastDate(clock.utcToday)))
    else
      match StatusOf(ToUpper(status.s))
      case None => Failure(JStr(BadStatus))
      case Some(st) =>
        Success(Draft(st, date.s, NormalReason(fields), NormalDelay(st, DelayField(fields))))
  }

  /** The whole interpreter for one message. */
  function Interpret(text: JValue, reply: OracleReply, clock: Clock): (r: Interpretation)
    ensures !LongEnough(text) ==> r == Failure(JStr(TooShort))
    ensures r.Failure? ==> Truthy(r.error)
    ensures r.Success? ==> LongEnough(text) && reply.Content? && reply.parsed.JsonObject?
    ensures r.Success? ==> WellFormed(r.draft.date) && !LexLess(r.draft.date, clock.utcToday)
    ensures LongEnough(text) && reply.Content? && reply.parsed.JsonObject? ==>
      r == Validate(reply.parsed.fields, clock)
  {
    if !LongEnough(text) then Failure(JStr(TooShort))
    else
      match reply
      case NoChoices => Failure(JStr(NoResponse))
      case Threw => Failure(JStr(Crashed))
      case Content(raw, parsed) =>
        match parsed
        case NotJson => Failure(JStr(Unparsable(Trim(raw))))
        case JsonNull => Failure(JStr(Crashed))
        case JsonObject(fields) => Validate(fields, clock)
  }

  /** A message that fails the length guard never reaches the oracle: the
      reply makes no difference. */
  lemma ShortInputSkipsOracle(text: JValue, reply1: OracleReply, reply2: OracleReply, clock: Clock)
    requires !LongEnough(text)
    ensures Interpret(text, reply1, clock) == Interpret(text, reply2, clock)
  {
  }

  /** An oracle `error` field is passed on verbatim, whatever else the object holds. */
  lemma OracleErrorPropagates(text: JValue, raw: string, fields: map<string, JValue>, clock: Clock)
    requires LongEnough(text) && "error" in fields && Truthy(fields["error"])
    ensures Interpret(text, Content(raw, JsonObject(fields)), clock) == Failure(fields["error"])
  {
  }

  /** An object without a truthy status or date is refused as incomplete. */
  lemma MissingFieldsRefused(fields: map<string, JValue>, clock: Clock)
    requires !Truthy(Field(fields, "error"))
    requires !Truthy(Field(fields, "status")) || !Truthy(Field(fields, "date"))
    ensures Validate(fields, clock) == Failure(JStr("Missing required fields."))
  {
  }

  /** A string status with a date that does not read as `YYYY-MM-DD` is
      refused for its format before any date arithmetic. */
  lemma BadDateFormatRefused(fields: map<string, JValue>, clock: Clock)
    requires !Truthy(Field(fields, "error"))
    requires Field(fields, "status").JStr? && Field(fields, "status").s != ""
    requires Truthy(Field(fields, "date")) && !WellFormed(ToJsString(Field(fields, "date")))
    ensures Validate(fields, clock) == Failure(JStr("Date format is invalid or missing."))
  {
  }

  /** Content that is not JSON is quoted back, trimmed, in the error. */
  lemma UnparsableContentQuoted(text: JValue, raw: string, clock: Clock)
    requires LongEnough(text)
    ensures Interpret(text, Content(raw, NotJson), clock) == Failure(JStr(Unparsable(Trim(raw))))
  {
  }

  /** A reply without choices is reported as no response. */
  lemma NoChoicesReported(text: JValue, clock: Clock)
    requires LongEnough(text)
    ensures Interpret(text, NoChoices, clock) == Failure(JStr("No response from OpenAI."))
  {
  }

  /** A failed call and a `null` object both end in the catch-all error. */
  lemma CrashesReported(text: JValue, raw: string, clock: Clock)
    requires LongEnough(text)
    ensures Interpret(text, Threw, clock) == Failure(JStr("AI callout parsing failed."))
    ensures Interpret(text, Content(raw, JsonNull), clock) == Failure(JStr("AI callout parsing failed."))
  {
  }

  /** A year before the current one is rejected as such, whatever the month,
      the day, today's date or the status. */
  lemma PastYearFirst(fields: map<string, JValue>, clock: Clock)
    requires !Truthy(Field(fields, "error"))
    requires Field(fields, "status").JStr? && Field(fields, "status").s != ""
    requires Field(fields, "date").JStr? && WellFormed(Field(fields, "date").s)
    requires Year(Field(fields, "date").s) < clock.localYear
    ensures Validate(fields, clock) == Failure(JStr(PastYear(Year(Field(fields, "date").s))))
  {
  }

  /** A past date is reported even when the status is also wrong: the date
      checks come first. */
  lemma DateChecksPrecedeStatus(fields: map<string, JValue>, clock: Clock)
    requires !Truthy(Field(fields, "error"))
    requires Field(fields, "status").JStr? && Field(fields, "status").s != ""
    requires StatusOf(ToUpper(Field(fields, "status").s)).None?
    requires Field(fields, "date").JStr? && WellFormed(Field(fields, "date").s)
    requires Year(Field(fields, "date").s) >= clock.localYear
    requires LexLess(Field(fields, "date").s, clock.utcToday)
    ensures Validate(fields, clock) == Failure(JStr(PastDate(clock.utcToday)))
  {
  }

  /** Today's own date is accepted. */
  lemma TodayIsAccepted(fields: map<string, JValue>, clock: Clock)
    requires !Truthy(Field(fields, "error"))
    requires Field(fields, "status").JStr? && StatusOf(ToUpper(Field(fields, "status").s)).Some?
    requires Field(fields, "date") == JStr(clock.utcToday) && WellFormed(clock.utcToday)
    requires Year(clock.utcToday) >= clock.localYear
    ensures Validate(fields, clock).Success?
  {
    LexLessIrreflexive(clock.utcToday);
  }

  /** On well-formed dates the past-date check is the calendar comparison. */
  lemma PastDateIsChronological(fields: map<string, JValue>, clock: Clock)
    requires Validate(fields, clock).Success? && WellFormed(clock.utcToday)
    ensures !Before(Parse(Validate(fields, clock).draft.date), Parse(clock.utcToday))
  {
    LexOrderIsChronological(Validate(fields, clock).draft.date, clock.utcToday);
  }

  /** A status in any letter case is accepted, provided the date passes. */
  lemma StatusIsCaseInsensitive(fields: map<string, JValue>, clock: Clock, s: string, t: string)
    requires SameIgnoringCase(s, t) && "status" in fields && fields["status"] == JStr(s)
    requires Validate(fields, clock).Success?
    ensures Validate(fields[ "status" := JStr(t)], clock).Success?
    ensures Validate(fields[ "status" := JStr(t)], clock).draft.status == Validate(fields, clock).draft.status
  {
    UpperOfSameIgnoringCase(s, t);
  }
}

=== FILE: js.dfy ===
/** JavaScript value semantics the rest of the model relies on: JSON values and
    their truthiness, `String()` coercion, `trim`, ASCII case mapping, `split` and
    `join` on one character, the `<` order on strings, and decimal printing and
    `parseInt` for integers. */
module Js {

  datatype Option<+T> = None | Some(value: T)

  /** A JSON value as the code sees it after `JSON.parse` or in a request body.
      Objects and arrays are one case carrying their `String()` conversion,
      which is all the modelled code ever observes of them. */
  datatype JValue =
    | JNull
    | JBool(b: bool)
    | JNum(n: int)
    | JStr(s: string)
    | JCompound(coerced: string)

  /** JavaScript truthiness; `undefined` (an absent field) is handled by the callers. */
  predicate Truthy(v: JValue) {
    match v
    case JNull => false
    case JBool(b) => b
    case JNum(n) => n != 0
    case JStr(s) => s != ""
    case JCompound(_) => true
  }

  /** `obj.k` where only truthiness, coercion or type tests follow: an absent
      field reads as `null`, which behaves as `undefined` does for those. */
  function Field(m: map<string, JValue>, k: string): (r: JValue)
    ensures k !in m ==> r == JNull
    ensures k in m ==> r == m[k]
  {
    if k in m then m[k] else JNull
  }

  /** `v || null`. */
  function OrNull(v: JValue): (r: JValue)
    ensures Truthy(v) ==> r == v
    ensures !Truthy(v) ==> r == JNull
  {
    if Truthy(v) then v else JNull
  }

  /** `String(v)`. */
  function ToJsString(v: JValue): string {
    match v
    case JNull => "null"
    case JBool(b) => if b then "true" else "false"
    case JNum(n) => IntToString(n)
    case JStr(s) => s
    case JCompound(c) => c
  }

  // ---------------------------------------------------------------------------
  // Characters

  predicate IsDigit(c: char) { '0' <= c <= '9' }

  function DigitValue(c: char): nat
    requires IsDigit(c)
  {
    c as int - '0' as int
  }

  function DigitChar(k: nat): char
    requires k < 10
  {
    ('0' as int + k) as char
  }

  /** The characters `String.prototype.trim` removes: WhiteSpace and LineTerminator. */
  predicate IsJsSpace(c: char) {
    var k := c as int;
    (0x09 <= k <= 0x0D) || k == 0x20 || k == 0xA0 || k == 0x1680
    || (0x2000 <= k <= 0x200A) || k == 0x2028 || k == 0x2029 || k == 0x202F
    || k == 0x205F || k == 0x3000 || k == 0xFEFF
  }

  function UpperChar(c: char): char {
    if 'a' <= c <= 'z' then (c as int - 32) as char else c
  }

  function LowerChar(c: char): char {
    if 'A' <= c <= 'Z' then (c as int + 32) as char else c
  }

  /** `toUpperCase`, on ASCII letters. */
  function ToUpper(s: string): (r: string)
    ensures |r| == |s|
  {
    seq(|s|, i requires 0 <= i < |s| => UpperChar(s[i]))
  }

  /** `toLowerCase`, on ASCII letters. */
  function ToLower(s: string): (r: string)
    ensures |r| == |s|
  {
    seq(|s|, i requires 0 <= i < |s| => LowerChar(s[i]))
  }

  /** `a.toLowerCase() === b.toLowerCase()`. */
  predicate SameIgnoringCase(a: string, b: string) {
    ToLower(a) == ToLower(b)
  }

  /** Strings equal up to case have the same upper-case form. */
  lemma UpperOfSameIgnoringCase(a: string, b: string)
    requires SameIgnoringCase(a, b)
    ensures ToUpper(a) == ToUpper(b)
  {
    forall i | 0 <= i < |a|
      ensures UpperChar(a[i]) == UpperChar(b[i])
    {
      assert LowerChar(a[i]) == ToLower(a)[i] == ToLower(b)[i] == LowerChar(b[i]);
    }
  }

  // ---------------------------------------------------------------------------
  // trim

  function TrimStart(s: string): (r: string)
    ensures |r| <= |s| && r == s[|s| - |r|..]
    ensures |r| > 0 ==> !IsJsSpace(r[0])
    ensures forall i | 0 <= i < |s| - |r| :: IsJsSpace(s[i])
  {
    if |s| > 0 && IsJsSpace(s[0]) then TrimStart(s[1..]) else s
  }

  function TrimEnd(s: string): (r: string)
    ensures |r| <= |s| && r == s[..|r|]
    ensures |r| > 0 ==> !IsJsSpace(r[|r| - 1])
    ensures forall i | |r| <= i < |s| :: IsJsSpace(s[i])
  {
    if |s| > 0 && IsJsSpace(s[|s| - 1]) then TrimEnd(s[..|s| - 1]) else s
  }

  /** `String.prototype.trim`: the result is the input with its leading and trailing
      white space removed, and it neither starts nor ends with white space. */
  function Trim(s: string): (r: string)
    ensures |r| > 0 ==> !IsJsSpace(r[0]) && !IsJsSpace(r[|r| - 1])
    ensures exists k :: StripsTo(s, k, r)
  {
    var t := TrimStart(s);
    var r := TrimEnd(t);
    var k := |s| - |t|;
    assert StripsTo(s, k, r);
    r
  }

  /** `r` is `s` with `k` leading characters and some trailing characters
      removed, all of them white space. */
  predicate StripsTo(s: string, k: int, r: string) {
    && 0 <= k <= |s| - |r|
    && r == s[k..k + |r|]
    && (forall i | 0 <= i < k :: IsJsSpace(s[i]))
    && (forall i | k + |r| <= i < |s| :: IsJsSpace(s[i]))
  }

  /** Trimming is idempotent. */
  lemma TrimIdempotent(s: string)
    ensures Trim(Trim(s)) == Trim(s)
  {
    var r := Trim(s);
    if |r| > 0 {
      assert TrimStart(r) == r;
      assert TrimEnd(r) == r;
    }
  }

  // ---------------------------------------------------------------------------
  // split / join on one separator character

  /** `s.split(sep)` for a one-character separator. */
  function Split(s: string, sep: char): (parts: seq<string>)
    ensures |parts| >= 1
  {
    if |s| == 0 then [""]
    else
      var rest := Split(s[1..], sep);
      if s[0] == sep then [""] + rest
      else [[s[0]] + rest[0]] + rest[1..]
  }

  /** `parts.join(sep)`; the empty list joins to the empty string. */
  function Join(parts: seq<string>, sep: char): string {
    if |parts| == 0 then ""
    else if |parts| == 1 then parts[0]
    else parts[0] + [sep] + Join(parts[1..], sep)
  }

  /** Joining a piece in front of a non-empty list puts a separator after it. */
  lemma JoinCons(p: string, ps: seq<string>, sep: char)
    requires |ps| >= 1
    ensures Join([p] + ps, sep) == p + [sep] + Join(ps, sep)
  {
    assert ([p] + ps)[1..] == ps;
  }

  /** Growing the first piece by a character grows the joined string by it. */
  lemma JoinExtendsHead(c: char, parts: seq<string>, sep: char)
    requires |parts| >= 1
    ensures Join([[c] + parts[0]] + parts[1..], sep) == [c] + Join(parts, sep)
  {
    if |parts| > 1 {
      JoinCons([c] + parts[0], parts[1..], sep);
      assert parts == [parts[0]] + parts[1..];
      JoinCons(parts[0], parts[1..], sep);
      assert ([c] + parts[0]) + [sep] + Join(parts[1..], sep)
          == [c] + (parts[0] + [sep] + Join(parts[1..], sep));
    }
  }

  /** Joining the pieces of a split gives back the original string. */
  lemma {:induction false} JoinSplit(s: string, sep: char)
    ensures Join(Split(s, sep), sep) == s
  {
    if |s| > 0 {
      var rest := Split(s[1..], sep);
      JoinSplit(s[1..], sep);
      assert s == [s[0]] + s[1..];
      if s[0] == sep {
        JoinCons("", rest, sep);
      } else {
        JoinExtendsHead(s[0], rest, sep);
      }
    }
  }

  /** No piece of a split contains the separator. */
  lemma {:induction false} SplitPiecesHaveNoSep(s: string, sep: char)
    ensures forall i | 0 <= i < |Split(s, sep)| :: sep !in Split(s, sep)[i]
  {
    if |s| > 0 {
      SplitPiecesHaveNoSep(s[1..], sep);
    }
  }

  /** A string without the separator splits into itself. */
  lemma {:induction false} SplitNoSep(a: string, sep: char)
    requires sep !in a
    ensures Split(a, sep) == [a]
  {
    if |a| > 0 {
      SplitNoSep(a[1..], sep);
      assert [a[0]] + a[1..] == a;
    }
  }

  /** The first piece of a split ends at the first separator. */
  lemma {:induction false} SplitAtFirstSep(a: string, sep: char, b: string)
    requires sep !in a
    ensures Split(a + [sep] + b, sep) == [a] + Split(b, sep)
  {
    if |a| == 0 {
      assert a + [sep] + b == [sep] + b;
      assert ([sep] + b)[1..] == b;
    } else {
      var s := a + [sep] + b;
      assert s[0] == a[0];
      assert s[1..] == a[1..] + [sep] + b;
      SplitAtFirstSep(a[1..], sep, b);
      assert [a[0]] + a[1..] == a;
    }
  }

  // ---------------------------------------------------------------------------
  // Array.prototype.filter

  /** `s.filter(p)`: the elements satisfying `p`, in their original order. */
  function Filter<T>(s: seq<T>, p: T -> bool): (r: seq<T>)
    ensures |r| <= |s|
    ensures forall i | 0 <= i < |r| :: p(r[i]) && r[i] in s
    ensures forall x | x in s && p(x) :: x in r
  {
    if |s| == 0 then [] else (if p(s[0]) then [s[0]] else []) + Filter(s[1..], p)
  }

  /** A filter comes out empty exactly when no element passes. */
  lemma FilterEmpty<T>(s: seq<T>, p: T -> bool)
    ensures |Filter(s, p)| == 0 <==> forall x | x in s :: !p(x)
  {
    if |Filter(s, p)| > 0 {
      assert p(Filter(s, p)[0]) && Filter(s, p)[0] in s;
    }
  }

  /** Filtering a list with a given head decides the head, then filters the rest. */
  lemma FilterCons<T>(x: T, s: seq<T>, p: T -> bool)
    ensures Filter([x] + s, p) == (if p(x) then [x] else []) + Filter(s, p)
  {
    assert ([x] + s)[0] == x && ([x] + s)[1..] == s;
  }

  /** Filtering works piece by piece, which is what keeping the order means. */
  lemma {:induction false} FilterAppend<T>(a: seq<T>, b: seq<T>, p: T -> bool)
    ensures Filter(a + b, p) == Filter(a, p) + Filter(b, p)
  {
    if |a| == 0 {
      assert a + b == b;
    } else {
      var h := if p(a[0]) then [a[0]] else [];
      calc {
        Filter(a + b, p);
      == { assert a + b == [a[0]] + (a[1..] + b); }
        Filter([a[0]] + (a[1..] + b), p);
      == { FilterCons(a[0], a[1..] + b, p); }
        h + Filter(a[1..] + b, p);
      == { FilterAppend(a[1..], b, p); }
        h + (Filter(a[1..], p) + Filter(b, p));
      == { assert h + (Filter(a[1..], p) + Filter(b, p)) == (h + Filter(a[1..], p)) + Filter(b, p); }
        (h + Filter(a[1..], p)) + Filter(b, p);
      == { FilterCons(a[0], a[1..], p); assert a == [a[0]] + a[1..]; }
        Filter(a, p) + Filter(b, p);
      }
    }
  }

  /** The first element kept is the first element of `s` that satisfies `p`. */
  lemma {:induction false} FilterFirst<T>(s: seq<T>, p: T -> bool)
    requires |Filter(s, p)| > 0
    ensures exists i | 0 <= i < |s| :: s[i] == Filter(s, p)[0] && forall j | 0 <= j < i :: !p(s[j])
  {
    if !p(s[0]) {
      FilterFirst(s[1..], p);
      var i :| 0 <= i < |s[1..]| && s[1..][i] == Filter(s[1..], p)[0] && forall j | 0 <= j < i :: !p(s[1..][j]);
      assert s[i + 1] == Filter(s, p)[0];
      forall j | 0 <= j < i + 1
        ensures !p(s[j])
      {
        if j > 0 {
          assert s[j] == s[1..][j - 1];
        }
      }
    } else {
      assert s[0] == Filter(s, p)[0];
    }
  }

  /** Two filters with predicates that never hold together keep at most all
      the elements between them. */
  lemma {:induction false} FilterDisjoint<T>(s: seq<T>, p: T -> bool, q: T -> bool)
    requires forall x | x in s :: !(p(x) && q(x))
    ensures |Filter(s, p)| + |Filter(s, q)| <= |s|
  {
    if |s| > 0 {
      assert forall x | x in s[1..] :: x in s;
      FilterDisjoint(s[1..], p, q);
    }
  }

  /** A filter and its complement share out the elements exactly. */
  lemma {:induction false} FilterComplement<T>(s: seq<T>, p: T -> bool, q: T -> bool)
    requires forall x | x in s :: q(x) == !p(x)
    ensures |Filter(s, p)| + |Filter(s, q)| == |s|
  {
    if |s| > 0 {
      assert forall x | x in s[1..] :: x in s;
      FilterComplement(s[1..], p, q);
    }
  }

  /** `a` is `b` with some elements left out and the rest in their order. */
  predicate IsSublist<T(==)>(a: seq<T>, b: seq<T>)
    decreases |b|
  {
    if |a| == 0 then true
    else if |b| == 0 then false
    else if a[0] == b[0] then IsSublist(a[1..], b[1..])
    else IsSublist(a, b[1..])
  }

  /** Filters whose predicates agree on the elements give the same result. */
  lemma {:induction false} FilterSamePredicate<T>(s: seq<T>, p: T -> bool, q: T -> bool)
    requires forall x | x in s :: p(x) == q(x)
    ensures Filter(s, p) == Filter(s, q)
  {
    if |s| > 0 {
      assert forall x | x in s[1..] :: x in s;
      FilterSamePredicate(s[1..], p, q);
    }
  }

  /** A filter keeps the elements it keeps in their original order. */
  lemma {:induction false} FilterIsSublist<T>(s: seq<T>, p: T -> bool)
    ensures IsSublist(Filter(s, p), s)
  {
    if |s| > 0 {
      FilterIsSublist(s[1..], p);
      var r := Filter(s, p);
      if !p(s[0]) {
        assert r == Filter(s[1..], p);
        if |r| > 0 {
          assert p(r[0]);
          assert r[0] != s[0];
        }
      } else {
        assert r == [s[0]] + Filter(s[1..], p);
        assert r[1..] == Filter(s[1..], p);
      }
    }
  }

  /** A filter every element passes changes nothing. */
  lemma {:induction false} FilterKeepsAll<T>(s: seq<T>, p: T -> bool)
    requires forall x | x in s :: p(x)
    ensures Filter(s, p) == s
  {
    if |s| > 0 {
      assert forall x | x in s[1..] :: x in s;
      FilterKeepsAll(s[1..], p);
      assert s == [s[0]] + s[1..];
    }
  }

  // ---------------------------------------------------------------------------
  // Array.prototype.map

  /** `s.map(f)`: `f` of each element, in order. */
  function MapSeq<T, U>(s: seq<T>, f: T -> U): (r: seq<U>)
    ensures |r| == |s|
    ensures forall i | 0 <= i < |s| :: r[i] == f(s[i])
  {
    seq(|s|, i requires 0 <= i < |s| => f(s[i]))
  }

  /** A value is in the mapped list exactly when some element maps to it. */
  lemma MapMembers<T, U>(s: seq<T>, f: T -> U)
    ensures forall y :: y in MapSeq(s, f) <==> exists x | x in s :: f(x) == y
  {
    var r := MapSeq(s, f);
    forall y ensures y in r <==> exists x | x in s :: f(x) == y {
      if exists x | x in s :: f(x) == y {
        var x :| x in s && f(x) == y;
        var i :| 0 <= i < |s| && s[i] == x;
        assert r[i] == y;
      }
    }
  }

  /** Mapping works piece by piece. */
  lemma MapAppend<T, U>(a: seq<T>, b: seq<T>, f: T -> U)
    ensures MapSeq(a + b, f) == MapSeq(a, f) + MapSeq(b, f)
  {
    var l := MapSeq(a + b, f);
    var r := MapSeq(a, f) + MapSeq(b, f);
    forall i | 0 <= i < |l| ensures l[i] == r[i] {
      if i < |a| {
        assert (a + b)[i] == a[i];
      } else {
        assert (a + b)[i] == b[i - |a|];
      }
    }
  }

  /** Mapping after a filter reaches exactly the images of the kept elements. */
  lemma MapFilterMembers<T, U>(s: seq<T>, p: T -> bool, f: T -> U)
    ensures forall y :: y in MapSeq(Filter(s, p), f) <==> exists x | x in s :: p(x) && f(x) == y
  {
    var kept := Filter(s, p);
    MapMembers(kept, f);
    forall y ensures y in MapSeq(kept, f) <==> exists x | x in s :: p(x) && f(x) == y {
      if y in MapSeq(kept, f) {
        var x :| x in kept && f(x) == y;
        var i :| 0 <= i < |kept| && kept[i] == x;
        assert p(x) && x in s;
      }
    }
  }

  // ---------------------------------------------------------------------------
  // The `<` order of JavaScript strings (lexicographic by character)

  predicate LexLess(a: string, b: string) {
    if |a| == 0 then |b| > 0
    else if |b| == 0 then false
    else if a[0] < b[0] then true
    else if a[0] > b[0] then false
    else LexLess(a[1..], b[1..])
  }

  /** `a <= b` on strings. */
  predicate LexLeq(a: string, b: string) {
    LexLess(a, b) || a == b
  }

  lemma {:induction false} LexLessIrreflexive(a: string)
    ensures !LexLess(a, a)
  {
    if |a| > 0 {
      LexLessIrreflexive(a[1..]);
    }
  }

  lemma {:induction false} LexLessTransitive(a: string, b: string, c: string)
    requires LexLess(a, b) && LexLess(b, c)
    ensures LexLess(a, c)
  {
    if |a| > 0 && |b| > 0 && |c| > 0 && a[0] == b[0] && b[0] == c[0] {
      LexLessTransitive(a[1..], b[1..], c[1..]);
    }
  }

  /** Any two strings are ordered one way or the other, or are equal. */
  lemma {:induction false} LexLessTotal(a: string, b: string)
    ensures LexLess(a, b) || a == b || LexLess(b, a)
  {
    if |a| > 0 && |b| > 0 && a[0] == b[0] {
      LexLessTotal(a[1..], b[1..]);
      if a[1..] == b[1..] {
        assert a == [a[0]] + a[1..] && b == [b[0]] + b[1..];
      }
    }
  }

  lemma LexLessAsymmetric(a: string, b: string)
    requires LexLess(a, b)
    ensures !LexLess(b, a)
  {
    if LexLess(b, a) {
      LexLessTransitive(a, b, a);
      LexLessIrreflexive(a);
    }
  }

  /** Comparing two strings whose first parts have the same length compares the
      first parts, and on a tie the rest. */
  lemma {:induction false} LexLessConcat(x: string, y: string, x': string, y': string)
    requires |x| == |x'|
    ensures LexLess(x + y, x' + y') <==> LexLess(x, x') || (x == x' && LexLess(y, y'))
  {
    if |x| == 0 {
      assert x + y == y && x' + y' == y';
    } else {
      assert (x + y)[0] == x[0] && (x' + y')[0] == x'[0];
      assert (x + y)[1..] == x[1..] + y && (x' + y')[1..] == x'[1..] + y';
      LexLessConcat(x[1..], y, x'[1..], y');
      if x[0] == x'[0] && x[1..] == x'[1..] {
        assert x == [x[0]] + x[1..] && x' == [x'[0]] + x'[1..];
      }
      if x == x' {
        assert x[1..] == x'[1..];
      }
    }
  }

  // ---------------------------------------------------------------------------
  // Array.prototype.sort with a comparator

  /** A comparator `sort` can rely on: any two elements are ordered one way or
      the other, and "may come first" is transitive. */
  ghost predicate ConsistentOrder<T(!new)>(cmp: (T, T) -> int) {
    && (forall a: T, b: T :: cmp(a, b) <= 0 || cmp(b, a) <= 0)
    && (forall a: T, b: T, c: T | cmp(a, b) <= 0 && cmp(b, c) <= 0 :: cmp(a, c) <= 0)
  }

  predicate SortedBy<T>(s: seq<T>, cmp: (T, T) -> int) {
    forall i, j | 0 <= i < j < |s| :: cmp(s[i], s[j]) <= 0
  }

  /** `x` placed before the first element it may precede; elements that tie
      with `x` stay after it, as a stable sort keeps them. */
  function InsertBy<T(!new)>(x: T, s: seq<T>, cmp: (T, T) -> int): (r: seq<T>)
    requires ConsistentOrder(cmp) && SortedBy(s, cmp)
    ensures SortedBy(r, cmp)
    ensures multiset(r) == multiset(s) + multiset{x}
  {
    if |s| == 0 then [x]
    else if cmp(x, s[0]) <= 0 then
      BelowHead(x, s, cmp);
      [x] + s
    else
      var t := InsertBy(x, s[1..], cmp);
      AboveInserted(x, s, t, cmp);
      [s[0]] + t
  }

  lemma BelowHead<T(!new)>(x: T, s: seq<T>, cmp: (T, T) -> int)
    requires ConsistentOrder(cmp) && SortedBy(s, cmp) && |s| > 0 && cmp(x, s[0]) <= 0
    ensures SortedBy([x] + s, cmp)
  {
    forall j | 0 < j < |s| ensures cmp(x, s[j]) <= 0 {
      assert cmp(s[0], s[j]) <= 0;
    }
    assert forall j | 0 <= j < |s| :: cmp(x, s[j]) <= 0;
  }

  /** A sorted list stays sorted under a head that may precede all of it. */
  lemma SortedCons<T>(h: T, t: seq<T>, cmp: (T, T) -> int)
    requires SortedBy(t, cmp) && forall j | 0 <= j < |t| :: cmp(h, t[j]) <= 0
    ensures SortedBy([h] + t, cmp)
  {
    forall i, j | 0 <= i < j < |[h] + t| ensures cmp(([h] + t)[i], ([h] + t)[j]) <= 0 {
      assert ([h] + t)[j] == t[j - 1];
      if i > 0 {
        assert ([h] + t)[i] == t[i - 1];
      }
    }
  }

  /** The head of a sorted list may precede everything the rest of it and a
      larger `x` are rearranged into. */
  lemma HeadPrecedesInsert<T(!new)>(x: T, s: seq<T>, t: seq<T>, cmp: (T, T) -> int)
    requires ConsistentOrder(cmp) && SortedBy(s, cmp) && |s| > 0 && cmp(x, s[0]) > 0
    requires multiset(t) == multiset(s[1..]) + multiset{x}
    ensures forall j | 0 <= j < |t| :: cmp(s[0], t[j]) <= 0
  {
    forall j | 0 <= j < |t| ensures cmp(s[0], t[j]) <= 0 {
      var y := t[j];
      assert y in multiset(t);
      if y != x {
        assert y in multiset(s[1..]);
        var k :| 0 <= k < |s[1..]| && s[1..][k] == y;
        assert s[k + 1] == y;
      }
    }
  }

  lemma AboveInserted<T(!new)>(x: T, s: seq<T>, t: seq<T>, cmp: (T, T) -> int)
    requires ConsistentOrder(cmp) && SortedBy(s, cmp) && |s| > 0 && cmp(x, s[0]) > 0
    requires SortedBy(t, cmp) && multiset(t) == multiset(s[1..]) + multiset{x}
    ensures SortedBy([s[0]] + t, cmp)
    ensures multiset([s[0]] + t) == multiset(s) + multiset{x}
  {
    HeadPrecedesInsert(x, s, t, cmp);
    SortedCons(s[0], t, cmp);
    assert s == [s[0]] + s[1..];
  }

  /** `s.sort(cmp)`: the same elements, in the comparator's order. */
  function SortBy<T(!new)>(s: seq<T>, cmp: (T, T) -> int): (r: seq<T>)
    requires ConsistentOrder(cmp)
    ensures SortedBy(r, cmp)
    ensures multiset(r) == multiset(s)
  {
    if |s| == 0 then []
    else
      assert s == [s[0]] + s[1..];
      InsertBy(s[0], SortBy(s[1..], cmp), cmp)
  }

  // ---------------------------------------------------------------------------
  // `[...new Set(xs)].sort()` on strings

  predicate StrictlySorted(s: seq<string>) {
    forall i, j | 0 <= i < j < |s| :: LexLess(s[i], s[j])
  }

  /** `x` added to a strictly sorted list of distinct strings, in its place. */
  function InsertUnique(x: string, s: seq<string>): (r: seq<string>)
    requires StrictlySorted(s)
    ensures StrictlySorted(r)
    ensures forall y :: y in r <==> y == x || y in s
  {
    if |s| == 0 then [x]
    else if x == s[0] then s
    else if LexLess(x, s[0]) then
      BelowHeadBelowAll(x, s);
      [x] + s
    else
      LexLessTotal(x, s[0]);
      var t := InsertUnique(x, s[1..]);
      assert forall y | y in t :: LexLess(s[0], y) by {
        forall y | y in t ensures LexLess(s[0], y) {
          if y != x {
            var j :| 1 <= j < |s| && s[j] == y;
          }
        }
      }
      [s[0]] + t
  }

  lemma BelowHeadBelowAll(x: string, s: seq<string>)
    requires StrictlySorted(s) && |s| > 0 && LexLess(x, s[0])
    ensures StrictlySorted([x] + s)
  {
    forall j | 0 < j < |s| ensures LexLess(x, s[j]) {
      LexLessTransitive(x, s[0], s[j]);
    }
  }

  /** The distinct strings of `xs` in ascending order: the set `new Set(xs)`
      spread into an array and sorted with the default comparison. */
  function SortedDistinct(xs: seq<string>): (r: seq<string>)
    ensures StrictlySorted(r)
    ensures forall y :: y in r <==> y in xs
    ensures |r| <= |xs|
  {
    if |xs| == 0 then [] else
      var t := SortedDistinct(xs[1..]);
      DistinctBound(xs[0], t);
      InsertUnique(xs[0], t)
  }

  lemma DistinctBound(x: string, t: seq<string>)
    requires StrictlySorted(t)
    ensures |InsertUnique(x, t)| <= |t| + 1
  {
    StrictlySortedDistinct(InsertUnique(x, t));
    StrictlySortedDistinct(t);
    assert (set y | y in InsertUnique(x, t)) == (set y | y in t) + {x};
    SetOfDistinct(InsertUnique(x, t));
    SetOfDistinct(t);
  }

  /** No string occurs twice in a strictly sorted list. */
  lemma StrictlySortedDistinct(s: seq<string>)
    requires StrictlySorted(s)
    ensures forall i, j | 0 <= i < j < |s| :: s[i] != s[j]
  {
    forall i, j | 0 <= i < j < |s| ensures s[i] != s[j] {
      if s[i] == s[j] {
        LexLessIrreflexive(s[i]);
      }
    }
  }

  lemma {:induction false} SetOfDistinct(s: seq<string>)
    requires forall i, j | 0 <= i < j < |s| :: s[i] != s[j]
    ensures |set y | y in s| == |s|
  {
    if |s| > 0 {
      SetOfDistinct(s[1..]);
      assert (set y | y in s) == (set y | y in s[1..]) + {s[0]};
      assert s[0] !in s[1..];
    }
  }

  /** Two strictly sorted lists with the same elements are the same list, so
      `SortedDistinct` is the only possible result of deduplicating and
      sorting, whatever order the deduplication kept. */
  lemma {:induction false} StrictlySortedUnique(a: seq<string>, b: seq<string>)
    requires StrictlySorted(a) && StrictlySorted(b)
    requires forall y :: y in a <==> y in b
    ensures a == b
    decreases |a|
  {
    if |a| > 0 { assert a[0] in a; }
    if |b| > 0 { assert b[0] in b; }
    if |a| > 0 && |b| > 0 {
      if a[0] != b[0] {
        var k :| 0 <= k < |b| && b[k] == a[0];
        var m :| 0 <= m < |a| && a[m] == b[0];
        LexLessAsymmetric(a[0], b[0]);
        assert false;
      }
      forall y ensures y in a[1..] <==> y in b[1..] {
        if y in a[1..] {
          var i :| 1 <= i < |a| && a[i] == y;
          assert y in a;
          if y == a[0] { LexLessIrreflexive(y); }
        }
        if y in b[1..] {
          var i :| 1 <= i < |b| && b[i] == y;
          assert y in b;
          if y == b[0] { LexLessIrreflexive(y); }
        }
      }
      StrictlySortedUnique(a[1..], b[1..]);
      assert a == [a[0]] + a[1..] && b == [b[0]] + b[1..];
    }
  }

  // ---------------------------------------------------------------------------
  // Decimal printing and parseInt

  /** Decimal digits of a natural number, most significant first, no leading zeros. */
  function NatToString(n: nat): (r: string)
    ensures |r| >= 1
    ensures forall i | 0 <= i < |r| :: IsDigit(r[i])
  {
    if n < 10 then [DigitChar(n)] else NatToString(n / 10) + [DigitChar(n % 10)]
  }

  /** `String(n)` for an integer. */
  function IntToString(n: int): (r: string)
    ensures |r| >= 1
  {
    if n < 0 then "-" + NatToString(-n) else NatToString(n)
  }

  /** Value of a run of decimal digits. */
  function DigitsValue(s: string): nat
    requires forall i | 0 <= i < |s| :: IsDigit(s[i])
  {
    if |s| == 0 then 0 else DigitsValue(s[..|s| - 1]) * 10 + DigitValue(s[|s| - 1])
  }

  /** Reading back a printed natural number gives the number. */
  lemma {:induction false} NatToStringValue(n: nat)
    ensures DigitsValue(NatToString(n)) == n
  {
    if n >= 10 {
      var s := NatToString(n);
      NatToStringValue(n / 10);
      assert s[..|s| - 1] == NatToString(n / 10);
    }
  }

  /** Length of the longest prefix of `s` made of decimal digits. */
  function DigitRun(s: string): (k: nat)
    ensures k <= |s|
    ensures forall i | 0 <= i < k :: IsDigit(s[i])
    ensures k < |s| ==> !IsDigit(s[k])
  {
    if |s| > 0 && IsDigit(s[0]) then 1 + DigitRun(s[1..]) else 0
  }

  predicate IsHexDigit(c: char) {
    IsDigit(c) || ('a' <= c <= 'f') || ('A' <= c <= 'F')
  }

  function HexValue(c: char): nat
    requires IsHexDigit(c)
  {
    if IsDigit(c) then DigitValue(c)
    else if 'a' <= c <= 'f' then c as int - 'a' as int + 10
    else c as int - 'A' as int + 10
  }

  function HexRun(s: string): (k: nat)
    ensures k <= |s|
    ensures forall i | 0 <= i < k :: IsHexDigit(s[i])
  {
    if |s| > 0 && IsHexDigit(s[0]) then 1 + HexRun(s[1..]) else 0
  }

  function HexDigitsValue(s: string): nat
    requires forall i | 0 <= i < |s| :: IsHexDigit(s[i])
  {
    if |s| == 0 then 0 else HexDigitsValue(s[..|s| - 1]) * 16 + HexValue(s[|s| - 1])
  }

  predicate HexPrefix(u: string) {
    |u| >= 2 && u[0] == '0' && (u[1] == 'x' || u[1] == 'X')
  }

  /** The unsigned part of `parseInt`: a hexadecimal run after `0x`/`0X`,
      otherwise the longest run of decimal digits; no digit at all is None. */
  function Magnitude(u: string): (r: Option<nat>)
    ensures |u| > 0 && IsDigit(u[0]) && !HexPrefix(u) ==> r == Some(DigitsValue(u[..DigitRun(u)]))
    ensures |u| == 0 || !IsDigit(u[0]) ==> r == None
  {
    if HexPrefix(u) then
      var h := HexRun(u[2..]);
      if h == 0 then None else Some(HexDigitsValue(u[2..][..h]))
    else
      var k := DigitRun(u);
      if k == 0 then None else Some(DigitsValue(u[..k]))
  }

  /** `parseInt(s)` with no radix: leading white space, an optional sign, then a
      `0x`/`0X` prefix selects hexadecimal; the longest run of digits is read and
      anything after it ignored; no digit at all gives NaN (None). */
  function ParseIntString(s: string): (r: Option<int>)
    ensures var t := TrimStart(s);
      (|t| > 0 && IsDigit(t[0]) && !(|t| >= 2 && t[0] == '0' && (t[1] == 'x' || t[1] == 'X')))
      ==> r == Some(DigitsValue(t[..DigitRun(t)]))
    ensures var t := TrimStart(s);
      (|t| == 0 || (!IsDigit(t[0]) && t[0] != '+' && t[0] != '-')) ==> r == None
  {
    var t := TrimStart(s);
    var signed := |t| > 0 && (t[0] == '-' || t[0] == '+');
    var negative := |t| > 0 && t[0] == '-';
    var m := Magnitude(if signed then t[1..] else t);
    if m.None? then None
    else if negative then Some(-(m.value as int))
    else Some(m.value as int)
  }

  /** `parseInt(v)`: numbers are already integral here; other values are
      converted with `String()` first. */
  function ParseInt(v: JValue): (r: Option<int>)
    ensures v.JNum? ==> r == Some(v.n)
    ensures v.JStr? ==> r == ParseIntString(v.s)
  {
    match v
    case JNum(n) => Some(n)
    case _ => ParseIntString(ToJsString(v))
  }
}

=== FILE: ledger.dfy ===
/** The chat bot's confirmation ledger: interpreted callouts wait in a map
    keyed by confirmation id until their author confirms, cancels or lets them
    expire. Each handler is one atomic step from a ledger and an event to a new
    ledger and the replies it sends. Clocks, the oracle and the result of the
    save request are carried by the events. */
module Ledger {
  import opened Js
  import opened Dates
  import opened Interpreter

  /** Ten minutes in milliseconds: the lifetime of a pending confirmation. */
  const Ttl := 600000

  datatype Author = Author(id: string, username: string, isBot: bool)

  /** One pending confirmation. */
  datatype Pending = Pending(userId: string, username: string, draft: Draft, timestamp: int)

  type Ledger = map<string, Pending>

  /** What the save request to the callout endpoint came back with. */
  datatype SaveOutcome = Accepted | Rejected(body: string) | Unreachable

  /** The JSON body the bot posts to the callout endpoint. */
  datatype Payload = Payload(user: string, status: string, date: string, reason: string, delay: JValue)

  /** The text of a confirmation prompt, less the locale-formatted date: the
      reason is shown only when it is not blank, the delay only for a LATE
      callout with a truthy delay. */
  datatype Summary = Summary(status: string, date: string, reason: Option<string>, delay: Option<JValue>)

  datatype Output =
    | ParseFailedReply(error: string)
    | Prompt(id: string, summary: Summary, buttons: seq<string>)
    | ExpiredReply
    | NotYourCalloutReply
    | SaveRequest(payload: Payload)
    | SavedReply(draft: Draft)
    | SaveFailedReply(error: string)
    | CancelledReply
    | EditHelpReply
    | ExpiryNotice(id: string)

  datatype Event =
    | MessageCreated(author: Author, isDirect: bool, content: string, now: nat, reply: OracleReply, clock: Clock)
    | ButtonPressed(customId: string, actorId: string, save: SaveOutcome)
    | OtherInteraction
    | TimerFired(id: string)
    | Sweep(now: nat)

  datatype StepResult = StepResult(ledger: Ledger, outputs: seq<Output>)

  // ---------------------------------------------------------------------------
  // Ids

  /** `${author.id}_${Date.now()}`. */
  function ConfirmationId(authorId: string, now: nat): string {
    authorId + "_" + NatToString(now)
  }

  /** A button's custom id, `<action>_callout_<confirmation id>`. */
  function CustomId(action: string, id: string): string {
    action + "_callout_" + id
  }

  /** The action is the text before the first `_`, the confirmation id is
      everything after the second piece, rejoined with `_`. */
  function ParseCustomId(customId: string): (r: (string, string))
    ensures '_' !in r.0
  {
    var parts := Split(customId, '_');
    SplitPiecesHaveNoSep(customId, '_');
    (parts[0], Join(if |parts| >= 2 then parts[2..] else [], '_'))
  }

  /** A custom id splits into the action, `callout`, and the pieces of the
      confirmation id. */
  lemma SplitCustomId(action: string, id: string)
    requires '_' !in action
    ensures Split(CustomId(action, id), '_') == [action] + (["callout"] + Split(id, '_'))
  {
    var tail := "callout_" + id;
    assert CustomId(action, id) == action + ['_'] + tail;
    SplitAtFirstSep(action, '_', tail);
    SplitCalloutTail(id);
  }

  /** The part after the action splits into `callout` and the pieces of the id. */
  lemma SplitCalloutTail(id: string)
    ensures Split("callout_" + id, '_') == ["callout"] + Split(id, '_')
  {
    assert "callout_" + id == "callout" + ['_'] + id;
    assert '_' !in "callout";
    SplitAtFirstSep("callout", '_', id);
  }

  /** A custom id the bot built parses back into its action and confirmation
      id, even when the confirmation id itself contains `_`. */
  lemma CustomIdRoundTrip(action: string, id: string)
    requires '_' !in action
    ensures ParseCustomId(CustomId(action, id)) == (action, id)
  {
    SplitCustomId(action, id);
    var parts := Split(CustomId(action, id), '_');
    assert parts[2..] == Split(id, '_');
    JoinSplit(id, '_');
  }

  /** Two confirmations of one author made at different times have different ids. */
  lemma ConfirmationIdsDistinct(authorId: string, t1: nat, t2: nat)
    requires t1 != t2
    ensures ConfirmationId(authorId, t1) != ConfirmationId(authorId, t2)
  {
    if ConfirmationId(authorId, t1) == ConfirmationId(authorId, t2) {
      var k := |authorId| + 1;
      assert ConfirmationId(authorId, t1)[k..] == NatToString(t1);
      assert ConfirmationId(authorId, t2)[k..] == NatToString(t2);
      NatToStringValue(t1);
      NatToStringValue(t2);
    }
  }

  // ---------------------------------------------------------------------------
  // Messages

  /** The confirmation prompt for a draft. */
  function Summarize(d: Draft): (r: Summary)
    ensures r.reason.Some? <==> Trim(d.reason) != ""
    ensures r.reason.Some? ==> r.reason.value == d.reason
    ensures r.delay.Some? <==> d.status == Late && d.delay.Some? && Truthy(d.delay.value)
  {
    Summary(
      StatusName(d.status), d.date,
      if d.reason != "" && Trim(d.reason) != "" then Some(d.reason) else None,
      if d.status == Late && d.delay.Some? && Truthy(d.delay.value) then d.delay else None)
  }

  /** The three buttons of a prompt, in the order they are laid out. */
  function Buttons(id: string): (r: seq<string>)
    ensures |r| == 3
    ensures ParseCustomId(r[0]) == ("confirm", id)
    ensures ParseCustomId(r[1]) == ("edit", id)
    ensures ParseCustomId(r[2]) == ("cancel", id)
    ensures forall b | b in r :: ParseCustomId(b).1 == id
  {
    CustomIdRoundTrip("confirm", id);
    CustomIdRoundTrip("edit", id);
    CustomIdRoundTrip("cancel", id);
    var r := [CustomId("confirm", id), CustomId("edit", id), CustomId("cancel", id)];
    assert forall b | b in r :: b == r[0] || b == r[1] || b == r[2];
    r
  }

  /** The body the confirm handler posts for a pending callout: the
      requester's username, the draft's status name, date and reason, and its
      delay when that is truthy, null otherwise. */
  function MakePayload(p: Pending): (r: Payload)
    ensures r.user == p.username && r.date == p.draft.date
    ensures r.status == StatusName(p.draft.status) && r.reason == p.draft.reason
    ensures Truthy(r.delay) <==> p.draft.delay.Some? && Truthy(p.draft.delay.value)
    ensures Truthy(r.delay) ==> r.delay == p.draft.delay.value
    ensures !Truthy(r.delay) ==> r.delay == JNull
  {
    var delay := if p.draft.delay.Some? then p.draft.delay.value else JNull;
    Payload(p.username, StatusName(p.draft.status), p.draft.date, p.draft.reason, OrNull(delay))
  }

  /** The outcome of the save request, as the confirm handler sees it. */
  function SaveError(outcome: SaveOutcome): (r: Option<string>)
    ensures r.None? <==> outcome.Accepted?
  {
    match outcome
    case Accepted => None
    case Rejected(body) => Some("Database error: " + body)
    case Unreachable => Some("Failed to connect to database")
  }

  // ---------------------------------------------------------------------------
  // Handlers

  /** A direct message from a person with some text in it is interpreted. */
  predicate Handled(author: Author, isDirect: bool, content: string) {
    !author.isBot && isDirect && Trim(content) != ""
  }

  function OnMessage(l: Ledger, author: Author, isDirect: bool, content: string, now: nat,
                     reply: OracleReply, clock: Clock): (r: StepResult)
    ensures !Handled(author, isDirect, content) ==> r == StepResult(l, [])
    ensures forall k | k != ConfirmationId(author.id, now) :: (k in r.ledger <==> k in l)
    ensures forall k | k in l && k != ConfirmationId(author.id, now) :: r.ledger[k] == l[k]
  {
    if !Handled(author, isDirect, content) then StepResult(l, [])
    else
      var res := Interpret(JStr(Trim(content)), reply, clock);
      Record(l, author, now, res)
  }

  /** What a handled message does once it has been interpreted: a failure is
      quoted back, a success is stored under `authorId_now` before the prompt
      goes out. */
  function Record(l: Ledger, author: Author, now: nat, res: Interpretation): (r: StepResult)
    ensures res.Failure? ==> r == StepResult(l, [ParseFailedReply(ToJsString(res.error))])
    ensures res.Success? ==>
      var id := ConfirmationId(author.id, now);
      && r.ledger == l[id := Pending(author.id, author.username, res.draft, now)]
      && |r.outputs| == 1 && r.outputs[0].Prompt? && r.outputs[0].id == id
      && forall b | b in r.outputs[0].buttons :: ParseCustomId(b).1 == id
    ensures forall k | k != ConfirmationId(author.id, now) :: (k in r.ledger <==> k in l)
    ensures forall k | k in l && k != ConfirmationId(author.id, now) :: r.ledger[k] == l[k]
  {
    match res
    case Failure(error) => StepResult(l, [ParseFailedReply(ToJsString(error))])
    case Success(draft) =>
      var id := ConfirmationId(author.id, now);
      var buttons := Buttons(id);
      StepResult(l[id := Pending(author.id, author.username, draft, now)],
                 [Prompt(id, Summarize(draft), buttons)])
  }

  function OnButton(l: Ledger, customId: string, actorId: string, save: SaveOutcome): (r: StepResult)
    ensures r.ledger.Keys <= l.Keys
    ensures forall k | k in r.ledger :: r.ledger[k] == l[k]
  {
    var (action, id) := ParseCustomId(customId);
    if id == "" || id !in l then StepResult(l, [ExpiredReply])
    else if l[id].userId != actorId then StepResult(l, [NotYourCalloutReply])
    else if action == "confirm" then
      var saved := match SaveError(save)
        case None => SavedReply(l[id].draft)
        case Some(e) => SaveFailedReply(e);
      StepResult(l - {id}, [SaveRequest(MakePayload(l[id])), saved])
    else if action == "cancel" then StepResult(l - {id}, [CancelledReply])
    else if action == "edit" then StepResult(l, [EditHelpReply])
    else StepResult(l, [])
  }

  function OnTimer(l: Ledger, id: string): (r: StepResult)
    ensures r.ledger == l - {id}
    ensures r.outputs != [] <==> id in l
  {
    if id in l then StepResult(l - {id}, [ExpiryNotice(id)]) else StepResult(l, [])
  }

  /** The periodic clean-up: drops every entry older than the lifetime. */
  function SweepLedger(l: Ledger, now: nat): (r: Ledger)
    ensures forall k :: k in r <==> k in l && now - l[k].timestamp <= Ttl
    ensures forall k | k in r :: r[k] == l[k]
  {
    map k | k in l && now - l[k].timestamp <= Ttl :: l[k]
  }

  function Step(l: Ledger, e: Event): (r: StepResult)
    ensures e.OtherInteraction? ==> r == StepResult(l, [])
    ensures e.Sweep? ==> r.outputs == [] && r.ledger.Keys <= l.Keys
    ensures !e.MessageCreated? ==> r.ledger.Keys <= l.Keys
  {
    match e
    case MessageCreated(author, isDirect, content, now, reply, clock) =>
      OnMessage(l, author, isDirect, content, now, reply, clock)
    case ButtonPressed(customId, actorId, save) => OnButton(l, customId, actorId, save)
    case OtherInteraction => StepResult(l, [])
    case TimerFired(id) => OnTimer(l, id)
    case Sweep(now) => StepResult(SweepLedger(l, now), [])
  }

  // ---------------------------------------------------------------------------
  // Properties of the transitions

  /** Messages from bots, from other channels than direct messages, and blank
      messages change nothing and get no reply. */
  lemma IgnoredMessages(l: Ledger, author: Author, isDirect: bool, content: string, now: nat,
                        reply: OracleReply, clock: Clock)
    requires author.isBot || !isDirect || Trim(content) == ""
    ensures Step(l, MessageCreated(author, isDirect, content, now, reply, clock)) == StepResult(l, [])
  {
  }

  /** A handled message is interpreted once, on its trimmed text. */
  lemma HandledMessage(l: Ledger, author: Author, content: string, now: nat, reply: OracleReply, clock: Clock)
    requires Handled(author, true, content)
    ensures Step(l, MessageCreated(author, true, content, now, reply, clock))
         == Record(l, author, now, Interpret(JStr(Trim(content)), reply, clock))
  {
  }

  /** End to end: a handled direct message dated today, with a known status and
      no error, is stored as a pending confirmation keyed by its author and time. */
  lemma HandledTodayIsStored(l: Ledger, author: Author, content: string, now: nat,
                             raw: string, fields: map<string, JValue>, clock: Clock)
    requires Handled(author, true, content) && LongEnough(JStr(Trim(content)))
    requires !Truthy(Field(fields, "error"))
    requires Field(fields, "status").JStr? && StatusOf(ToUpper(Field(fields, "status").s)).Some?
    requires Field(fields, "date") == JStr(clock.utcToday) && WellFormed(clock.utcToday)
    requires Year(clock.utcToday) >= clock.localYear
    ensures var r := OnMessage(l, author, true, content, now, Content(raw, JsonObject(fields)), clock);
      && ConfirmationId(author.id, now) in r.ledger
      && r.ledger[ConfirmationId(author.id, now)].userId == author.id
      && r.ledger[ConfirmationId(author.id, now)].timestamp == now
      && r.ledger[ConfirmationId(author.id, now)].draft.date == clock.utcToday
      && |r.outputs| == 1 && r.outputs[0].Prompt?
  {
    TodayIsAccepted(fields, clock);
  }

  /** A button for a missing (expired, used or never issued) confirmation gets
      the expired reply and changes nothing. */
  lemma AbsentConfirmation(l: Ledger, customId: string, actorId: string, save: SaveOutcome)
    requires ParseCustomId(customId).1 !in l
    ensures Step(l, ButtonPressed(customId, actorId, save)) == StepResult(l, [ExpiredReply])
  {
  }

  /** Only the author of a callout can act on it. */
  lemma ForeignActor(l: Ledger, action: string, id: string, actorId: string, save: SaveOutcome)
    requires '_' !in action && id != "" && id in l && l[id].userId != actorId
    ensures Step(l, ButtonPressed(CustomId(action, id), actorId, save)) == StepResult(l, [NotYourCalloutReply])
  {
    CustomIdRoundTrip(action, id);
  }

  /** Confirming sends exactly one save request, for the stored draft, and
      removes the entry whether or not the save succeeded. */
  lemma ConfirmSavesOnce(l: Ledger, id: string, save: SaveOutcome)
    requires id != "" && id in l
    ensures var r := Step(l, ButtonPressed(CustomId("confirm", id), l[id].userId, save));
      && r.ledger == l - {id}
      && |r.outputs| == 2
      && r.outputs[0] == SaveRequest(MakePayload(l[id]))
      && !r.outputs[1].SaveRequest?
      && (r.outputs[1].SavedReply? <==> save.Accepted?)
  {
    CustomIdRoundTrip("confirm", id);
  }

  /** Pressing confirm twice saves once: the second press finds the entry gone. */
  lemma DoubleConfirm(l: Ledger, id: string, save1: SaveOutcome, save2: SaveOutcome)
    requires id != "" && id in l
    ensures var press := CustomId("confirm", id);
      var r1 := Step(l, ButtonPressed(press, l[id].userId, save1));
      var r2 := Step(r1.ledger, ButtonPressed(press, l[id].userId, save2));
      && r2 == StepResult(r1.ledger, [ExpiredReply])
      && |set i | 0 <= i < |r1.outputs + r2.outputs| && (r1.outputs + r2.outputs)[i].SaveRequest?| == 1
  {
    var press := CustomId("confirm", id);
    CustomIdRoundTrip("confirm", id);
    var r1 := Step(l, ButtonPressed(press, l[id].userId, save1));
    var r2 := Step(r1.ledger, ButtonPressed(press, l[id].userId, save2));
    var all := r1.outputs + r2.outputs;
    assert all == [SaveRequest(MakePayload(l[id])), r1.outputs[1], ExpiredReply];
    assert (set i | 0 <= i < |all| && all[i].SaveRequest?) == {0};
  }

  /** Cancelling removes the entry. */
  lemma CancelRemoves(l: Ledger, id: string, save: SaveOutcome)
    requires id != "" && id in l
    ensures Step(l, ButtonPressed(CustomId("cancel", id), l[id].userId, save)) == StepResult(l - {id}, [CancelledReply])
  {
    CustomIdRoundTrip("cancel", id);
  }

  /** Editing keeps the entry, so confirming it afterwards still saves the
      original draft. */
  lemma EditThenConfirm(l: Ledger, id: string, save1: SaveOutcome, save2: SaveOutcome)
    requires id != "" && id in l
    ensures var r1 := Step(l, ButtonPressed(CustomId("edit", id), l[id].userId, save1));
      && r1 == StepResult(l, [EditHelpReply])
      && var r2 := Step(r1.ledger, ButtonPressed(CustomId("confirm", id), l[id].userId, save2));
         |r2.outputs| == 2 && r2.outputs[0] == SaveRequest(MakePayload(l[id]))
  {
    CustomIdRoundTrip("edit", id);
    CustomIdRoundTrip("confirm", id);
  }

  /** The one-shot timer removes its entry only if it is still there. */
  lemma TimerExpiry(l: Ledger, id: string)
    ensures Step(l, TimerFired(id)).ledger == l - {id}
    ensures id !in l ==> Step(l, TimerFired(id)) == StepResult(l, [])
  {
  }

  /** The sweep keeps exactly the entries at most ten minutes old; an entry
      exactly ten minutes old survives. */
  lemma SweepKeepsBoundary(l: Ledger, id: string, now: nat)
    requires id in l && now - l[id].timestamp == Ttl
    ensures id in Step(l, Sweep(now)).ledger
  {
  }

  /** A second sweep at the same time changes nothing. */
  lemma SweepIdempotent(l: Ledger, now: nat)
    ensures SweepLedger(SweepLedger(l, now), now) == SweepLedger(l, now)
  {
  }

  /** No event other than an accepted message adds an entry. */
  lemma OnlyMessagesAdd(l: Ledger, e: Event)
    requires !e.MessageCreated?
    ensures Step(l, e).ledger.Keys <= l.Keys
  {
  }
}

=== FILE: middleware.dfy ===
/** The session-based request guards of the standalone middleware module. A
    guard either passes the request on, answers it, or throws because the
    request has no session at all. */
module Middleware {
  import opened Js

  datatype SessionUser = SessionUser(isAdmin: JValue)

  /** `req.session`, when there is one, and its `user`, when there is one. */
  datatype Session = Session(user: Option<SessionUser>)

  datatype Outcome = Next | Reject(code: int, message: string) | Throws

  /** Only requests whose session holds a user go on; the rest get 401. */
  function IsAuthenticated(session: Option<Session>): (r: Outcome)
    ensures r.Next? <==> session.Some? && session.value.user.Some?
    ensures !r.Next? ==> r == Reject(401, "Not logged in")
  {
    if session.Some? && session.value.user.Some? then Next else Reject(401, "Not logged in")
  }

  /** Only a session user with a truthy admin flag goes on; a session without
      a user gets 403, and a request without a session makes the guard throw. */
  function IsAdmin(session: Option<Session>): (r: Outcome)
    ensures r.Next? <==> session.Some? && session.value.user.Some? && Truthy(session.value.user.value.isAdmin)
    ensures r.Throws? <==> session.None?
    ensures r.Reject? ==> r == Reject(403, "Admin only")
  {
    if session.None? then Throws
    else if session.value.user.Some? && Truthy(session.value.user.value.isAdmin) then Next
    else Reject(403, "Admin only")
  }

  /** Whoever passes the admin guard passes the login guard too. */
  lemma AdminImpliesAuthenticated(session: Option<Session>)
    requires IsAdmin(session).Next?
    ensures IsAuthenticated(session).Next?
  {
  }
}

=== FILE: server.dfy ===
/** The web server's callout and user-administration rules over an abstract
    database value: request validation, past-date rejection by string
    comparison, row normalisation, the merge performed by an update,
    owner-or-admin authorisation, the bot-secret gate and the guards on
    promoting, demoting and deleting users. */
module Server {
  import opened Js
  import opened Dates

  /** A callout row; `status` is always upper-cased when written. */
  datatype Row = Row(user: JValue, status: string, reason: JValue, delay: JValue, date: string, did: string)

  datatype UserRow = UserRow(username: string, isAdmin: int)

  /** The two tables, keyed by primary key, and the next auto-increment id. */
  datatype Db = Db(callouts: map<nat, Row>, nextId: nat, users: map<string, UserRow>)

  /** Every callout id was handed out by the auto-increment counter. */
  predicate ValidDb(db: Db) {
    forall id | id in db.callouts :: id < db.nextId
  }

  datatype Response = Ok | Error(code: int, message: string)

  datatype Reply = Reply(db: Db, response: Response)

  type Body = map<string, JValue>

  /** The logged-in user as the session layer restores it. */
  datatype Caller = Caller(id: string, isAdmin: int)

  /** Everything the handlers read from the host: the configured bot secret,
      today's date in the server's zone and in UTC, the time zones the host
      knows, and the host's own parser for date values that are not of the
      `YYYY-MM-DD` form (its ISO date, or `None` when the date is invalid). */
  datatype Env = Env(botSecret: Option<string>, serverToday: string, utcToday: string,
                     zones: set<string>, looseDate: JValue -> Option<string>)

  /** The account that may never be deleted. */
  const ProtectedId := "232260865452146688"

  predicate IsStatusName(upper: string) {
    upper == "LATE" || upper == "OUT"
  }

  // ---------------------------------------------------------------------------
  // Guards

  /** The bot endpoint's shared-secret check. */
  function BotSecretGate(secret: Option<string>, header: Option<string>): (r: Response)
    ensures r.Ok? <==> secret.Some? && secret.value != "" && header == secret
    ensures r.Error? && r.code == 500 <==> secret.None? || secret.value == ""
    ensures r.Error? ==> r.code == 500 || r.code == 401
  {
    if secret.None? || secret.value == "" then Error(500, "Bot authentication not configured")
    else if header.None? || header.value == "" then Error(401, "Bot secret required")
    else if header.value != secret.value then Error(401, "Invalid bot secret")
    else Ok
  }

  function RequireLogin(caller: Option<Caller>): (r: Response)
    ensures r.Ok? <==> caller.Some?
  {
    if caller.Some? then Ok else Error(401, "Authentication required")
  }

  /** The server's admin guard: the stored flag must be exactly 1. */
  function RequireAdmin(caller: Option<Caller>): (r: Response)
    ensures r.Ok? <==> caller.Some? && caller.value.isAdmin == 1
  {
    if caller.Some? && caller.value.isAdmin == 1 then Ok else Error(403, "Admin privileges required")
  }

  // ---------------------------------------------------------------------------
  // Dates

  /** `new Date(v).toISOString().split('T')[0]`, or `None` when the date is
      invalid. A value whose string form is `YYYY-MM-DD` is read as that UTC
      date (with V8's carrying of day overflow); anything else goes to the
      host's parser. */
  function HostDate(env: Env, v: JValue): (r: Option<string>)
    ensures (v.JStr? || v.JCompound?) && WellFormed(ToJsString(v)) ==>
      (r.Some? <==> ParseIsoDate(ToJsString(v)).Some?) && (r.Some? ==> WellFormed(r.value))
  {
    if (v.JStr? || v.JCompound?) && WellFormed(ToJsString(v)) then
      match ParseIsoDate(ToJsString(v))
      case None => None
      case Some(d) => Some(IsoString(d))
    else env.looseDate(v)
  }

  /** `formatForDB`: the ISO date of the value, or today's UTC date when the
      conversion throws. */
  function FormatForDB(env: Env, v: JValue): (r: string)
    ensures HostDate(env, v).Some? ==> r == HostDate(env, v).value
    ensures HostDate(env, v).None? ==> r == env.utcToday
  {
    match HostDate(env, v)
    case Some(s) => s
    case None => env.utcToday
  }

  /** A well-formed string naming a real date is stored as it is. */
  lemma FormatForDBKeepsRealDates(env: Env, s: string)
    requires WellFormed(s) && Valid(Parse(s))
    ensures FormatForDB(env, JStr(s)) == s
  {
    RealDateRoundTrip(s);
  }

  /** A well-formed string whose month or day V8 refuses is stored as today's
      UTC date. */
  lemma FormatForDBFallsBack(env: Env, s: string)
    requires WellFormed(s) && !(1 <= Month(s) <= 12 && 1 <= Day(s) <= 31)
    ensures FormatForDB(env, JStr(s)) == env.utcToday
  {
  }

  /** A day past the end of its month (but not past 31) is carried into the
      next month. */
  lemma FormatForDBCarriesOverflow(env: Env, s: string)
    requires WellFormed(s) && 1 <= Month(s) <= 12 && DaysInMonth(Year(s), Month(s)) < Day(s) <= 31
    ensures Month(s) < 12 && 0 <= Year(s) <= 9999
    ensures FormatForDB(env, JStr(s))
            == IsoString(Ymd(Year(s), Month(s) + 1, Day(s) - DaysInMonth(Year(s), Month(s))))
  {
    var d := ParseIsoDate(s).value;
    assert d == Ymd(Year(s), Month(s) + 1, Day(s) - DaysInMonth(Year(s), Month(s)));
    assert Valid(d) && 0 <= d.year <= 9999;
  }

  /** The instance of the carry above for 30 February 2025. */
  lemma FormatForDBFeb30(env: Env)
    ensures FormatForDB(env, JStr("2025-02-30")) == "2025-03-02"
  {
    Feb30IsMarch2();
  }

  /** `processTimezoneData`: a truthy time zone must be known and a truthy
      date must convert; the result is the converted date, if one was given. */
  function ProcessTimezoneData(env: Env, body: Body): (r: Result)
    ensures r.Accepted? ==> (r.serverDate.Some? <==> Truthy(Field(body, "date")))
    ensures r.Accepted? && r.serverDate.Some? ==> HostDate(env, Field(body, "date")) == r.serverDate
  {
    var tz := Field(body, "timezone");
    var date := Field(body, "date");
    if Truthy(tz) && ToJsString(tz) !in env.zones then Refused(Error(400, "Invalid timezone"))
    else if Truthy(date) && HostDate(env, date).None? then Refused(Error(400, "Invalid date format"))
    else if Truthy(date) then Accepted(Some(FormatForDB(env, date)))
    else Accepted(None)
  }

  datatype Result = Accepted(serverDate: Option<string>) | Refused(response: Response)

  // ---------------------------------------------------------------------------
  // Creating callouts

  /** Appends a row under the next auto-increment id. */
  function Insert(db: Db, row: Row): (r: Db)
    requires ValidDb(db)
    ensures ValidDb(r) && r.users == db.users
    ensures r.callouts.Keys == db.callouts.Keys + {db.nextId} && db.nextId !in db.callouts
    ensures forall id | id in db.callouts :: r.callouts[id] == db.callouts[id]
    ensures r.callouts[db.nextId] == row
  {
    Db(db.callouts[db.nextId := row], db.nextId + 1, db.users)
  }

  /** `POST /api/bot/callouts`. */
  function BotCreate(db: Db, env: Env, header: Option<string>, body: Body): (r: Reply)
    requires ValidDb(db)
    ensures ValidDb(r.db)
    ensures !r.response.Ok? ==> r.db == db
    ensures r.response.Ok? ==>
      && BotSecretGate(env.botSecret, header).Ok?
      && Field(body, "status").JStr?
      && Truthy(Field(body, "date")) && WellFormed(ToJsString(Field(body, "date")))
      && exists row :: r.db == Insert(db, row) && BotRow(env, body, row)
    ensures r.response.Ok? <==>
      && BotSecretGate(env.botSecret, header).Ok?
      && Truthy(Field(body, "user"))
      && Field(body, "status").JStr? && IsStatusName(ToUpper(Field(body, "status").s))
      && Truthy(Field(body, "date")) && WellFormed(ToJsString(Field(body, "date")))
      && !LexLess(FormatForDB(env, Field(body, "date")), env.serverToday)
  {
    var gate := BotSecretGate(env.botSecret, header);
    var user, status, date := Field(body, "user"), Field(body, "status"), Field(body, "date");
    if gate.Error? then Reply(db, gate)
    else if !Truthy(user) || !Truthy(status) || !Truthy(date) then
      Reply(db, Error(400, "Missing required fields: user, status, date"))
    // only strings have toUpperCase
    else if !status.JStr? then Reply(db, Error(500, "Failed to create callout"))
    else if !IsStatusName(ToUpper(status.s)) then Reply(db, Error(400, "Status must be LATE or OUT"))
    // the regular expression tests the string the value coerces to
    else if !WellFormed(ToJsString(date)) then Reply(db, Error(400, "Date must be in YYYY-MM-DD format"))
    else
      var serverDate := FormatForDB(env, date);
      if LexLess(serverDate, env.serverToday) then Reply(db, Error(400, "Cannot create callouts for past dates"))
      else
        var row := Row(user, ToUpper(status.s), OrNull(Field(body, "reason")), OrNull(Field(body, "delay")), serverDate, "bot");
        assert BotRow(env, body, row);
        Reply(Insert(db, row), Ok)
  }

  /** The row both create endpoints insert for a body: the user as given, the
      body's status upper-cased and one of LATE and OUT, falsy reason and delay
      stored as null, and the given date and owner. */
  predicate CreatedRow(body: Body, date: string, did: string, row: Row) {
    && row.user == Field(body, "user") && Truthy(row.user)
    && Field(body, "status").JStr? && row.status == ToUpper(Field(body, "status").s)
    && IsStatusName(row.status)
    && row.reason == OrNull(Field(body, "reason"))
    && row.delay == OrNull(Field(body, "delay"))
    && row.date == date && row.did == did
  }

  /** The row the bot endpoint writes: the body's date as `formatForDB` stores
      it, not before today in the server's zone, and `bot` as the owner. */
  predicate BotRow(env: Env, body: Body, row: Row) {
    && CreatedRow(body, FormatForDB(env, Field(body, "date")), "bot", row)
    && !LexLess(row.date, env.serverToday)
  }

  /** Past the secret gate, a falsy user, status or date is refused as missing. */
  lemma BotMissingFieldsRefused(db: Db, env: Env, header: Option<string>, body: Body)
    requires ValidDb(db) && BotSecretGate(env.botSecret, header).Ok?
    requires !Truthy(Field(body, "user")) || !Truthy(Field(body, "status")) || !Truthy(Field(body, "date"))
    ensures BotCreate(db, env, header, body) == Reply(db, Error(400, "Missing required fields: user, status, date"))
  {
  }

  /** Past the secret gate and with all fields present, a string status that
      upper-cases to neither LATE nor OUT is refused. */
  lemma BotBadStatusRefused(db: Db, env: Env, header: Option<string>, body: Body)
    requires ValidDb(db) && BotSecretGate(env.botSecret, header).Ok?
    requires Truthy(Field(body, "user")) && Truthy(Field(body, "date"))
    requires Field(body, "status").JStr? && Field(body, "status").s != ""
    requires !IsStatusName(ToUpper(Field(body, "status").s))
    ensures BotCreate(db, env, header, body) == Reply(db, Error(400, "Status must be LATE or OUT"))
  {
  }

  /** With a valid status, a date whose string form is not `YYYY-MM-DD` is
      refused before any conversion. */
  lemma BotBadDateFormatRefused(db: Db, env: Env, header: Option<string>, body: Body)
    requires ValidDb(db) && BotSecretGate(env.botSecret, header).Ok?
    requires Truthy(Field(body, "user")) && Truthy(Field(body, "date"))
    requires Field(body, "status").JStr? && IsStatusName(ToUpper(Field(body, "status").s))
    requires !WellFormed(ToJsString(Field(body, "date")))
    ensures BotCreate(db, env, header, body) == Reply(db, Error(400, "Date must be in YYYY-MM-DD format"))
  {
    assert Field(body, "status").s != "" by { assert |ToUpper(Field(body, "status").s)| == |Field(body, "status").s|; }
  }

  /** A well-formed date that the server-zone conversion puts before today is
      refused, and nothing is written. */
  lemma BotPastDateRefused(db: Db, env: Env, header: Option<string>, body: Body)
    requires ValidDb(db) && BotSecretGate(env.botSecret, header).Ok?
    requires Truthy(Field(body, "user")) && Truthy(Field(body, "date"))
    requires Field(body, "status").JStr? && IsStatusName(ToUpper(Field(body, "status").s))
    requires WellFormed(ToJsString(Field(body, "date")))
    requires LexLess(FormatForDB(env, Field(body, "date")), env.serverToday)
    ensures BotCreate(db, env, header, body) == Reply(db, Error(400, "Cannot create callouts for past dates"))
  {
    assert Field(body, "status").s != "" by { assert |ToUpper(Field(body, "status").s)| == |Field(body, "status").s|; }
  }

  /** The bot endpoint accepts a status in any letter case. */
  lemma BotStatusIgnoresCase(db: Db, env: Env, header: Option<string>, body: Body, s: string, t: string)
    requires ValidDb(db) && SameIgnoringCase(s, t) && t != ""
    requires Field(body, "status") == JStr(s)
    ensures BotCreate(db, env, header, body) == BotCreate(db, env, header, body["status" := JStr(t)])
  {
    UpperOfSameIgnoringCase(s, t);
    var other := body["status" := JStr(t)];
    assert |s| == |ToLower(s)| == |ToLower(t)| == |t|;
    assert Truthy(JStr(s)) && Truthy(JStr(t));
    assert Field(other, "status") == JStr(t);
    assert Field(other, "user") == Field(body, "user") && Field(other, "date") == Field(body, "date");
    assert Field(other, "reason") == Field(body, "reason") && Field(other, "delay") == Field(body, "delay");
  }

  /** A callout for today in the server's zone is accepted on the bot path. */
  lemma BotAcceptsToday(db: Db, env: Env, body: Body)
    requires ValidDb(db) && env.botSecret.Some? && env.botSecret.value != ""
    requires WellFormed(env.serverToday) && Valid(Parse(env.serverToday))
    requires Truthy(Field(body, "user")) && Field(body, "status") == JStr("late")
    requires Field(body, "date") == JStr(env.serverToday)
    ensures BotCreate(db, env, env.botSecret, body).response.Ok?
  {
    RealDateRoundTrip(env.serverToday);
    LexLessIrreflexive(env.serverToday);
    assert ToUpper("late") == "LATE";
  }

  /** `POST /api/callouts`: like the bot path, but the date goes through the
      time-zone step and the owner is the logged-in user (or `anonymous` when
      the session user has an empty id). */
  function UserCreate(db: Db, env: Env, caller: Option<Caller>, body: Body): (r: Reply)
    requires ValidDb(db)
    ensures ValidDb(r.db)
    ensures !r.response.Ok? ==> r.db == db
    ensures r.response.Ok? ==>
      && caller.Some?
      && ProcessTimezoneData(env, body).Accepted?
      && ProcessTimezoneData(env, body).serverDate.Some?
      && exists row ::
        && r.db == Insert(db, row)
        && CreatedRow(body, ProcessTimezoneData(env, body).serverDate.value,
                      if caller.value.id != "" then caller.value.id else "anonymous", row)
        && !LexLess(row.date, env.serverToday)
    ensures r.response.Ok? <==>
      && caller.Some?
      && ProcessTimezoneData(env, body).Accepted?
      && Truthy(Field(body, "user"))
      && Field(body, "status").JStr? && IsStatusName(ToUpper(Field(body, "status").s))
      && ProcessTimezoneData(env, body).serverDate.Some? && ProcessTimezoneData(env, body).serverDate.value != ""
      && !LexLess(ProcessTimezoneData(env, body).serverDate.value, env.serverToday)
  {
    var login := RequireLogin(caller);
    if login.Error? then Reply(db, login)
    else
      match ProcessTimezoneData(env, body)
      case Refused(response) => Reply(db, response)
      case Accepted(serverDate) =>
        StoreUserCallout(db, env, body, serverDate, if caller.value.id != "" then caller.value.id else "anonymous")
  }

  /** The checks `POST /api/callouts` makes once the date is in the server's
      zone, and the insertion under the owner `did`. */
  function StoreUserCallout(db: Db, env: Env, body: Body, serverDate: Option<string>, did: string): (r: Reply)
    requires ValidDb(db)
    ensures ValidDb(r.db)
    ensures !r.response.Ok? ==> r.db == db
    ensures r.response.Ok? ==>
      && serverDate.Some?
      && exists row ::
        && r.db == Insert(db, row)
        && CreatedRow(body, serverDate.value, did, row)
        && !LexLess(row.date, env.serverToday)
    ensures r.response.Ok? <==>
      && Truthy(Field(body, "user"))
      && Field(body, "status").JStr? && IsStatusName(ToUpper(Field(body, "status").s))
      && serverDate.Some? && serverDate.value != ""
      && !LexLess(serverDate.value, env.serverToday)
  {
    var user, status := Field(body, "user"), Field(body, "status");
    if !Truthy(user) || !Truthy(status) || serverDate.None? || serverDate.value == "" then
      Reply(db, Error(400, "Missing required fields: user, status, date"))
    else if !status.JStr? then Reply(db, Error(500, "Failed to create callout"))
    else if !IsStatusName(ToUpper(status.s)) then Reply(db, Error(400, "Status must be LATE or OUT"))
    else if LexLess(serverDate.value, env.serverToday) then
      Reply(db, Error(400, "Cannot create callouts for past dates"))
    else
      var row := Row(user, ToUpper(status.s), OrNull(Field(body, "reason")), OrNull(Field(body, "delay")),
                     serverDate.value, did);
      assert CreatedRow(body, serverDate.value, did, row);
      Reply(Insert(db, row), Ok)
  }

  /** On the user path a converted date before today is refused with nothing
      written, and today itself is accepted. */
  lemma UserPastDateRefused(db: Db, env: Env, caller: Caller, body: Body, d: string)
    requires ValidDb(db) && ProcessTimezoneData(env, body) == Accepted(Some(d)) && d != ""
    requires Truthy(Field(body, "user"))
    requires Field(body, "status").JStr? && IsStatusName(ToUpper(Field(body, "status").s))
    ensures LexLess(d, env.serverToday) ==>
      UserCreate(db, env, Some(caller), body) == Reply(db, Error(400, "Cannot create callouts for past dates"))
    ensures d == env.serverToday ==> UserCreate(db, env, Some(caller), body).response.Ok?
  {
    assert Field(body, "status").s != "" by { assert |ToUpper(Field(body, "status").s)| == |Field(body, "status").s|; }
    LexLessIrreflexive(d);
  }

  // ---------------------------------------------------------------------------
  // Updating and deleting callouts

  /** Owner-or-admin: the rule both the update and the delete route apply. */
  predicate MayModify(caller: Caller, row: Row) {
    caller.isAdmin == 1 || row.did == caller.id
  }

  /** The status an update writes: a non-empty string is upper-cased, an absent,
      null or empty status keeps the prev one; any other value throws. */
  function MergedStatus(v: Option<JValue>, prev: string): Option<string> {
    if v.None? || v.value == JNull then Some(prev)
    else if !v.value.JStr? then None
    else if v.value.s == "" then Some(prev)
    else Some(ToUpper(v.value.s))
  }

  /** The row an update writes: a field present in the body (even as null)
      replaces the stored one; an absent field keeps it. */
  function Merge(prev: Row, status: string, body: Body, serverDate: Option<string>): (r: Row)
    ensures r.user == prev.user && r.did == prev.did && r.status == status
    ensures "reason" in body ==> r.reason == body["reason"]
    ensures "reason" !in body ==> r.reason == prev.reason
    ensures "delay" in body ==> r.delay == body["delay"]
    ensures "delay" !in body ==> r.delay == prev.delay
    ensures serverDate.Some? && serverDate.value != "" ==> r.date == serverDate.value
    ensures serverDate.None? ==> r.date == prev.date
  {
    Row(prev.user, status,
        if "reason" in body then body["reason"] else prev.reason,
        if "delay" in body then body["delay"] else prev.delay,
        if serverDate.Some? && serverDate.value != "" then serverDate.value else prev.date,
        prev.did)
  }

  /** The body's status, if the key is present at all. */
  function StatusField(body: Body): Option<JValue> {
    if "status" in body then Some(body["status"]) else None
  }

  /** `PUT /api/callouts/:id`: on success the row becomes the merge of the
      stored row with the body and the converted date, and a converted date
      that is used is not before today in the server's zone. */
  function Update(db: Db, env: Env, caller: Option<Caller>, id: nat, body: Body): (r: Reply)
    ensures r.db.nextId == db.nextId && r.db.users == db.users
    ensures !r.response.Ok? ==> r.db == db
    ensures r.response.Ok? ==>
      && caller.Some? && id in db.callouts && MayModify(caller.value, db.callouts[id])
      && ProcessTimezoneData(env, body).Accepted?
      && MergedStatus(StatusField(body), db.callouts[id].status).Some?
      && r.db.callouts == db.callouts[id := Merge(db.callouts[id],
                                                  MergedStatus(StatusField(body), db.callouts[id].status).value,
                                                  body, ProcessTimezoneData(env, body).serverDate)]
      && (IsStatusName(db.callouts[id].status) ==> IsStatusName(r.db.callouts[id].status))
    ensures r.response.Ok? && ProcessTimezoneData(env, body).serverDate.Some?
            && ProcessTimezoneData(env, body).serverDate.value != "" ==>
      !LexLess(r.db.callouts[id].date, env.serverToday)
  {
    var login := RequireLogin(caller);
    if login.Error? then Reply(db, login)
    else
      match ProcessTimezoneData(env, body)
      case Refused(response) => Reply(db, response)
      case Accepted(serverDate) =>
        var status := Field(body, "status");
        if id !in db.callouts then Reply(db, Error(404, "Callout not found"))
        else if !MayModify(caller.value, db.callouts[id]) then
          Reply(db, Error(403, "You can only edit your own callouts"))
        // only strings have toUpperCase
        else if Truthy(status) && !status.JStr? then Reply(db, Error(500, "Failed to update callout"))
        else if Truthy(status) && !IsStatusName(ToUpper(status.s)) then
          Reply(db, Error(400, "Status must be LATE or OUT"))
        else if serverDate.Some? && serverDate.value != "" && LexLess(serverDate.value, env.serverToday) then
          Reply(db, Error(400, "Cannot update to past dates"))
        else
          var prev := db.callouts[id];
          match MergedStatus(StatusField(body), prev.status)
          case None => Reply(db, Error(500, "Failed to update callout"))
          case Some(newStatus) =>
            Reply(db.(callouts := db.callouts[id := Merge(prev, newStatus, body, serverDate)]), Ok)
  }

  /** A converted date before today is refused once the row and the status
      have passed their checks, and nothing is written. */
  lemma UpdateRejectsPastDate(db: Db, env: Env, caller: Caller, id: nat, body: Body, date: string)
    requires id in db.callouts && MayModify(caller, db.callouts[id])
    requires ProcessTimezoneData(env, body) == Accepted(Some(date)) && date != ""
    requires LexLess(date, env.serverToday)
    requires Truthy(Field(body, "status")) ==>
      Field(body, "status").JStr? && IsStatusName(ToUpper(Field(body, "status").s))
    ensures Update(db, env, Some(caller), id, body) == Reply(db, Error(400, "Cannot update to past dates"))
  {
  }

  /** Once the time-zone step accepts, a missing row is reported as such. */
  lemma UpdateMissingRow(db: Db, env: Env, caller: Caller, id: nat, body: Body)
    requires ProcessTimezoneData(env, body).Accepted? && id !in db.callouts
    ensures Update(db, env, Some(caller), id, body) == Reply(db, Error(404, "Callout not found"))
  {
  }

  /** Once the time-zone step accepts, a caller who is neither an admin nor the
      owner is refused, whatever the body asks for. */
  lemma UpdateForeignRow(db: Db, env: Env, caller: Caller, id: nat, body: Body)
    requires ProcessTimezoneData(env, body).Accepted?
    requires id in db.callouts && !MayModify(caller, db.callouts[id])
    ensures Update(db, env, Some(caller), id, body) == Reply(db, Error(403, "You can only edit your own callouts"))
  {
  }

  /** A permitted caller's update with a LATE/OUT status (in any case) and a
      date that is not in the past succeeds. */
  lemma UpdatePermittedSucceeds(db: Db, env: Env, caller: Caller, id: nat, body: Body)
    requires id in db.callouts && MayModify(caller, db.callouts[id])
    requires ProcessTimezoneData(env, body).Accepted?
    requires "status" in body && body["status"].JStr? && IsStatusName(ToUpper(body["status"].s))
    requires var d := ProcessTimezoneData(env, body).serverDate;
      d.Some? && d.value != "" ==> !LexLess(d.value, env.serverToday)
    ensures Update(db, env, Some(caller), id, body).response.Ok?
  {
    assert body["status"].s != "" by { assert |ToUpper(body["status"].s)| == |body["status"].s|; }
    assert Field(body, "status") == body["status"];
  }

  /** An update that supplies nothing but the route leaves the row as it was. */
  lemma EmptyUpdateKeepsRow(db: Db, env: Env, caller: Caller, id: nat)
    requires id in db.callouts && MayModify(caller, db.callouts[id])
    ensures Update(db, env, Some(caller), id, map[]) == Reply(db, Ok)
  {
    assert db.callouts[id := db.callouts[id]] == db.callouts;
  }

  /** A supplied status, reason, delay and date all overwrite the stored ones. */
  lemma FullUpdateOverwrites(db: Db, env: Env, caller: Caller, id: nat, s: string, reason: JValue, delay: JValue, date: string)
    requires id in db.callouts && MayModify(caller, db.callouts[id])
    requires IsStatusName(ToUpper(s))
    requires WellFormed(date) && Valid(Parse(date)) && !LexLess(date, env.serverToday)
    ensures var body := map["status" := JStr(s), "reason" := reason, "delay" := delay, "date" := JStr(date)];
      Update(db, env, Some(caller), id, body).db.callouts[id]
      == Row(db.callouts[id].user, ToUpper(s), reason, delay, date, db.callouts[id].did)
  {
    var body := map["status" := JStr(s), "reason" := reason, "delay" := delay, "date" := JStr(date)];
    assert "timezone" !in body && Field(body, "date") == JStr(date) && Field(body, "status") == JStr(s);
    FormatForDBKeepsRealDates(env, date);
    assert ProcessTimezoneData(env, body) == Accepted(Some(date));
    assert s != "" by { assert |ToUpper(s)| == |s|; }
    var prev := db.callouts[id];
    assert MergedStatus(Some(JStr(s)), prev.status) == Some(ToUpper(s));
    assert Update(db, env, Some(caller), id, body).db.callouts[id] == Merge(prev, ToUpper(s), body, Some(date));
  }

  /** `DELETE /api/callouts/:id`. */
  function Delete(db: Db, caller: Option<Caller>, id: nat): (r: Reply)
    ensures !r.response.Ok? ==> r.db == db
    ensures r.response.Ok? ==>
      && caller.Some? && id in db.callouts && MayModify(caller.value, db.callouts[id])
      && r.db == db.(callouts := db.callouts - {id})
    ensures r.response.Ok? <==> caller.Some? && id in db.callouts && MayModify(caller.value, db.callouts[id])
    ensures caller.Some? && id !in db.callouts ==> r.response == Error(404, "Callout not found")
    ensures caller.Some? && id in db.callouts && !MayModify(caller.value, db.callouts[id]) ==>
      r.response == Error(403, "You can only delete your own callouts")
  {
    var login := RequireLogin(caller);
    if login.Error? then Reply(db, login)
    else if id !in db.callouts then Reply(db, Error(404, "Callout not found"))
    else if !MayModify(caller.value, db.callouts[id]) then Reply(db, Error(403, "You can only delete your own callouts"))
    else Reply(db.(callouts := db.callouts - {id}), Ok)
  }

  /** Rows the bot wrote can be changed or removed only by an admin (no person
      has the id `bot`). */
  lemma BotRowsAreAdminOnly(db: Db, env: Env, caller: Caller, id: nat, body: Body)
    requires id in db.callouts && db.callouts[id].did == "bot" && caller.id != "bot"
    requires caller.isAdmin != 1
    ensures Update(db, env, Some(caller), id, body).db == db
    ensures Delete(db, Some(caller), id) == Reply(db, Error(403, "You can only delete your own callouts"))
  {
  }

  // ---------------------------------------------------------------------------
  // User administration

  /** `PUT /api/admin/promote/:id`. */
  function Promote(db: Db, caller: Option<Caller>, id: string): (r: Reply)
    ensures !r.response.Ok? ==> r.db == db
    ensures r.response.Ok? <==> RequireAdmin(caller).Ok? && id in db.users && db.users[id].isAdmin != 1
    ensures r.response.Ok? ==> r.db == db.(users := db.users[id := db.users[id].(isAdmin := 1)])
  {
    var login := RequireLogin(caller);
    var admin := RequireAdmin(caller);
    if login.Error? then Reply(db, login)
    else if admin.Error? then Reply(db, admin)
    else if id !in db.users then Reply(db, Error(404, "User not found"))
    else if db.users[id].isAdmin == 1 then Reply(db, Error(400, "User is already an admin"))
    else Reply(db.(users := db.users[id := db.users[id].(isAdmin := 1)]), Ok)
  }

  /** `PUT /api/admin/demote/:id`. */
  function Demote(db: Db, caller: Option<Caller>, id: string): (r: Reply)
    ensures !r.response.Ok? ==> r.db == db
    ensures r.response.Ok? <==>
      RequireAdmin(caller).Ok? && id != caller.value.id && id in db.users && db.users[id].isAdmin != 0
    ensures r.response.Ok? ==> r.db == db.(users := db.users[id := db.users[id].(isAdmin := 0)])
  {
    var login := RequireLogin(caller);
    var admin := RequireAdmin(caller);
    if login.Error? then Reply(db, login)
    else if admin.Error? then Reply(db, admin)
    else if id == caller.value.id then Reply(db, Error(400, "You cannot demote yourself"))
    else if id !in db.users then Reply(db, Error(404, "User not found"))
    else if db.users[id].isAdmin == 0 then Reply(db, Error(400, "User is not an admin"))
    else Reply(db.(users := db.users[id := db.users[id].(isAdmin := 0)]), Ok)
  }

  /** `DELETE /api/admin/users/:id`: removes the user and, in the same
      transaction, every callout it owns. */
  function DeleteUser(db: Db, caller: Option<Caller>, id: string): (r: Reply)
    ensures !r.response.Ok? ==> r.db == db
    ensures r.response.Ok? <==>
      RequireAdmin(caller).Ok? && id != ProtectedId && id != caller.value.id && id in db.users
    ensures r.response.Ok? ==>
      && r.db.users == db.users - {id}
      && r.db.nextId == db.nextId
      && (forall k :: k in r.db.callouts <==> k in db.callouts && db.callouts[k].did != id)
      && (forall k | k in r.db.callouts :: r.db.callouts[k] == db.callouts[k])
  {
    var login := RequireLogin(caller);
    var admin := RequireAdmin(caller);
    if login.Error? then Reply(db, login)
    else if admin.Error? then Reply(db, admin)
    else if id == ProtectedId then Reply(db, Error(403, "Cannot delete protected user (DarkSparrow)"))
    else if id == caller.value.id then Reply(db, Error(400, "You cannot delete yourself"))
    else if id !in db.users then Reply(db, Error(404, "User not found"))
    else
      var kept := map k | k in db.callouts && db.callouts[k].did != id :: db.callouts[k];
      Reply(Db(kept, db.nextId, db.users - {id}), Ok)
  }

  /** No request can delete the protected account. */
  lemma ProtectedUserSurvives(db: Db, caller: Option<Caller>)
    requires ProtectedId in db.users
    ensures ProtectedId in DeleteUser(db, caller, ProtectedId).db.users
  {
  }
}

=== FILE: string_utils.dfy ===
/** The small string helpers of the front end's `utils/string` module:
    truncation with an ellipsis, HTML escaping and input trimming. */
module StringUtils {
  import opened Js

  /** `s.slice(0, end)`: a negative end counts back from the end of the string. */
  function SliceTo(s: string, end: int): (r: string)
    ensures end >= 0 ==> r == s[..if end <= |s| then end else |s|]
    ensures end < 0 ==> r == s[..if |s| + end >= 0 then |s| + end else 0]
  {
    var k := if end < 0 then (if |s| + end >= 0 then |s| + end else 0)
             else if end <= |s| then end else |s|;
    s[..k]
  }

  /** `truncate(text, maxLength)` as written: the kept prefix is
      `slice(0, maxLength - 3)`, so a `maxLength` below 3 counts back from the
      end of the text. */
  function Truncate(text: string, maxLength: int): (r: string)
    ensures |text| <= maxLength ==> r == text
    ensures |text| > maxLength ==> r == SliceTo(text, maxLength - 3) + "..."
  {
    if |text| <= maxLength then text else SliceTo(text, maxLength - 3) + "..."
  }

  /** For a limit of at least 3 a long text is cut to exactly the limit, ending
      in `...` after a prefix of the text. */
  lemma TruncateFits(text: string, maxLength: int)
    requires maxLength >= 3 && |text| > maxLength
    ensures |Truncate(text, maxLength)| == maxLength
    ensures Truncate(text, maxLength) == text[..maxLength - 3] + "..."
  {
  }

  /** With a limit below 3 the result can be longer than the text itself. */
  lemma TruncateOverruns()
    ensures Truncate("abcdef", 1) == "abcd..."
    ensures |Truncate("abcdef", 1)| > |"abcdef"|
  {
    assert SliceTo("abcdef", -2) == "abcd";
  }

  /** The kept prefix clamped at zero, the evident intent for small limits. */
  function TruncateClamped(text: string, maxLength: int): (r: string)
    ensures |text| <= maxLength ==> r == text
    ensures |text| > maxLength ==> r == text[..if maxLength >= 3 then maxLength - 3 else 0] + "..."
    ensures |r| <= if maxLength >= 3 then maxLength else 3
    ensures maxLength >= 3 ==> r == Truncate(text, maxLength)
  {
    if |text| <= maxLength then text
    else SliceTo(text, if maxLength >= 3 then maxLength - 3 else 0) + "..."
  }

  /** The entity each of `& < > " '` becomes; every other character stands for itself. */
  function EscapeChar(c: char): (r: string)
    ensures |r| >= 1
    ensures c !in "&<>\"'" ==> r == [c]
    ensures forall i | 0 <= i < |r| :: r[i] !in "<>\"'"
  {
    if c == '&' then "&amp;"
    else if c == '<' then "&lt;"
    else if c == '>' then "&gt;"
    else if c == '"' then "&quot;"
    else if c == '\'' then "&#39;"
    else [c]
  }

  /** `escapeHtml`. */
  function EscapeHtml(s: string): (r: string)
    ensures forall i | 0 <= i < |r| :: r[i] !in "<>\"'"
    ensures |r| >= |s|
  {
    if |s| == 0 then ""
    else
      var head, rest := EscapeChar(s[0]), EscapeHtml(s[1..]);
      assert forall i | |head| <= i < |head + rest| :: (head + rest)[i] == rest[i - |head|];
      head + rest
  }

  /** Escaping works character by character. */
  lemma {:induction false} EscapeHtmlAppend(a: string, b: string)
    ensures EscapeHtml(a + b) == EscapeHtml(a) + EscapeHtml(b)
  {
    if |a| == 0 {
      assert a + b == b;
    } else {
      assert (a + b)[0] == a[0];
      assert (a + b)[1..] == a[1..] + b;
      EscapeHtmlAppend(a[1..], b);
    }
  }

  /** Text without any of the five special characters is left unchanged. */
  lemma {:induction false} EscapeHtmlPlain(s: string)
    requires forall i | 0 <= i < |s| :: s[i] !in "&<>\"'"
    ensures EscapeHtml(s) == s
  {
    if |s| > 0 {
      EscapeHtmlPlain(s[1..]);
      assert s == [s[0]] + s[1..];
    }
  }

  /** Decoding of the five entities `escapeHtml` produces, the reference for its meaning. */
  function UnescapeHtml(s: string): string
    decreases |s|
  {
    if |s| == 0 then ""
    else if s[0] != '&' then [s[0]] + UnescapeHtml(s[1..])
    else if |s| >= 5 && s[..5] == "&amp;" then "&" + UnescapeHtml(s[5..])
    else if |s| >= 4 && s[..4] == "&lt;" then "<" + UnescapeHtml(s[4..])
    else if |s| >= 4 && s[..4] == "&gt;" then ">" + UnescapeHtml(s[4..])
    else if |s| >= 6 && s[..6] == "&quot;" then "\"" + UnescapeHtml(s[6..])
    else if |s| >= 5 && s[..5] == "&#39;" then "'" + UnescapeHtml(s[5..])
    else [s[0]] + UnescapeHtml(s[1..])
  }

  /** Each entity decodes to its character, and the rest is decoded on its own. */
  lemma UnescapeAmp(t: string)
    ensures UnescapeHtml("&amp;" + t) == "&" + UnescapeHtml(t)
  {
    var s := "&amp;" + t;
    assert s[..5] == "&amp;" && s[5..] == t;
  }

  lemma UnescapeLt(t: string)
    ensures UnescapeHtml("&lt;" + t) == "<" + UnescapeHtml(t)
  {
    var s := "&lt;" + t;
    assert s[1] == 'l';
    assert s[..4] == "&lt;" && s[4..] == t;
  }

  lemma UnescapeGt(t: string)
    ensures UnescapeHtml("&gt;" + t) == ">" + UnescapeHtml(t)
  {
    var s := "&gt;" + t;
    assert s[1] == 'g';
    assert s[..4] == "&gt;" && s[4..] == t;
  }

  lemma UnescapeQuot(t: string)
    ensures UnescapeHtml("&quot;" + t) == "\"" + UnescapeHtml(t)
  {
    var s := "&quot;" + t;
    assert s[1] == 'q';
    assert s[..6] == "&quot;" && s[6..] == t;
  }

  lemma UnescapeApos(t: string)
    ensures UnescapeHtml("&#39;" + t) == "'" + UnescapeHtml(t)
  {
    var s := "&#39;" + t;
    assert s[1] == '#';
    assert s[..5] == "&#39;" && s[5..] == t;
  }

  /** Decoding an escaped character followed by more text gives the
      character back, followed by the decoding of the rest. */
  lemma UnescapeAfterChar(c: char, t: string)
    ensures UnescapeHtml(EscapeChar(c) + t) == [c] + UnescapeHtml(t)
  {
    if c == '&' {
      UnescapeAmp(t);
    } else if c == '<' {
      UnescapeLt(t);
    } else if c == '>' {
      UnescapeGt(t);
    } else if c == '"' {
      UnescapeQuot(t);
    } else if c == '\'' {
      UnescapeApos(t);
    } else {
      var s := [c] + t;
      assert s[0] == c && s[1..] == t;
    }
  }

  /** Decoding an escaped text gives the text back. */
  lemma {:induction false} EscapeHtmlRoundTrip(s: string)
    ensures UnescapeHtml(EscapeHtml(s)) == s
  {
    if |s| > 0 {
      UnescapeAfterChar(s[0], EscapeHtml(s[1..]));
      EscapeHtmlRoundTrip(s[1..]);
      assert s == [s[0]] + s[1..];
    }
  }

  /** `sanitizeInput` here is `trim`. */
  function SanitizeInput(input: string): (r: string)
    ensures |r| > 0 ==> !IsJsSpace(r[0]) && !IsJsSpace(r[|r| - 1])
    ensures exists k :: StripsTo(input, k, r)
  {
    Trim(input)
  }

  lemma SanitizeInputIdempotent(input: string)
    ensures SanitizeInput(SanitizeInput(input)) == SanitizeInput(input)
  {
    TrimIdempotent(input);
  }
}
